=== FILE: README.md ===
# wrpc service discovery, selection, pooling and registration in Dafny

wrpc is a Thrift RPC framework with three parallel implementations: Python, Go and Java.
Servers register an ephemeral node named `ip:port:weight` under `/<global service>/<version>` in ZooKeeper.
Clients watch that parent path, parse the children into server nodes, expand them by weight into a load balancer, borrow connections from a keyed pool, and retry calls.

This project models that core as pure functions over immutable datatypes:

- `Text`, `Numbers`: `split` for Python, Go and Java, and the integer readers `int()`, `strconv.Atoi` and `Integer.valueOf`, each with its rendering inverse. The Python implementation is Python 2 code (`xrange`, `except Exception, e`), so `int()` is Python 2's, which also skips blanks between the sign and the digits.
- `Node`: the three `ServerNode` parsers.
- `Shuffle`, `Balance`: weight expansion, Fisher–Yates shuffling, random and round-robin selection, with each language's cursor rule.
- `Pool`, `LinkedQueue`: the keyed object pools and the Go linked FIFO queue.
- `Retry`: the three client retry loops and the service-name lookups.
- `Util`: `check_hosts` as a recognizer proved equal to its regular expression, and `get_clazz_string`.
- `Config`: the server configuration's paths and node names.
- `Store`: the coordination service as a map from absolute paths to versions.
- `Provider`: the auto and fixed providers.
- `Registrar`: the registrars.

Collaborators that cannot be seen are parameters:

- Randomness is a draw oracle `Draws = nat -> nat`; the k-th draw `d` answers `Intn(n)` with `d % n`.
- The connection factory, a remote call's outcome and local-IP discovery are values passed in.
- A ZooKeeper child listing is a sequence of names, or an error.

## Model

| member | source | states |
|---|---|---|
| Numbers.PyInt | python/wrpc/common/node.py:32 | Python 2 `int(s)` reads, with the same value, every text that the strict signed-decimal reader shared with Go and Java accepts once surrounding whitespace is stripped; whatever it reads is, once stripped, either digits with their value or a sign, whitespace and digits with the signed value; a rejected text is the `ValueError` case |
| Numbers.PyIntAcceptsSigned | python/wrpc/common/node.py:32 | surrounding whitespace, a sign, any whitespace, then digits: Python 2 `int()` reads the signed number |
| Numbers.PyIntGrammar | python/wrpc/common/node.py:32 | Python 2 `int()` reads a text exactly when, once stripped, it is digits or a sign, whitespace and digits; every other text raises `ValueError` |
| Numbers.PyIntSignGap | python/wrpc/common/node.py:32 | Python 2 `int()` also skips whitespace between the sign and the digits: a sign, any blanks, then digits read as the signed number |
| Numbers.SignedWithGap | python/wrpc/common/node.py:32 | on stripped text, Python 2's number grammar accepts everything the strict signed reader does, with the same value, and any number it reads ends in a digit |
| Numbers.AfterSign | python/wrpc/common/node.py:32 | after a sign, plain digits read as their signed value, and anything read ends in a digit |
| Numbers.SignGapRejected | go/wrpc/node.go:16-18 | the strict signed reader behind `Atoi` and `valueOf` rejects a sign followed by whitespace |
| Numbers.PyIntBlankAfterSign | python/wrpc/common/node.py:32 | `int("- 5") == -5`, a text the strict reader behind `Atoi` and `valueOf` rejects |
| Numbers.PyIntRoundTrip | python/wrpc/server/server.py:137-142 | `int(str(x)) == x` for every integer, so a formatted port or weight reads back unchanged |
| Numbers.GoAtoi | go/wrpc/node.go:16-18 | `strconv.Atoi` succeeds exactly on an optionally signed decimal in the int64 range, with its value and no whitespace skipped; a number past the range gives the bound on its side; a digit run passing 2^64 - 1 before a bad character also gives that bound; any other failure gives 0 |
| Numbers.GoParseUintMeaning | go/wrpc/node.go:16-18 | the left-to-right scan of `ParseUint` reports a range error exactly when its leading digits pass 2^64 - 1, otherwise a syntax error unless the whole text is digits, otherwise their value |
| Numbers.GoAtoiOverflowThenJunk | go/wrpc/node.go:16-18 | digits worth more than 2^64 - 1 followed by a non-digit give `(MaxInt64, error)`, and with a `-` `(MinInt64, error)`, not 0 |
| Numbers.GoAtoiRoundTrip | go/wrpc/config.go:125-135 | `Atoi(Itoa(x))` gives back any int64 `x` without error |
| Numbers.JavaParseInt | java/src/main/java/com/chen/wrpc/common/ServerNode.java:31-34 | `Integer.valueOf(s)` succeeds exactly on a signed decimal in the 32-bit range |
| Numbers.JavaParseIntRoundTrip | java/src/main/java/com/chen/wrpc/server/ServerConfig.java:60-71 | `Integer.valueOf(Integer.toString(x))` gives back every 32-bit `x` |
| Text.Split | python/wrpc/common/node.py:30 | one-character `split` gives at least one piece and no piece holds the separator |
| Text.JoinSplit | python/wrpc/common/node.py:30 | joining the pieces of a `split` with the separator gives the string back, so splitting loses nothing |
| Text.SplitJoin | go/wrpc/provider.go:177 | splitting a join of separator-free pieces gives the pieces back, empty ones included |
| Text.SplitCount | go/wrpc/provider.go:177-181 | a string splits into one more piece than it has separators, so every comma makes one more item |
| Text.SplitMany | go/wrpc/node.go:15-16 | a string splits into two or more pieces exactly when it contains the separator |
| Text.IntToString | go/wrpc/config.go:129-133 | the decimal rendering shared by `str`, `strconv.Itoa` and `Integer.toString` is non-empty and holds no `:`, `.`, `,` or `/`, so a rendered port or weight never splits a node name or path |
| Node.PyParse | python/wrpc/common/node.py:12-21 | a freshly built `ServerNode` carries the address, port and weight attributes and no other; the two-field port goes through Python 2 `int()` |
| Node.PyParseTwoFields | python/wrpc/common/node.py:30-32 | `"a:p"` gives address `a` as text, port `int(p)` (Python 2, blanks after the sign included) and weight `WEIGHT_DEFAULT` |
| Node.PyParseBadPort | python/wrpc/common/node.py:32 | in the two-field form a port that Python 2 `int()` rejects raises `ValueError` |
| Node.PyParseSignGap | python/wrpc/common/node.py:30-32 | in the two-field form blanks between the port's sign and its digits are skipped: `"h:- 5"` has port -5 and the default weight |
| Node.PyParseThreeFields | python/wrpc/common/node.py:33 | `"a:p:w"` turns every all-digit field, the address included, into an int and keeps the other fields as text |
| Node.PyParseArity | python/wrpc/common/node.py:17-33 | a name parses only when it has one or two colons: one field, or four and more, fail to unpack |
| Node.GetItem | python/wrpc/common/node.py:23-24 | `node[name]` reads the named attribute; an attribute never set raises `AttributeError` |
| Node.SetItem | python/wrpc/common/node.py:26-27 | `node[name] = v` changes that attribute and no other |
| Node.GoParse | go/wrpc/node.go:14-22 | it panics exactly when there is no colon, because `split[1]` is indexed; otherwise the address is the text before the first colon |
| Node.GoParseTwoFields | go/wrpc/node.go:15-21 | `"a:p"` gives `a`, the value of `Atoi(p)` with its error dropped (0 on a syntax error, the int64 bound on an overflow) and the default weight |
| Node.GoParseManyFields | go/wrpc/node.go:17-19 | with three or more fields the weight is `Atoi` of the third and the rest is ignored |
| Node.JavaSplit | java/src/main/java/com/chen/wrpc/common/ServerNode.java:28 | no piece of `String.split` holds the separator, and a string without the separator is its own single piece |
| Node.JavaSplitJoin | java/src/main/java/com/chen/wrpc/common/ServerNode.java:28 | splitting a join gives the pieces back when the last piece is non-empty |
| Node.JavaParseTwoFields | java/src/main/java/com/chen/wrpc/common/ServerNode.java:28-38 | `"ip:p"` gives ip, `Integer.valueOf(p)` and `DEFAULT_WEIGHT`, or `NumberFormatException` for a bad port |
| Node.JavaParseThreeFields | java/src/main/java/com/chen/wrpc/common/ServerNode.java:29-34 | with exactly three fields the weight is parsed from the third; a bad weight or port throws |
| Node.JavaParseManyFields | java/src/main/java/com/chen/wrpc/common/ServerNode.java:29-32 | four or more fields fall back to `DEFAULT_WEIGHT`, because the third field is read only when there are exactly three |
| Node.JavaParseOneField | java/src/main/java/com/chen/wrpc/common/ServerNode.java:33-34 | an address without a colon has no field 1, so reading the port is out of bounds |
| Shuffle.SwapPermutes | go/wrpc/util.go:20 | a swap exchanges two positions, keeps all the others, and so keeps the multiset |
| Shuffle.FisherYatesPermutes | go/wrpc/util.go:15-23 | the shuffle of the first `n` positions is a permutation and leaves positions from `n` on untouched |
| Shuffle.FisherYatesLastStep | python/wrpc/manager/load_balance.py:36 | the last step swaps position 0 with itself, so a walk that stops at one position, as `random.shuffle` does, gives the same result |
| Shuffle.FisherYatesStep | go/wrpc/util.go:17-21 | one pass swaps position `n-1` with a drawn index in `[0, n)`, then continues on the first `n-1` positions |
| Shuffle.GoShuffle | go/wrpc/util.go:15-23 | the loop computes the reference shuffle of the whole slice and consumes exactly `len(slice)` draws, none for an empty slice |
| Balance.TransferCounts | python/wrpc/manager/load_balance.py:31-37 | whatever the draws, the expanded list holds each node exactly weight times (0 for weight ≤ 0); its length is the total weight |
| Balance.TransferMembers | go/wrpc/loadbalance.go:100-114 | a node is in the expanded list exactly when it was given with a positive weight |
| Balance.RandomPick | go/wrpc/loadbalance.go:51-57 | "Server not found!" exactly on an empty list, otherwise an element of the list |
| Balance.RandomPickReaches | java/src/main/java/com/chen/wrpc/loadbalance/LoadBalanceRandom.java:21-23 | every listed node is chosen by some draw |
| Balance.RoundRobinStep | python/wrpc/manager/load_balance.py:63-69 | a cursor at or past the end restarts at 0; the node under the cursor is returned and the cursor ends in `[1, len]` |
| Balance.RoundRobinPick | go/wrpc/loadbalance.go:80-95 | an error exactly on an empty list; otherwise a listed node, with the cursor afterwards in `[1, len]` |
| Balance.RunFromEnd | java/src/main/java/com/chen/wrpc/loadbalance/LoadBalanceRoundRobin.java:24-26 | a cursor at the end behaves like one at the start |
| Balance.RoundRobinCycle | java/src/main/java/com/chen/wrpc/loadbalance/LoadBalanceRoundRobin.java:22-29 | from any cursor in `[0, len]`, `len` calls return a rotation of the list, so each position once; from 0 the list in order |
| Balance.PySetNodes | python/wrpc/manager/load_balance.py:28-37 | `set_nodes` replaces the list with a fresh weight expansion of the argument, keeps the cursor, and fails when some weight is text |
| Balance.PyGetNode | python/wrpc/manager/load_balance.py:44-69 | empty list fails; otherwise the result is a listed node, the list is unchanged, and a random balancer keeps its state |
| Balance.PyCursorSurvivesSetNodes | python/wrpc/manager/load_balance.py:28-69 | after `set_nodes` the first round-robin pick continues from the old cursor, not from the head |
| Balance.GetLoadBalance | go/wrpc/loadbalance.go:23-32 | `ROUNDROBIN` gives round-robin; every other code gives random |
| Balance.GoSetNodes | go/wrpc/loadbalance.go:44-75 | the list is replaced by the weight expansion and a round-robin cursor is reset to 0 |
| Balance.GoGetNode | go/wrpc/loadbalance.go:51-95 | empty list fails with "Server not found!"; otherwise a listed node, with the list unchanged |
| Balance.GoRoundRobinAfterSetNodes | go/wrpc/loadbalance.go:72-95 | right after `SetNodes`, `len` calls return the new list in order |
| Balance.JavaSetNodes | java/src/main/java/com/chen/wrpc/loadbalance/LoadBalance.java:27-49 | `setNodes` replaces the list with the weight expansion of the container |
| Balance.JavaGetAddress | java/src/main/java/com/chen/wrpc/loadbalance/LoadBalanceRoundRobin.java:15-31 | an unset list is a null dereference, an empty one throws; a pick is a listed node; random leaves the static cursor |
| Balance.JavaCursorShared | java/src/main/java/com/chen/wrpc/loadbalance/LoadBalanceRoundRobin.java:12 | the static cursor is shared: a pick from one balancer moves the position the next balancer reads |
| Pool.Check | python/wrpc/common/pool.py:113-115 | a key seen for the first time gets an empty queue with count 0; a known key is unchanged |
| Pool.Fill | python/wrpc/common/pool.py:141-145 | the factory is called only when the queue is empty and count < max size; count grows by exactly 1, a factory error leaves the block as it was, and count ≤ max size is kept |
| Pool.Drop | go/wrpc/pool.go:251-253 | a destroy lowers the count by one only when it is positive, so the count never goes negative |
| Pool.Put | go/wrpc/pool.go:171-180 | a returned object is queued when the queue is below max size, otherwise only closed |
| Pool.PyNewKeyedPool | python/wrpc/common/pool.py:30-32 | defaults: max size 8, max active 4, no wait timeout; given options are kept |
| Pool.PyBorrow | python/wrpc/common/pool.py:138-146 | check, fill, then take the FIFO head; with idle objects the head comes back and the count is unchanged; an empty queue is `Empty` |
| Pool.PyDestroy | python/wrpc/common/pool.py:154-160 | `None` is ignored; otherwise the object is closed and the count dropped; an unseen key raises `KeyError` |
| Pool.PyReturn | python/wrpc/common/pool.py:148-152 | below max active the object is queued (closed at max size), otherwise destroyed; an unseen key raises `KeyError` |
| Pool.Clear | python/wrpc/common/pool.py:129-136 | every idle object is closed and every count is set to 0, loans included |
| Pool.GoNewKeyedPool | go/wrpc/pool.go:145-154 | values ≤ 0 are replaced by 8, 4 and 10000 |
| Pool.GoNewPool | go/wrpc/pool.go:43-51 | the unkeyed pool starts as the keyed pool with the same arguments after one key is checked: the same defaults and one empty block |
| Pool.PyNewPool | python/wrpc/common/pool.py:17-36 | the unkeyed pool starts as the keyed pool with the same options after one key is checked: the same defaults and one empty block |
| Pool.GoSize | go/wrpc/pool.go:187-193 | idle count, 0 for an unseen key |
| Pool.GoBorrow | go/wrpc/pool.go:215-237 | a factory error is returned with the block unchanged; otherwise head of the queue, or "Queue is empty." |
| Pool.GoDestroy | go/wrpc/pool.go:247-256 | nil is ignored; otherwise close and drop the count; an unseen key is a nil dereference |
| Pool.GoReturn | go/wrpc/pool.go:239-245 | below max active `putObj` checks the key and queues (or closes at max size), otherwise `Destroy` |
| Pool.ClearForgetsOutstanding | python/wrpc/common/pool.py:129-136 | borrow a fresh object, clear, return it: the key then holds one idle object with count 0, more idle than counted |
| Pool.ReturnThenBorrow | python/wrpc/common/pool.py:141-152 | an object returned to an empty queue is the next one borrowed, with no factory call and the count unchanged |
| Pool.PyPoolBorrowAgrees | python/wrpc/common/pool.py:70-75 | the unkeyed `ObjectPool.borrow_obj` is the keyed borrow on a pool holding one block |
| Pool.GoPoolBorrowAgrees | go/wrpc/pool.go:98-117 | the unkeyed `Pool.Borrow` is the keyed borrow on a pool holding one block |
| Pool.PoolOpsAgree | go/wrpc/pool.go:119-136 | unkeyed return, destroy and clear are the keyed ones on a pool holding one block |
| LinkedQueue.NewQueue | go/wrpc/queue.go:24-36 | a new queue is well linked, holds nothing and has length 0 |
| LinkedQueue.Put | go/wrpc/queue.go:78-91 | the element becomes the tail; contents grow by its value and length by 1; the chain stays well linked |
| LinkedQueue.PutValue | go/wrpc/queue.go:96-99 | a fresh element holding the value is appended |
| LinkedQueue.Get | go/wrpc/queue.go:42-56 | empty: nil and no change; otherwise the head, the rest of the contents, length minus 1; after the last element, no tail and length 0 |
| LinkedQueue.Length | go/wrpc/queue.go:38-40 | the stored length equals the number of values linked from head to tail |
| LinkedQueue.PutValues | go/wrpc/queue.go:96-99 | putting values one after another appends them, in order, to the contents |
| LinkedQueue.DrainContents | go/wrpc/queue.go:42-56 | calling `Get` until it gives nil hands out exactly the queue's contents, head first |
| LinkedQueue.Fifo | go/wrpc/queue.go:42-99 | for any list of values put into a new queue, `Get` hands them back in the same order and then nil |
| Retry.PyCall | python/wrpc/client/client.py:149-181 | at most `retry` passes; success returns the reply and gives the connection back, so it is then idle under its key or, with the queue full or the pool at its active limit, closed; any fault after a borrow destroys it, leaving it closed; a failed borrow touches nothing; every failed pass sleeps, the last one too; after exhaustion the last fault is raised |
| Retry.PyPass | python/wrpc/client/client.py:157-176 | one pass: a failed borrow touches no connection and records the pool's error; a borrowed connection goes back to the pool when the method exists and the call returns, ending idle under its key or closed, and is destroyed, ending closed, on an unknown method or a remote failure; the pool keeps its invariant, bounds and closed connections |
| Retry.PyClientKey | python/wrpc/client/client.py:78 | a module maps to the last dotted component of its name; any other key is used as given |
| Retry.PyFunctionName | python/wrpc/client/client.py:104 | a callable gives its `__name__`; a string is used as given |
| Retry.PyProxyMap | python/wrpc/client/client.py:52-57 | each service module's last dotted component maps to the proxy of that name |
| Retry.PyResolve | python/wrpc/client/client.py:103-105 | `call` finds the proxy by key, then the method by name; a missing proxy raises `AttributeError` |
| Retry.PyClientFindsService | python/wrpc/client/client.py:52-105 | a service is found whether it is passed as its module or by its short name |
| Retry.NewClientProxy | go/wrpc/client.go:185-191 | a retry ≤ 0 becomes 3 and an interval ≤ 0 becomes 200 |
| Retry.GoCall | go/wrpc/client.go:198-245 | loops only while `Borrow` yields nothing; a borrowed object ends the call after one attempt with the reply or "Unknown method '<m>'." and is always given back, ending idle under its key or closed; after exhaustion, nil and the last borrow error |
| Retry.GoCloseWrap | go/wrpc/client.go:145-151 | an open transport is closed and its error returned; a closed one gives nil |
| Retry.JavaInvoke | java/src/main/java/com/chen/wrpc/client/ClientProxy.java:168-197 | at most `retry` passes; success returns and gives the client back; any throwable after a borrow invalidates it; every failed pass sleeps; exhaustion throws `WrpcException` wrapping the last error |
| Retry.JavaServiceName | java/src/main/java/com/chen/wrpc/client/ClientProxy.java:119-120 | the service key is the last element of `split("\\.")`; a name with no such element is out of bounds |
| Retry.JavaServiceNameIsLastPiece | java/src/main/java/com/chen/wrpc/client/ClientProxy.java:119-120 | when the last dotted component is non-empty, Java's key is Python's client key |
| Retry.JavaSimpleName | java/src/main/java/com/chen/wrpc/client/ClientProxy.java:227-229 | a class's simple name: after the package and after the last `$` |
| Retry.JavaGetClientByClass | java/src/main/java/com/chen/wrpc/client/ClientProxy.java:227-229 | `getClient(Class)` looks up the simple name |
| Retry.JavaClassKeys | java/src/main/java/com/chen/wrpc/client/ClientProxy.java:119-229 | a top-level service class finds the key it was registered under; its nested `Iface` gives `Iface` instead |
| Util.CheckHosts | python/wrpc/common/util.py:66-71 | the recognizer accepts exactly the strings that `re.match` of the host-list pattern accepts, including the one trailing newline `$` allows |
| Util.ItemEndsMatch | python/wrpc/common/util.py:70 | the end positions computed for one host are exactly those where `\d{1,3}(.\d{1,3}){3}(:\d+){1,2}` can end |
| Util.HostsFromMatches | python/wrpc/common/util.py:70 | the comma-list search accepts exactly the comma-separated host lists |
| Util.PatternEndsInDigit | python/wrpc/common/util.py:70 | an accepted list is non-empty and ends in a digit, or in a digit and one newline |
| Util.AcceptsOneHost | python/wrpc/common/util.py:70 | "127.0.0.1:2181" is accepted |
| Util.AcceptsPortAndWeight | python/wrpc/common/util.py:70 | "127.0.0.1:8603:2" is accepted |
| Util.AcceptsAnySeparator | python/wrpc/common/util.py:70 | the unescaped `.` accepts any character but a newline, so "1,2,3,4:5" is one host |
| Util.RejectsEmptyAndTrailingComma | python/wrpc/common/util.py:70 | the empty string and a trailing comma are rejected |
| Util.RejectsMissingPort | python/wrpc/common/util.py:70 | a host without a port is rejected |
| Util.RejectsThreePorts | python/wrpc/common/util.py:70 | a host with three `:digits` suffixes is rejected |
| Util.GetClazzString | python/wrpc/common/util.py:36-47 | text without a quote is returned unchanged; otherwise the text between the first quote pair found, or the text itself when no pair closes |
| Util.ClazzStringOfClass | python/wrpc/common/util.py:41-46 | `<class 'a.b.C'>` gives `a.b.C` |
| Config.PathLastPiece | python/wrpc/server/server.py:124-129 | a node name without `/` is the last piece of its path, whatever the parent path |
| Config.PyServerIp | python/wrpc/server/server.py:118-119 | a truthy configured ip is used, otherwise the discovered local ip |
| Config.PySetLocalIp | python/wrpc/server/server.py:121-122 | a new discovery changes the node name only when no ip is configured; the parent path, port and weight are kept |
| Config.PyNodeNameRoundTrip | python/wrpc/server/server.py:137-142 | for any ip without a colon, parsing the registered node name gives back the ip (after the all-digits conversion) and a non-negative port and weight as numbers; a negative port or weight, whose `-` fails `isdigit`, comes back as its text |
| Config.PyConvertReadsBack | python/wrpc/common/node.py:33 | the `isdigit` conversion reads a rendered non-negative number back as that number and a rendered negative one as text |
| Config.PyProcessorOf | python/wrpc/server/server.py:51-60 | a handler without bases, or whose first base's class string does not end in `Iface`, raises `HandlerException`; the processor name is the second-to-last dotted component |
| Config.PyProcessorOfModule | python/wrpc/server/server.py:59-61 | a registration's module, a dot and the last piece rebuild the interface string; the name is the module's last piece |
| Config.PyGetProcessor | python/wrpc/server/server.py:49-64 | every handler registered in order, or the error of the first one that fails |
| Config.PyProcessorOfGenerated | python/wrpc/server/server.py:55-61 | a generated `pkg.Service.Iface` registers processor `Service` from module `pkg.Service` |
| Config.ClazzStringOfClassText | python/wrpc/common/util.py:41-46 | `str()` of a class name without quotes or newlines comes back out of `get_clazz_string` |
| Config.NewServerConfig | go/wrpc/config.go:37-59 | an empty version, a port ≤ 0 and a weight ≤ 0 take the defaults; everything else is kept |
| Config.NewDefaultServerConfig | go/wrpc/config.go:24-26 | every default, with the discovered ip as server ip |
| Config.GoServerIp | go/wrpc/config.go:73-78 | the configured ip unless it is empty, else the local ip |
| Config.GoSetVersion | go/wrpc/config.go:65-67 | moves the parent path and leaves the node name |
| Config.GoSetIp | go/wrpc/config.go:80-82 | a non-empty ip names the node; the parent path stays |
| Config.GoSetLocalIp | go/wrpc/config.go:84-86 | a new discovery changes the node name only when no ip is configured |
| Config.GoSetPort | go/wrpc/config.go:92-94 | the port is stored as given, with no default for ≤ 0; only the node name changes |
| Config.GoSetWeight | go/wrpc/config.go:96-98 | the weight is stored as given, with no default for ≤ 0; only the node name changes |
| Config.GoNodeNameRoundTrip | go/wrpc/config.go:125-135 | `ServerNode(GetNodeName())` gives back server ip, port and weight when the ip has no colon |
| Config.ResolveIp | java/src/main/java/com/chen/wrpc/ip/ServerIpResolveLocal.java:23-53 | a held address is returned as is; otherwise the discovered one is returned and kept |
| Config.NewJavaServerConfig | java/src/main/java/com/chen/wrpc/server/ServerConfig.java:15-33 | port 8603, version "1.0.0", weight 1, no resolver yet |
| Config.SetServerIpResolve | java/src/main/java/com/chen/wrpc/server/ServerConfig.java:115-128 | a new resolver seeded with the configured ip, so a non-null ip is used verbatim |
| Config.JavaParentPath | java/src/main/java/com/chen/wrpc/server/ServerConfig.java:47-54 | always `/gsn/version`, with no case for an empty or null name |
| Config.JavaNodeName | java/src/main/java/com/chen/wrpc/server/ServerConfig.java:60-71 | makes the resolver on first use, then renders the resolved ip (or `null`), port and weight |
| Config.JavaPath | java/src/main/java/com/chen/wrpc/server/ServerConfig.java:39-45 | parent path, separator, node name |
| Config.JavaNodeNameStable | java/src/main/java/com/chen/wrpc/ip/ServerIpResolveLocal.java:24-27 | once an address is resolved, asking again gives the same name and state, whatever discovery would now say |
| Config.JavaParentPathEmptyName | java/src/main/java/com/chen/wrpc/server/ServerConfig.java:47-54 | an empty service name leaves an empty segment, unlike Python and Go |
| Config.JavaNodeNameRoundTrip | java/src/main/java/com/chen/wrpc/server/ServerConfig.java:60-71 | `new ServerNode(getNodeName())` gives back the resolved ip, port and weight |
| Store.Create | go/wrpc/register.go:47-55 | fails when the path is present or its parent is missing; otherwise adds just that path at version 0 |
| Store.EnsurePath | go/wrpc/zkclient.go:84-100 | the path and all its ancestors become present; present nodes keep their versions |
| Store.CreateWithParents | java/src/main/java/com/chen/wrpc/register/ServerRegisterImpl.java:61-67 | fails only on a present path; otherwise adds it with its missing ancestors |
| Store.Delete | go/wrpc/register.go:34-42 | fails on a missing path, then on a version mismatch, then with `NotEmpty` on a node that has children; otherwise removes only that path |
| Store.DeleteTree | java/src/main/java/com/chen/wrpc/register/ServerRegisterImpl.java:49-55 | removes the node and everything below it |
| Store.EnsuredParentAdmitsChild | python/wrpc/manager/register.py:60-61 | once the parent path is ensured, a node can be created under it |
| Provider.ClearAttached | python/wrpc/manager/provider.py:97-98 | an attached pool is drained; no pool stays no pool |
| Provider.Record | python/wrpc/manager/provider.py:92 | each reported name maps to its latest node; other entries are never removed |
| Provider.PyNewAutoProvider | python/wrpc/manager/provider.py:64-71 | an empty balancer of the chosen kind, no nodes, no pool |
| Provider.PyProviderParentPath | python/wrpc/manager/provider.py:73-77 | the provider watches the same parent path a server of that name and version registers under |
| Provider.PyWatch | python/wrpc/manager/provider.py:83-100 | the live list is rebuilt with one parsed node per reported name, each recorded by name; the balancer gets the weight expansion and keeps its cursor; an attached pool is cleared; a parse error stops the rebuild part-way |
| Provider.PyTakeNames | python/wrpc/manager/provider.py:85-93 | the live list is cleared and then holds, in order, the node parsed from each reported name up to the first one `ServerNode` rejects, which gives the error; each taken name is recorded with its node and other records are kept |
| Provider.PySelect | python/wrpc/manager/provider.py:102-103 | the balancer's pick, "Server not found!" when it holds nothing |
| Provider.PyWatchNoChildren | python/wrpc/manager/provider.py:87-103 | an empty child list leaves no live node, and selection then fails |
| Provider.PyWatchSelectsReported | python/wrpc/manager/provider.py:85-95 | after a rebuild that succeeds, every node a successful selection returns was parsed from a reported name and has positive weight |
| Provider.PyDiscoversServer | python/wrpc/manager/provider.py:73-93 | a server and a provider with the same name and version meet: the server's path is a child of the watched path, and a rebuild from its node name selects that server |
| Provider.PyNewFixedProvider | python/wrpc/manager/provider.py:119-143 | an address `check_hosts` rejects raises; otherwise the nodes of the comma-separated items |
| Provider.PyFixedFromItems | python/wrpc/manager/provider.py:137-143 | one node per comma item, in order, and the balancer gets their expansion; it fails exactly when some item does not parse to a numeric-weight node |
| Provider.PyFixedAcceptedButUnparsable | python/wrpc/manager/provider.py:127-140 | "1,2,3,4:5" passes `check_hosts`, but the provider still raises `ValueError` on item "1" |
| Provider.NewAutoProvider | go/wrpc/provider.go:63-76 | an empty version becomes the default; the balancer is chosen by code |
| Provider.NewDefaultAutoProvider | go/wrpc/provider.go:51-53 | random balancer and default version |
| Provider.ProviderParentPath | go/wrpc/provider.go:81-90 | the parent path the Go provider watches, and the Java provider too (`ServerProviderAuto.getParentPath` is the same code), is the one the Python and Go servers register under; the Java server's own differs for an empty service name, see `Provider.JavaEmptyServiceNameMismatch` |
| Provider.GoAutoSetNodes | go/wrpc/provider.go:96-122 | a listing error changes nothing; otherwise the live list is one node per child in order, `allNodes` is overwritten per child, the balancer is reset and the pool cleared; a child without a colon or a nil pool panics |
| Provider.GoSelect | go/wrpc/provider.go:147-150 | fails exactly when the balancer holds no node; otherwise returns one of its nodes, and only the balancer's cursor changes |
| Provider.GoDiscoversServer | go/wrpc/provider.go:81-117 | a Go server and provider with the same name and version meet, and the server's node is selected |
| Provider.NewFixedProvider | go/wrpc/provider.go:166-170 | the address is kept unchecked, with no nodes yet |
| Provider.GoFixedSetNodes | go/wrpc/provider.go:176-183 | one node per comma item is appended to a list that is never cleared |
| Provider.GoFixedSetNodesTwice | go/wrpc/provider.go:176-183 | once a first `SetNodes` succeeds, a second one also succeeds and lists every configured node twice |
| Provider.GoFixedSelect | go/wrpc/provider.go:189-192 | the balancer's own pick, failing when it fails, with only the balancer replaced in the provider |
| Provider.GoSelectsAgree | go/wrpc/provider.go:147-150 | over the same balancer and draw, the fixed and auto providers fail together or pick the same node and leave the same balancer |
| Provider.NewJavaAutoProvider | java/src/main/java/com/chen/wrpc/provider/ServerProviderAuto.java:43-62 | empty service name, default version, no balancer, empty container and trace |
| Provider.DefaultBalancer | java/src/main/java/com/chen/wrpc/provider/ServerProviderAuto.java:87-91 | round-robin only when no balancer is set |
| Provider.TracePut | java/src/main/java/com/chen/wrpc/provider/ServerProviderAuto.java:216 | the name maps to the new node, every other name is unchanged, and the trace never shrinks |
| Provider.TraceAll | java/src/main/java/com/chen/wrpc/provider/ServerProviderAuto.java:209-217 | every traced name stays traced, and every put name becomes traced |
| Provider.JavaChildAddress | java/src/main/java/com/chen/wrpc/provider/ServerProviderAuto.java:211 | the path with the parent path and one separator stripped; a shorter path is out of bounds |
| Provider.JavaChild | java/src/main/java/com/chen/wrpc/provider/ServerProviderAuto.java:210-216 | a child's name and the node parsed from it, or the parse error |
| Provider.JavaRebuild | java/src/main/java/com/chen/wrpc/provider/ServerProviderAuto.java:199-224 | no children empties the container and leaves the balancer; otherwise the container holds the parsed children, the balancer is reset from it, and each child is traced |
| Provider.JavaTakeChildren | java/src/main/java/com/chen/wrpc/provider/ServerProviderAuto.java:209-218 | each child path, cut after the parent path and separator, is parsed in turn up to the first that fails, which gives the error; the nodes parsed so far come in order, each traced under its address, and earlier traces are kept |
| Provider.JavaChildEvent | java/src/main/java/com/chen/wrpc/provider/ServerProviderAuto.java:158-197 | whatever the event, a connected client rebuilds, and a successful rebuild clears an attached pool |
| Provider.JavaAutoSelector | java/src/main/java/com/chen/wrpc/provider/ServerProviderAuto.java:240-252 | an empty container is refilled from a non-empty trace and the balancer reset, then the balancer picks |
| Provider.JavaSelectorFallsBackOnTrace | java/src/main/java/com/chen/wrpc/provider/ServerProviderAuto.java:240-252 | after every child is lost, selection succeeds with a traced node once one has positive weight |
| Provider.JavaDiscoversServer | java/src/main/java/com/chen/wrpc/provider/ServerProviderAuto.java:133-214 | with a non-empty service name, the provider reads the server's path back as its node name and parses the server's ip, port and weight |
| Provider.JavaEmptyServiceNameMismatch | java/src/main/java/com/chen/wrpc/provider/ServerProviderAuto.java:136 | a server configured with an empty service name registers under `//version`, but a provider with its default empty name watches `/version` |
| Provider.JavaSetContainer | java/src/main/java/com/chen/wrpc/provider/ServerProviderFixed.java:77-85 | one node per comma item is added to a container that is never cleared, and the balancer gets the container |
| Provider.JavaFixedAfterPropertiesSet | java/src/main/java/com/chen/wrpc/provider/ServerProviderFixed.java:87-91 | the balancer is defaulted first, so building the container never meets a null balancer |
| Provider.JavaFixedSelector | java/src/main/java/com/chen/wrpc/provider/ServerProviderFixed.java:38-40 | the balancer's pick |
| Registrar.CreateIfAbsent | python/wrpc/manager/register.py:46-47 | a node is made only when the path is missing and its parent is present; other nodes are kept |
| Registrar.CreateIfAbsentIdempotent | go/wrpc/register.go:47-55 | creating if absent twice is creating once |
| Registrar.Reregister | go/wrpc/register.go:27-55 | Go's store step: the delete touches only the target, a failed delete is only logged, and the only node that can appear is the new path |
| Registrar.ReregisterSettles | go/wrpc/register.go:32-55 | once registered at a path, registering there again changes nothing |
| Registrar.PyReregister | python/wrpc/manager/register.py:27-52 | Python's store step: only the old path can be deleted and only the new path can appear; a delete that raises on an old node with children ends the registration with the store unchanged |
| Registrar.PyReregisterUnderParent | python/wrpc/manager/register.py:40-49 | under a present parent the new path ends present exactly when it already was or no delete of an old node with children stopped the registration |
| Registrar.PyReregisterMoves | python/wrpc/manager/register.py:40-47 | a childless old node is deleted and the new path created |
| Registrar.PyReregisterSettles | python/wrpc/manager/register.py:40-47 | once the delete has not failed, registering at the reached path again changes nothing |
| Registrar.JavaReplace | java/src/main/java/com/chen/wrpc/register/ServerRegisterImpl.java:48-67 | the new path ends present; only nodes below the old path can disappear; only the path and its ancestors can appear |
| Registrar.NodeNameIpInjective | python/wrpc/server/server.py:137-142 | different colon-free ips give different node names |
| Registrar.SiblingNotBelow | java/src/main/java/com/chen/wrpc/register/ServerRegisterImpl.java:48-56 | a sibling's path is neither below the old node nor one of its ancestors, so deleting the old subtree spares it |
| Registrar.PyRegister | python/wrpc/manager/register.py:25-52 | with an ip configured, even an empty one, the path is fixed and nothing is deleted; otherwise the ip is rediscovered and only the old path can be deleted; when the path moved and the old node has children, the raising delete leaves the store unchanged |
| Registrar.PyRegisterIdempotent | python/wrpc/manager/register.py:40-47 | when the old node has no children, a second registration with the same discovery changes nothing |
| Registrar.PyRegisterRetriesAfterFailedDelete | python/wrpc/manager/register.py:27-52 | when the old node has children, the first registration stops at the raising delete with the store unchanged and the new node missing, and the next one creates it |
| Registrar.PyRegisterMovesPath | python/wrpc/manager/register.py:35-47 | when the local address changes and the old node has no children (it is ephemeral), the old path goes and the new one appears |
| Registrar.PyRegisterAndListen | python/wrpc/manager/register.py:54-61 | without a client nothing happens; otherwise the parent is ensured, so the server's node is present afterwards when the old node has no children |
| Registrar.PyRegistersUnderEnsuredParent | python/wrpc/manager/register.py:40-47 | under a present parent, a registration leaves the server's node present when the old node has no children |
| Registrar.PyStateListener | python/wrpc/manager/register.py:63-73 | a connection re-registers; a loss or a suspension changes nothing |
| Registrar.GoRegisterAsWritten | go/wrpc/register.go:18-58 | the code as written: when the path moved, it deletes the new path with the old node's version |
| Registrar.GoRegisterAsWrittenKeepsOldPath | go/wrpc/register.go:32-42 | after an address change, the code as written leaves the old node next to the new one |
| Registrar.GoRegister | go/wrpc/register.go:18-58 | the intended registration: only the old path can be deleted, and a configured ip deletes nothing |
| Registrar.GoRegisterMovesPath | go/wrpc/register.go:27-55 | with the intended deletion, an address change moves a childless (ephemeral) node |
| Registrar.GoRegisterIdempotent | go/wrpc/register.go:47-55 | a second registration with the same discovery changes nothing |
| Registrar.GoRegisterAndListen | go/wrpc/register.go:60-68 | without a client nothing happens; otherwise the prefixed parent is ensured and the node is present |
| Registrar.GoRegistersUnderEnsuredParent | go/wrpc/register.go:47-55 | under a present parent, a registration leaves the server's node present |
| Registrar.GoOnEvent | go/wrpc/register.go:70-84 | `StateConnected` re-registers; every other state changes nothing |
| Registrar.JavaRegisterWith | java/src/main/java/com/chen/wrpc/register/ServerRegisterImpl.java:33-78 | only when connected: the path ends present (created with parents); only nodes below the old path can go; a configured ip deletes nothing |
| Registrar.JavaRegister | java/src/main/java/com/chen/wrpc/register/ServerRegisterImpl.java:38-67 | `register` always resets the configuration's own resolver |
| Registrar.JavaListenerRegister | java/src/main/java/com/chen/wrpc/register/ServerRegisterListener.java:27-97 | the resolver captured at construction is reset only if non-null; without one nothing is deleted |
| Registrar.JavaOnStateChanged | java/src/main/java/com/chen/wrpc/register/ServerRegisterImpl.java:87-110 | every state, LOST and SUSPENDED included, triggers a registration |
| Registrar.JavaRegisterMovesPath | java/src/main/java/com/chen/wrpc/register/ServerRegisterImpl.java:43-67 | when the held address differs from the discovered one, the old path goes and the new one appears |
| Registrar.JavaListenerKeepsStaleAddress | java/src/main/java/com/chen/wrpc/register/ServerRegisterListener.java:27-86 | a listener built before the resolver existed never resets it, so the stale address stays registered |

## Left out

- Thrift transports, servers, codecs and the worker machinery: network I/O, not logic.
- Sessions, watches and ephemeral lifetimes in ZooKeeper. The store is a plain map of paths, and an ephemeral node is an ordinary one. Path validation is not modelled. ZooKeeper refuses a child under an ephemeral node; the store does not record ephemerality, so the lemmas that move a registered node state that the old node has no children.
- `GetAbsolutePath` is a root prefix; the root is a parameter.
- Store.EnsurePath: makes every ancestor. Go's `EnsurePath` skips empty segments; for the absolute parent paths registered here, both give the same nodes.
- Concurrency: locks, the busy-wait in `GetWait`, blocking `Queue.get` with a timeout, goroutine watch loops, and spawned re-registrations. Every operation runs sequentially, so `GetWait` is `Get`, and a borrow that would block fails at once.
- Time: sleeps are only counted. Python's `time.sleep` and Java's `Thread.sleep` reject negative intervals; the retry loops model that error, but not the length of a sleep.
- Local-IP discovery (`get_local_ip`, `GetLocalIp`, the interface walk in `ServerIpResolveLocal`) is a parameter.
- Reflection and dynamic import (`getattr`, `__import__`, `MethodByName`, `Proxy`): the method's presence and the call's reply are parameters.
- Java `ClientPool` is a thin wrapper over a commons-pool2 pool whose code is not part of this model. The Java provider keeps only a count of clears.
- Python `set_client_pool`, `close` and the Java fixed provider's `setClientPool` and `close`: no-ops or pure I/O.
- Java `ServerRegisterImpl.close` and `ServerProviderAuto.close`: they only close clients.
- Java's null `Integer` fields are not modelled; port and weight are always numbers.
- Java `HashSet` and `HashMap` iteration order is modelled as insertion order. The balancer shuffles anyway, so only the trace fallback's order depends on it.
- Sets of nodes are modelled as sequences, because Python and Java compare nodes by identity, so two parses of one name are distinct members.
- Python `ServerConfig` default arguments: the configuration record is taken as built.
- The Go config comment gives 3068 as the default port; the constant used is 8603, as in Java's `Constant`.
- Util.CheckHosts: `\d` is modelled as the ASCII digits; Python 2 `str` patterns match only those.
- Provider.JavaRebuild: Java's `globalServiceName != ""` compares references. The model treats it as value equality, which holds for the literal default.
- Registrar.PyStateListener: for a registration that moves the path, it promises only that no other node appears, not that the new node is present. That needs the parent-path condition that Registrar.PyRegistersUnderEnsuredParent states.
- Registrar.JavaRegisterWith: the `InterruptedException` and `WrpcException` exits are not modelled. With every store call guarded by an existence check, only an interrupt or a lost connection could raise one, and neither exists in the sequential model.
- Registrar.PyRegister: a store call that raises ends the registration and leaves the store as it was after the calls before it, as the one swallowing `try` does; the log lines are not modelled.
- Registrar.PyRegisterIdempotent, Registrar.PyRegisterAndListen and Registrar.PyRegistersUnderEnsuredParent: each promises the node present, or the second call idle, only when the old node has no children. A node registered by the server is ephemeral and never has any, but the store does not record ephemerality; Registrar.PyRegisterRetriesAfterFailedDelete states what happens otherwise.
- Numbers.PyInt: reads ASCII digits and the six ASCII blanks only. For a `unicode` text, Python 2 `int()` and `isdigit` also take other Unicode decimal digits and spaces; node names are taken as ASCII.
- Numbers.JavaParseInt: reads ASCII digits only. `Integer.valueOf` reads digits through `Character.digit`, which also takes other Unicode decimal digits (`"٥"` is 5); node names are taken as ASCII.
- Pool.GoDestroy: closing is recorded in a set of closed connections at once; the `closeObj` goroutine's timing is not modelled.

## Findings

| source | as written | input that shows it | evidently intended | confidence | as-written member | corrected member |
|---|---|---|---|---|---|---|
| go/wrpc/register.go:32-42 | when the rediscovered local ip changes the path and `oldPath` exists, `Delete` is called on the new `path` with `oldPath`'s version | no configured ip; local ip `10.0.0.1` becomes `10.0.0.2`; the old node `/gsn/1.0.0/10.0.0.1:8603:1` and the parent are present: the delete targets the absent new path, the old node stays, and both nodes end up registered | delete `oldPath`, as the log message and the Python and Java versions do | not executed | Registrar.GoRegisterAsWrittenKeepsOldPath | Registrar.GoRegisterMovesPath |

=== FILE: balance.dfy ===
/**
 * Load balancing over the live nodes: weight expansion followed by a
 * shuffle (`_transfer`, `transfer`), a random selector and a round-robin
 * cursor, in the Python, Go and Java versions.
 */
module Balance {
  import opened Wrappers
  import opened Shuffle
  import opened Node

  // ---------------------------------------------------------------- weight expansion

  /** A weight as a repetition count: `range(w)` is empty for every `w <= 0`. */
  function Clamp(w: int): nat
  {
    if w > 0 then w else 0
  }

  /** `x` repeated `n` times. */
  function Repeat<T>(x: T, n: int): (r: seq<T>)
    ensures |r| == Clamp(n)
    ensures forall i :: 0 <= i < |r| ==> r[i] == x
    decreases Clamp(n)
  {
    if n <= 0 then [] else [x] + Repeat(x, n - 1)
  }

  lemma {:induction false} RepeatCount<T>(x: T, n: int, y: T)
    ensures multiset(Repeat(x, n))[y] == if y == x then Clamp(n) else 0
    decreases Clamp(n)
  {
    if n > 0 {
      RepeatCount(x, n - 1, y);
      assert Repeat(x, n) == [x] + Repeat(x, n - 1);
    }
  }

  /** The nodes in order, each repeated by its weight, before any shuffle. */
  function Expand<T>(nodes: seq<T>, weight: T -> int): seq<T>
  {
    if |nodes| == 0 then [] else Repeat(nodes[0], weight(nodes[0])) + Expand(nodes[1..], weight)
  }

  /** The sum of the weights, a weight `<= 0` counting as nothing. */
  function TotalWeight<T>(nodes: seq<T>, weight: T -> int): nat
  {
    if |nodes| == 0 then 0 else Clamp(weight(nodes[0])) + TotalWeight(nodes[1..], weight)
  }

  /** The expansion is as long as the sum of the weights. */
  lemma {:induction false} ExpandLength<T>(nodes: seq<T>, weight: T -> int)
    ensures |Expand(nodes, weight)| == TotalWeight(nodes, weight)
  {
    if |nodes| > 0 {
      ExpandLength(nodes[1..], weight);
    }
  }

  /** Each node occurs as many times as it is listed, times its weight; weight `<= 0` removes it. */
  lemma {:induction false} ExpandCount<T>(nodes: seq<T>, weight: T -> int, x: T)
    ensures multiset(Expand(nodes, weight))[x] == multiset(nodes)[x] * Clamp(weight(x))
  {
    if |nodes| > 0 {
      var head := nodes[0];
      var rest := nodes[1..];
      var a := Repeat(head, weight(head));
      var b := Expand(rest, weight);
      ExpandCount(rest, weight, x);
      RepeatCount(head, weight(head), x);
      assert nodes == [head] + rest;
      assert multiset(nodes)[x] == multiset(rest)[x] + (if head == x then 1 else 0);
      assert Expand(nodes, weight) == a + b;
      assert multiset(a + b)[x] == multiset(a)[x] + multiset(b)[x];
      CountStep(multiset(a)[x], multiset(rest)[x], multiset(nodes)[x], Clamp(weight(x)), head == x);
    }
  }

  /** One more listing of a node adds its weight once more. */
  lemma CountStep(own: nat, m: nat, n: nat, c: nat, isHead: bool)
    requires own == if isHead then c else 0
    requires n == m + if isHead then 1 else 0
    ensures own + m * c == n * c
  {
    if isHead {
      assert (m + 1) * c == c + m * c;
    }
  }

  /**
   * The balancer's node list: the expansion, shuffled with the draws from
   * `k` on. The same walk serves all three languages (see `FisherYatesLastStep`).
   */
  function Transfer<T>(nodes: seq<T>, weight: T -> int, draws: Draws, k: nat): seq<T>
  {
    var expanded := Expand(nodes, weight);
    FisherYates(expanded, draws, |expanded|, k)
  }

  /** Whatever the draws, the list holds each node exactly weight times and its length is the total weight. */
  lemma TransferCounts<T>(nodes: seq<T>, weight: T -> int, draws: Draws, k: nat, x: T)
    ensures |Transfer(nodes, weight, draws, k)| == TotalWeight(nodes, weight)
    ensures multiset(Transfer(nodes, weight, draws, k))[x] == multiset(nodes)[x] * Clamp(weight(x))
  {
    var expanded := Expand(nodes, weight);
    FisherYatesPermutes(expanded, draws, |expanded|, k);
    ExpandLength(nodes, weight);
    ExpandCount(nodes, weight, x);
  }

  /** Membership: a node is in the list exactly when it was given with a positive weight. */
  lemma TransferMembers<T>(nodes: seq<T>, weight: T -> int, draws: Draws, k: nat, x: T)
    ensures x in Transfer(nodes, weight, draws, k) <==> x in nodes && weight(x) > 0
  {
    TransferCounts(nodes, weight, draws, k, x);
    var t := Transfer(nodes, weight, draws, k);
    assert x in t <==> multiset(t)[x] > 0;
    assert x in nodes <==> multiset(nodes)[x] > 0;
  }

  // ---------------------------------------------------------------- selection

  /** "Server not found!": selection from an empty list. */
  datatype LbError = ServerNotFound | NullPointer

  /** Random selection: the position is the draw reduced to `[0, len)`. */
  function RandomPick<T>(nodes: seq<T>, draw: nat): (r: Result<T, LbError>)
    ensures r.Err? <==> |nodes| == 0
    ensures r.Err? ==> r.error == ServerNotFound
    ensures r.Ok? ==> r.value in nodes
  {
    if |nodes| == 0 then Err(ServerNotFound) else Ok(nodes[draw % |nodes|])
  }

  /** Every listed node is the pick of some draw. */
  lemma RandomPickReaches<T>(nodes: seq<T>, x: T)
    requires x in nodes
    ensures exists d: nat :: RandomPick(nodes, d) == Ok(x)
  {
    var i :| 0 <= i < |nodes| && nodes[i] == x;
    assert i % |nodes| == i;
    assert RandomPick(nodes, i) == Ok(x);
  }

  /**
   * One round-robin step on a non-empty list: a cursor past the end goes
   * back to 0, the node under the cursor is returned and the cursor moves
   * one on, so it ends in `[1, len]`.
   */
  function RoundRobinStep<T>(nodes: seq<T>, pos: nat): (r: (T, nat))
    requires |nodes| > 0
    ensures 1 <= r.1 <= |nodes| && r.0 == nodes[r.1 - 1]
    ensures pos < |nodes| ==> r.1 == pos + 1
    ensures pos >= |nodes| ==> r.1 == 1
  {
    var p := if pos >= |nodes| then 0 else pos;
    (nodes[p], p + 1)
  }

  /** Round-robin selection, failing on an empty list with the cursor untouched. */
  function RoundRobinPick<T>(nodes: seq<T>, pos: nat): (r: Result<(T, nat), LbError>)
    ensures r.Err? <==> |nodes| == 0
    ensures r.Ok? ==> r.value.0 in nodes && 1 <= r.value.1 <= |nodes|
  {
    if |nodes| == 0 then Err(ServerNotFound) else Ok(RoundRobinStep(nodes, pos))
  }

  /** The nodes `count` consecutive round-robin calls return, and the cursor after them. */
  function Run<T>(nodes: seq<T>, pos: nat, count: nat): (seq<T>, nat)
    requires |nodes| > 0
    decreases count
  {
    if count == 0 then ([], pos)
    else
      var step := RoundRobinStep(nodes, pos);
      var rest := Run(nodes, step.1, count - 1);
      ([step.0] + rest.0, rest.1)
  }

  /** Without wrapping, consecutive calls read the list in order from the cursor. */
  lemma {:induction false} RunSlice<T>(nodes: seq<T>, pos: nat, count: nat)
    requires |nodes| > 0 && pos + count <= |nodes|
    ensures Run(nodes, pos, count) == (nodes[pos..pos + count], pos + count)
    decreases count
  {
    if count > 0 {
      RunSlice(nodes, pos + 1, count - 1);
      assert RoundRobinStep(nodes, pos) == (nodes[pos], pos + 1);
      var rest := Run(nodes, pos + 1, count - 1);
      assert Run(nodes, pos, count) == ([nodes[pos]] + rest.0, rest.1);
      assert nodes[pos..pos + count] == [nodes[pos]] + nodes[pos + 1..pos + count];
    } else {
      assert nodes[pos..pos + count] == [];
    }
  }

  /** A cursor at the end behaves as one at the start. */
  lemma RunFromEnd<T>(nodes: seq<T>, count: nat)
    requires |nodes| > 0 && count > 0
    ensures Run(nodes, |nodes|, count) == Run(nodes, 0, count)
  {
  }

  /**
   * From any cursor in `[0, len]`, `len` consecutive calls return a rotation
   * of the list, so every position exactly once; from cursor 0 (or `len`)
   * they return the list itself in order.
   */
  lemma RoundRobinCycle<T>(nodes: seq<T>, pos: nat)
    requires |nodes| > 0 && pos <= |nodes|
    ensures var p := if pos == |nodes| then 0 else pos;
            Run(nodes, pos, |nodes|).0 == nodes[p..] + nodes[..p]
    ensures multiset(Run(nodes, pos, |nodes|).0) == multiset(nodes)
    ensures pos == 0 ==> Run(nodes, pos, |nodes|).0 == nodes
  {
    var p := if pos == |nodes| then 0 else pos;
    RunRotates(nodes, pos);
    assert nodes == nodes[..p] + nodes[p..];
    assert multiset(nodes) == multiset(nodes[..p]) + multiset(nodes[p..]);
  }

  /** `len` calls from `pos` return the list rotated to start at the cursor. */
  lemma RunRotates<T>(nodes: seq<T>, pos: nat)
    requires |nodes| > 0 && pos <= |nodes|
    ensures var p := if pos == |nodes| then 0 else pos;
            Run(nodes, pos, |nodes|).0 == nodes[p..] + nodes[..p]
  {
    var n := |nodes|;
    if pos == n {
      RunFromEnd(nodes, n);
      RunSlice(nodes, 0, n);
      assert nodes[0..n] == nodes;
    } else if pos == 0 {
      RunSlice(nodes, 0, n);
      assert nodes[0..n] == nodes;
    } else {
      RunAppend(nodes, pos, n - pos, pos);
      RunSlice(nodes, pos, n - pos);
      RunFromEnd(nodes, pos);
      RunSlice(nodes, 0, pos);
      assert nodes[pos..n] == nodes[pos..];
      assert nodes[0..pos] == nodes[..pos];
    }
  }

  /** Calls compose: `a + b` calls are `a` calls, then `b` calls from where they left the cursor. */
  lemma {:induction false} RunAppend<T>(nodes: seq<T>, pos: nat, a: nat, b: nat)
    requires |nodes| > 0
    ensures Run(nodes, pos, a + b).0 == Run(nodes, pos, a).0 + Run(nodes, Run(nodes, pos, a).1, b).0
    ensures Run(nodes, pos, a + b).1 == Run(nodes, Run(nodes, pos, a).1, b).1
    decreases a
  {
    if a > 0 {
      var (x, p) := RoundRobinStep(nodes, pos);
      RunAppend(nodes, p, a - 1, b);
      assert a + b - 1 == (a - 1) + b;
    }
  }

  // ---------------------------------------------------------------- Python

  datatype Kind = RandomKind | RoundRobinKind

  /** A Python balancer: its node list and, for round-robin, its cursor. */
  datatype PyBalancer = PyBalancer(kind: Kind, nodes: seq<PyNode>, pos: nat)

  datatype PyLbError = TypeError

  /** The weight `xrange` reads; a text weight is the `TypeError` case. */
  function PyWeightOf(n: PyNode): int
  {
    if n.weight.Int? then n.weight.i else 0
  }

  /**
   * `set_nodes(nodes)`: a fresh expanded, shuffled list replaces the old one;
   * a node whose weight is text makes `xrange` raise and nothing changes.
   * The round-robin cursor is left where it was.
   */
  function PySetNodes(lb: PyBalancer, nodes: seq<PyNode>, draws: Draws, k: nat): (r: Result<PyBalancer, PyLbError>)
    ensures r.Err? <==> exists i :: 0 <= i < |nodes| && nodes[i].weight.Str?
    ensures r.Ok? ==> r.value.pos == lb.pos && r.value.kind == lb.kind
    ensures r.Ok? ==> forall x :: multiset(r.value.nodes)[x] == multiset(nodes)[x] * Clamp(PyWeightOf(x))
  {
    if exists i :: 0 <= i < |nodes| && nodes[i].weight.Str? then Err(TypeError)
    else
      var t := Transfer(nodes, PyWeightOf, draws, k);
      assert forall x :: multiset(t)[x] == multiset(nodes)[x] * Clamp(PyWeightOf(x)) by {
        forall x { TransferCounts(nodes, PyWeightOf, draws, k, x); }
      }
      Ok(lb.(nodes := t))
  }

  /** `get_node()`: random or round-robin selection; only round-robin moves the cursor. */
  function PyGetNode(lb: PyBalancer, draw: nat): (r: Result<(PyNode, PyBalancer), LbError>)
    ensures r.Err? <==> |lb.nodes| == 0
    ensures r.Ok? ==> r.value.0 in lb.nodes && r.value.1.nodes == lb.nodes
    ensures r.Ok? && lb.kind.RandomKind? ==> r.value.1 == lb
  {
    match lb.kind
    case RandomKind =>
      (match RandomPick(lb.nodes, draw)
       case Ok(x) => Ok((x, lb))
       case Err(e) => Err(e))
    case RoundRobinKind =>
      (match RoundRobinPick(lb.nodes, lb.pos)
       case Ok((x, p)) => Ok((x, lb.(pos := p)))
       case Err(e) => Err(e))
  }

  /**
   * Because `set_nodes` keeps the cursor, the first pick after replacing the
   * list continues from the old cursor, not from the head.
   */
  lemma PyCursorSurvivesSetNodes(lb: PyBalancer, nodes: seq<PyNode>, draws: Draws, k: nat)
    requires lb.kind.RoundRobinKind?
    requires PySetNodes(lb, nodes, draws, k).Ok?
    ensures var lb' := PySetNodes(lb, nodes, draws, k).value;
            |lb'.nodes| > lb.pos ==> PyGetNode(lb', 0) == Ok((lb'.nodes[lb.pos], lb'.(pos := lb.pos + 1)))
  {
  }

  // ---------------------------------------------------------------- Go

  const RANDOM: int := 1
  const ROUNDROBIN: int := 2

  /** A Go balancer: `Random` or `RoundRobin`, with its node list and cursor. */
  datatype GoBalancer = GoRandom(nodes: seq<GoNode>) | GoRoundRobin(nodes: seq<GoNode>, pos: nat)

  /** `GetLoadBalance(code)`: round-robin for `ROUNDROBIN`, random for every other code. */
  function GetLoadBalance(code: int): (r: GoBalancer)
    ensures r.nodes == []
    ensures r.GoRoundRobin? <==> code == ROUNDROBIN
    ensures r.GoRoundRobin? ==> r.pos == 0
  {
    if code == ROUNDROBIN then GoRoundRobin([], 0) else GoRandom([])
  }

  function GoWeightOf(n: GoNode): int
  {
    n.weight
  }

  /** `SetNodes(nodes)`: the list is replaced and a round-robin cursor goes back to 0. */
  function GoSetNodes(lb: GoBalancer, nodes: seq<GoNode>, draws: Draws, k: nat): (r: GoBalancer)
    ensures r.GoRoundRobin? <==> lb.GoRoundRobin?
    ensures r.GoRoundRobin? ==> r.pos == 0
    ensures forall x :: multiset(r.nodes)[x] == multiset(nodes)[x] * Clamp(x.weight)
  {
    var t := Transfer(nodes, GoWeightOf, draws, k);
    assert forall x :: multiset(t)[x] == multiset(nodes)[x] * Clamp(x.weight) by {
      forall x { TransferCounts(nodes, GoWeightOf, draws, k, x); }
    }
    match lb
    case GoRandom(_) => GoRandom(t)
    case GoRoundRobin(_, _) => GoRoundRobin(t, 0)
  }

  /** `GetNode()`: "Server not found!" on an empty list, otherwise a random or round-robin pick. */
  function GoGetNode(lb: GoBalancer, draw: nat): (r: Result<(GoNode, GoBalancer), LbError>)
    ensures r.Err? <==> |lb.nodes| == 0
    ensures r.Ok? ==> r.value.0 in lb.nodes && r.value.1.nodes == lb.nodes
    ensures r.Ok? && lb.GoRandom? ==> r.value.1 == lb
  {
    match lb
    case GoRandom(nodes) =>
      (match RandomPick(nodes, draw)
       case Ok(x) => Ok((x, lb))
       case Err(e) => Err(e))
    case GoRoundRobin(nodes, pos) =>
      (match RoundRobinPick(nodes, pos)
       case Ok((x, p)) => Ok((x, GoRoundRobin(nodes, p)))
       case Err(e) => Err(e))
  }

  /** `len` consecutive `GetNode` calls on a round-robin balancer. */
  function GoPicks(lb: GoBalancer, count: nat): (seq<GoNode>, GoBalancer)
    requires lb.GoRoundRobin?
    decreases count
  {
    if count == 0 then ([], lb)
    else match GoGetNode(lb, 0)
      case Err(_) => ([], lb)
      case Ok((x, lb')) =>
        var (rest, end) := GoPicks(lb', count - 1);
        ([x] + rest, end)
  }

  lemma {:induction false} GoPicksRun(lb: GoBalancer, count: nat)
    requires lb.GoRoundRobin? && |lb.nodes| > 0
    ensures GoPicks(lb, count).0 == Run(lb.nodes, lb.pos, count).0
    decreases count
  {
    if count > 0 {
      var (x, p) := RoundRobinStep(lb.nodes, lb.pos);
      GoPicksRun(GoRoundRobin(lb.nodes, p), count - 1);
    }
  }

  /** Right after `SetNodes`, `len` calls return the new list in order, each node once. */
  lemma GoRoundRobinAfterSetNodes(lb: GoBalancer, nodes: seq<GoNode>, draws: Draws, k: nat)
    requires lb.GoRoundRobin?
    ensures var lb' := GoSetNodes(lb, nodes, draws, k);
            GoPicks(lb', |lb'.nodes|).0 == lb'.nodes
  {
    var lb' := GoSetNodes(lb, nodes, draws, k);
    if |lb'.nodes| > 0 {
      GoPicksRun(lb', |lb'.nodes|);
      RoundRobinCycle(lb'.nodes, 0);
    }
  }

  // ---------------------------------------------------------------- Java

  /**
   * A Java balancer's node list; `None` until `setNodes` is first called,
   * when `getAddress` dereferences null. The round-robin cursor is a static
   * field shared by every instance, so it is passed in and out separately.
   */
  datatype JavaBalancer = JavaBalancer(kind: Kind, nodes: Option<seq<JavaNode>>)

  function JavaWeightOf(n: JavaNode): int
  {
    n.weight
  }

  /** `setNodes(container)`: the list is replaced wholesale; the static cursor is not touched. */
  function JavaSetNodes(lb: JavaBalancer, container: seq<JavaNode>, draws: Draws, k: nat): (r: JavaBalancer)
    ensures r.kind == lb.kind && r.nodes.Some?
    ensures forall x :: multiset(r.nodes.value)[x] == multiset(container)[x] * Clamp(x.weight)
  {
    var t := Transfer(container, JavaWeightOf, draws, k);
    assert forall x :: multiset(t)[x] == multiset(container)[x] * Clamp(x.weight) by {
      forall x { TransferCounts(container, JavaWeightOf, draws, k, x); }
    }
    lb.(nodes := Some(t))
  }

  /**
   * `getAddress()` with the static cursor `pos`: the node picked and the
   * cursor afterwards. The list itself is never modified.
   */
  function JavaGetAddress(lb: JavaBalancer, pos: nat, draw: nat): (r: Result<(JavaNode, nat), LbError>)
    ensures lb.nodes.None? ==> r == Err(NullPointer)
    ensures lb.nodes.Some? ==> (r.Err? <==> |lb.nodes.value| == 0)
    ensures r.Ok? ==> r.value.0 in lb.nodes.value
    ensures lb.kind.RandomKind? && r.Ok? ==> r.value.1 == pos
  {
    match lb.nodes
    case None => Err(NullPointer)
    case Some(nodes) =>
      match lb.kind
      case RandomKind =>
        (match RandomPick(nodes, draw)
         case Ok(x) => Ok((x, pos))
         case Err(e) => Err(e))
      case RoundRobinKind => RoundRobinPick(nodes, pos)
  }

  /**
   * The cursor is one for all instances: a pick from one round-robin
   * balancer moves the position the next one reads.
   */
  lemma JavaCursorShared(a: JavaBalancer, b: JavaBalancer, draw: nat)
    requires a.kind.RoundRobinKind? && b.kind.RoundRobinKind?
    requires a.nodes.Some? && |a.nodes.value| > 0
    requires b.nodes.Some? && |b.nodes.value| > 1
    ensures var pos := JavaGetAddress(a, 0, draw).value.1;
            JavaGetAddress(b, pos, draw) == Ok((b.nodes.value[1], 2))
  {
  }
}

=== FILE: config.dfy ===
/**
 * A server's registration name and path, once per implementation: Python
 * `ServerConfig` (with `Server.__get_processor`), Go `ServerConfig` and Java
 * `ServerConfig`. A server registers `<parent>/<ip>:<port>:<weight>`, where
 * the parent path is built from the global service name and the version.
 *
 * Local-IP discovery is a parameter: `localIp` for Python and Go, the
 * `discovered` address (or none) for Java's resolver.
 */
module Config {
  import opened Wrappers
  import opened Text
  import opened Numbers
  import opened Node
  import opened Util

  const PORT_DEFAULT: int := 8603
  const VERSION_DEFAULT: string := "1.0.0"

  // ---------------------------------------------------------------- shared shape

  /**
   * The parent path of Python and Go: `/gsn/version`, or `/version` when the
   * global service name is empty.
   */
  function ParentPath(gsn: string, version: string): (r: string)
    ensures |r| > 0 && r[0] == '/'
    ensures EndsWith(r, version)
  {
    if gsn != "" then "/" + gsn + "/" + version else "/" + version
  }

  /** `ip:port:weight`, each number in decimal. */
  function NodeName(ip: string, port: int, weight: int): (r: string)
    ensures ':' !in ip ==> Split(r, ':') == [ip, IntToString(port), IntToString(weight)]
  {
    var r := ip + ":" + IntToString(port) + ":" + IntToString(weight);
    assert ':' !in ip ==> Split(r, ':') == [ip, IntToString(port), IntToString(weight)] by {
      if ':' !in ip {
        SplitThree(ip, IntToString(port), IntToString(weight), ':');
      }
    }
    r
  }

  /** A node's path: the parent path, one separator, the node name. */
  function PathOf(parent: string, name: string): (r: string)
    ensures |r| == |parent| + 1 + |name|
    ensures r[..|parent|] == parent && r[|parent|] == '/' && r[|parent| + 1..] == name
  {
    parent + "/" + name
  }

  /** A node name without a separator is the last piece of its path, whatever the parent path. */
  lemma PathLastPiece(parent: string, name: string)
    requires '/' !in name
    ensures LastPiece(PathOf(parent, name), '/') == name
  {
    LastPieceAfter(parent, name, '/');
  }

  // ---------------------------------------------------------------- Python

  /** A handler class: its name and the `str()` of each of its base classes. */
  datatype PyHandler = PyHandler(name: string, bases: seq<string>)

  datatype PyServerConfig = PyServerConfig(
    globalServiceName: string, processors: seq<PyHandler>,
    port: int, version: string, weight: int, ip: Option<string>, localIp: string)

  /** `get_server_ip`: the configured ip when it is truthy, else the discovered local ip. */
  function PyServerIp(c: PyServerConfig): (r: string)
    ensures c.ip.Some? && c.ip.value != "" ==> r == c.ip.value
    ensures c.ip.None? || c.ip.value == "" ==> r == c.localIp
  {
    if c.ip.Some? && c.ip.value != "" then c.ip.value else c.localIp
  }

  function PyParentPath(c: PyServerConfig): string
  {
    ParentPath(c.globalServiceName, c.version)
  }

  function PyNodeName(c: PyServerConfig): string
  {
    NodeName(PyServerIp(c), c.port, c.weight)
  }

  function PyPath(c: PyServerConfig): string
  {
    PathOf(PyParentPath(c), PyNodeName(c))
  }

  /** `set_local_ip`: a fresh discovery renames the node only when no ip is configured. */
  function PySetLocalIp(c: PyServerConfig, localIp: string): (r: PyServerConfig)
    ensures c.ip.Some? && c.ip.value != "" ==> PyNodeName(r) == PyNodeName(c)
    ensures c.ip.None? || c.ip.value == "" ==> PyServerIp(r) == localIp
    ensures PyParentPath(r) == PyParentPath(c) && r.port == c.port && r.weight == c.weight
  {
    c.(localIp := localIp)
  }

  /**
   * How a rendered port or weight reads back through the all-digits test:
   * a non-negative one as the number, a negative one, whose `-` is no
   * digit, as its text.
   */
  function ReadBack(x: int): PyValue
  {
    if x >= 0 then Int(x) else Str(IntToString(x))
  }

  lemma PyConvertReadsBack(x: int)
    ensures PyConvert(IntToString(x)) == ReadBack(x)
  {
    if x >= 0 {
      PyConvertRendering(x);
    } else {
      assert IntToString(x)[0] == '-';
    }
  }

  /**
   * Parsing the node name a server registers gives back its ip, port and
   * weight. The ip goes through the same all-digits conversion as the other
   * fields, so a dotted address stays text, and so does a negative port or
   * weight.
   */
  lemma PyNodeNameRoundTrip(c: PyServerConfig)
    requires ':' !in PyServerIp(c)
    ensures PyParse(PyNodeName(c)) == Ok(PyNode(PyConvert(PyServerIp(c)), ReadBack(c.port), ReadBack(c.weight), map[]))
    ensures c.port >= 0 && c.weight >= 0 ==>
              PyParse(PyNodeName(c)) == Ok(PyNode(PyConvert(PyServerIp(c)), Int(c.port), Int(c.weight), map[]))
  {
    var ip := PyServerIp(c);
    PyParseThreeFields(ip, IntToString(c.port), IntToString(c.weight));
    PyConvertReadsBack(c.port);
    PyConvertReadsBack(c.weight);
  }

  /** Why a handler cannot be registered. */
  datatype HandlerError = HandlerException(handler: string) | IndexError

  /** A processor to register: its name and the module its `Processor` is taken from. */
  datatype Registration = Registration(name: string, moduleName: string)

  /**
   * One handler of `__get_processor`: its first base must be a class whose
   * name string ends in `Iface`; the module is that string without its last
   * dotted piece, and the processor name is the piece before that.
   */
  function PyProcessorOf(h: PyHandler): (r: Result<Registration, HandlerError>)
    ensures r.Ok? <==> |h.bases| > 0 && EndsWith(GetClazzString(h.bases[0]), "Iface") && '.' in GetClazzString(h.bases[0])
    ensures r == Err(IndexError) <==> |h.bases| > 0 && EndsWith(GetClazzString(h.bases[0]), "Iface") && '.' !in GetClazzString(h.bases[0])
  {
    if |h.bases| == 0 then Err(HandlerException(h.name))
    else
      var iface := GetClazzString(h.bases[0]);
      if !EndsWith(iface, "Iface") then Err(HandlerException(h.name))
      else
        var split := Split(iface, '.');
        SplitMany(iface, '.');
        if |split| < 2 then Err(IndexError)
        else Ok(Registration(split[|split| - 2], Join(split[..|split| - 1], '.')))
  }

  /**
   * A registered processor's module, a dot and the interface's last piece
   * make up the interface string, and the processor name is the module's
   * last piece.
   */
  lemma PyProcessorOfModule(h: PyHandler)
    requires PyProcessorOf(h).Ok?
    ensures var iface := GetClazzString(h.bases[0]); var reg := PyProcessorOf(h).value;
            reg.moduleName + "." + LastPiece(iface, '.') == iface &&
            reg.name == LastPiece(reg.moduleName, '.')
  {
    SplitInit(GetClazzString(h.bases[0]), '.');
  }

  /**
   * `__get_processor` over all handlers, in order: every registration, or
   * the error of the first handler that cannot be registered.
   */
  function PyGetProcessor(handlers: seq<PyHandler>): (r: Result<seq<Registration>, HandlerError>)
    ensures r.Ok? <==> forall i :: 0 <= i < |handlers| ==> PyProcessorOf(handlers[i]).Ok?
    ensures r.Ok? ==> |r.value| == |handlers| &&
                      forall i :: 0 <= i < |handlers| ==> PyProcessorOf(handlers[i]) == Ok(r.value[i])
    ensures r.Err? ==> exists i :: 0 <= i < |handlers| && PyProcessorOf(handlers[i]) == Err(r.error) &&
                                   forall k :: 0 <= k < i ==> PyProcessorOf(handlers[k]).Ok?
  {
    MapResults(PyProcessorOf, handlers)
  }

  /**
   * A Thrift-generated interface `pkg.Service.Iface` registers processor
   * `Service` from module `pkg.Service`.
   */
  lemma PyProcessorOfGenerated(handler: string, pkg: string, service: string)
    requires '\'' !in pkg && '\n' !in pkg && '\'' !in service && '\n' !in service && '.' !in service
    ensures var prefix := pkg + ['.'] + service;
            PyProcessorOf(PyHandler(handler, [ClassText(prefix + ['.'] + "Iface")])) == Ok(Registration(service, prefix))
  {
    var prefix := pkg + ['.'] + service;
    var q := prefix + ['.'] + "Iface";
    var h := PyHandler(handler, [ClassText(q)]);
    assert GetClazzString(h.bases[0]) == q by {
      ClazzStringOfClassText(q);
    }
    assert EndsWith(q, "Iface") by {
      assert q[|q| - 5..] == "Iface";
    }
    var split := Split(q, '.');
    assert |split| >= 2 && split[|split| - 2] == service && Join(split[..|split| - 1], '.') == prefix by {
      GeneratedPieces(pkg, service);
    }
  }

  /** The dotted pieces of `pkg.Service.Iface`, and the pieces before the last joined back. */
  lemma GeneratedPieces(pkg: string, service: string)
    requires '.' !in service
    ensures var prefix := pkg + ['.'] + service; var split := Split(prefix + ['.'] + "Iface", '.');
            |split| >= 2 && split[|split| - 2] == service && Join(split[..|split| - 1], '.') == prefix
  {
    var prefix := pkg + ['.'] + service;
    assert '.' !in "Iface" by {
      assert forall k :: 0 <= k < 5 ==> "Iface"[k] != '.';
    }
    SplitSnoc(prefix, "Iface", '.');
    SplitSnoc(pkg, service, '.');
    var ps := Split(pkg, '.');
    var split := Split(prefix + ['.'] + "Iface", '.');
    assert split == ps + [service] + ["Iface"];
    assert split[..|split| - 1] == ps + [service];
    JoinSplit(pkg, '.');
    JoinSnoc(ps, service, '.');
  }

  /** `str()` of a class: `<class '...'>` around its qualified name. */
  function ClassText(qualified: string): string
  {
    "<class '" + qualified + "'>"
  }

  /** `str()` of a class whose qualified name has no quote or newline gives that name back. */
  lemma ClazzStringOfClassText(q: string)
    requires '\'' !in q && '\n' !in q && |q| > 0
    ensures GetClazzString(ClassText(q)) == q
  {
    var text := ClassText(q);
    var j := 8 + |q|;
    assert text[8..j] == q;
    assert text[7] == '\'' && text[j] == '\'';
    assert forall k :: 8 <= k < j ==> text[k] == q[k - 8];
    assert QuotedAt(text, 8, j);
    assert forall k :: 0 <= k < 7 ==> text[k] != '\'';
    assert forall a, b :: QuotedAt(text, a, b) ==> 8 <= a;
  }

  // ---------------------------------------------------------------- Go

  datatype GoServerConfig = GoServerConfig(
    globalServiceName: string, version: string, ip: string, port: int, weight: int, localIp: string)

  /** `NewServerConfig`: an empty version, a port of at most 0 and a weight of at most 0 take the defaults. */
  function NewServerConfig(gsn: string, version: string, ip: string, port: int, weight: int, localIp: string): (r: GoServerConfig)
    ensures r.version != "" && r.port > 0 && r.weight > 0
    ensures version != "" ==> r.version == version
    ensures version == "" ==> r.version == VERSION_DEFAULT
    ensures port > 0 ==> r.port == port
    ensures port <= 0 ==> r.port == PORT_DEFAULT
    ensures weight > 0 ==> r.weight == weight
    ensures weight <= 0 ==> r.weight == WEIGHT_DEFAULT
    ensures r.globalServiceName == gsn && r.ip == ip && r.localIp == localIp
  {
    GoServerConfig(gsn, if version == "" then VERSION_DEFAULT else version, ip,
                   if port <= 0 then PORT_DEFAULT else port,
                   if weight <= 0 then WEIGHT_DEFAULT else weight, localIp)
  }

  /** `NewDefaultServerConfig`: every default, and the discovered local ip as server ip. */
  function NewDefaultServerConfig(gsn: string, localIp: string): (r: GoServerConfig)
    ensures r.version == VERSION_DEFAULT && r.port == PORT_DEFAULT && r.weight == WEIGHT_DEFAULT
    ensures GoServerIp(r) == localIp
    ensures GoParentPath(r) == ParentPath(gsn, VERSION_DEFAULT)
  {
    NewServerConfig(gsn, "", "", 0, 0, localIp)
  }

  /** `GetServerIp`: the configured ip unless it is empty. */
  function GoServerIp(c: GoServerConfig): (r: string)
    ensures c.ip != "" ==> r == c.ip
    ensures c.ip == "" ==> r == c.localIp
  {
    if c.ip != "" then c.ip else c.localIp
  }

  function GoParentPath(c: GoServerConfig): string
  {
    ParentPath(c.globalServiceName, c.version)
  }

  function GoNodeName(c: GoServerConfig): string
  {
    NodeName(GoServerIp(c), c.port, c.weight)
  }

  function GoPath(c: GoServerConfig): string
  {
    PathOf(GoParentPath(c), GoNodeName(c))
  }

  /** `SetVersion` moves the parent path and leaves the node name. */
  function GoSetVersion(c: GoServerConfig, version: string): (r: GoServerConfig)
    ensures GoParentPath(r) == ParentPath(c.globalServiceName, version)
    ensures GoNodeName(r) == GoNodeName(c)
  {
    c.(version := version)
  }

  /** `SetIp`: the new ip names the node unless it is empty; the parent path stays. */
  function GoSetIp(c: GoServerConfig, ip: string): (r: GoServerConfig)
    ensures GoServerIp(r) == (if ip != "" then ip else c.localIp)
    ensures GoParentPath(r) == GoParentPath(c)
    ensures r.port == c.port && r.weight == c.weight
  {
    c.(ip := ip)
  }

  /** `SetLocalIp`: a fresh discovery changes the node name only when no ip is configured. */
  function GoSetLocalIp(c: GoServerConfig, localIp: string): (r: GoServerConfig)
    ensures c.ip != "" ==> GoNodeName(r) == GoNodeName(c)
    ensures c.ip == "" ==> GoServerIp(r) == localIp
    ensures GoParentPath(r) == GoParentPath(c)
  {
    c.(localIp := localIp)
  }

  /** `SetPort` stores the port as given, with no default for a value of at most 0. */
  function GoSetPort(c: GoServerConfig, port: int): (r: GoServerConfig)
    ensures r.port == port && GoServerIp(r) == GoServerIp(c) && r.weight == c.weight
    ensures GoParentPath(r) == GoParentPath(c)
  {
    c.(port := port)
  }

  /** `SetWeight` stores the weight as given, with no default for a value of at most 0. */
  function GoSetWeight(c: GoServerConfig, weight: int): (r: GoServerConfig)
    ensures r.weight == weight && GoServerIp(r) == GoServerIp(c) && r.port == c.port
    ensures GoParentPath(r) == GoParentPath(c)
  {
    c.(weight := weight)
  }

  /** `ServerNode(GetNodeName())` gives back the server ip, port and weight. */
  lemma GoNodeNameRoundTrip(c: GoServerConfig)
    requires ':' !in GoServerIp(c)
    requires INT64_MIN <= c.port <= INT64_MAX && INT64_MIN <= c.weight <= INT64_MAX
    ensures GoParse(GoNodeName(c)) == Ok(GoNode(GoServerIp(c), c.port, c.weight))
  {
    var ip, p, w := GoServerIp(c), IntToString(c.port), IntToString(c.weight);
    GoParseManyFields(ip, p, w, []);
    assert ip + ":" + p + ":" + w + [] == GoNodeName(c);
    GoAtoiRoundTrip(c.port);
    GoAtoiRoundTrip(c.weight);
  }

  // ---------------------------------------------------------------- Java

  /**
   * `ServerIpResolveLocal`: the address it was seeded with, or the one it
   * discovered and kept; none means `null`.
   */
  datatype Resolver = Resolver(serverIp: Option<string>)

  /**
   * `getServerIp`: a held address is returned as is; otherwise the
   * discovered address (or `null`) is returned and kept for later calls.
   */
  function ResolveIp(res: Resolver, discovered: Option<string>): (r: (Option<string>, Resolver))
    ensures r.1.serverIp == r.0
    ensures res.serverIp.Some? ==> r.0 == res.serverIp
  {
    if res.serverIp.Some? then (res.serverIp, res) else (discovered, Resolver(discovered))
  }

  /**
   * Java's `ServerConfig`. The boxed port and weight are never null here;
   * a null global service name or ip is `None`.
   */
  datatype JavaServerConfig = JavaServerConfig(
    port: int, version: string, weight: int, globalService: Option<string>,
    ip: Option<string>, resolver: Option<Resolver>)

  /** A fresh `ServerConfig`: port 8603, version 1.0.0, weight 1, no resolver yet. */
  function NewJavaServerConfig(globalService: Option<string>, ip: Option<string>): (r: JavaServerConfig)
    ensures r.port == PORT_DEFAULT && r.version == VERSION_DEFAULT && r.weight == WEIGHT_DEFAULT
    ensures r.resolver.None?
  {
    JavaServerConfig(PORT_DEFAULT, VERSION_DEFAULT, WEIGHT_DEFAULT, globalService, ip, None)
  }

  /** How `StringBuffer.append` renders a possibly null string. */
  function JavaText(s: Option<string>): (r: string)
    ensures s.Some? ==> r == s.value
    ensures s.None? ==> r == "null"
  {
    if s.Some? then s.value else "null"
  }

  /** `setServerIpResolve` (also `afterPropertiesSet`): a new resolver seeded with the configured ip. */
  function SetServerIpResolve(c: JavaServerConfig): (r: JavaServerConfig)
    ensures r.resolver == Some(Resolver(c.ip))
  {
    c.(resolver := Some(Resolver(c.ip)))
  }

  /** `getParentPath`: always `/gsn/version`, with no case for an empty or null name. */
  function JavaParentPath(c: JavaServerConfig): (r: string)
    ensures r == PathOf("/" + JavaText(c.globalService), c.version)
  {
    "/" + JavaText(c.globalService) + "/" + c.version
  }

  /**
   * `getNodeName`: creates the resolver on first use, then renders the
   * resolved ip (or `null`), port and weight. Only the resolver changes.
   */
  function JavaNodeName(c: JavaServerConfig, discovered: Option<string>): (r: (string, JavaServerConfig))
    ensures r.1 == c.(resolver := r.1.resolver) && r.1.resolver.Some?
    ensures r.0 == NodeName(JavaText(r.1.resolver.value.serverIp), c.port, c.weight)
    ensures c.resolver.None? && c.ip.Some? ==> r.0 == NodeName(c.ip.value, c.port, c.weight)
  {
    var c1 := if c.resolver.None? then SetServerIpResolve(c) else c;
    var (ip, res) := ResolveIp(c1.resolver.value, discovered);
    (NodeName(JavaText(ip), c.port, c.weight), c1.(resolver := Some(res)))
  }

  /** `getPath`: parent path, separator, node name, with the node name's lazy resolver. */
  function JavaPath(c: JavaServerConfig, discovered: Option<string>): (r: (string, JavaServerConfig))
    ensures r.1 == JavaNodeName(c, discovered).1
    ensures r.0 == PathOf(JavaParentPath(c), JavaNodeName(c, discovered).0)
  {
    var (name, c1) := JavaNodeName(c, discovered);
    (PathOf(JavaParentPath(c), name), c1)
  }

  /**
   * Once an address is resolved it is kept: asking again, whatever the
   * discovery would now say, gives the same name and state.
   */
  lemma JavaNodeNameStable(c: JavaServerConfig, d1: Option<string>, d2: Option<string>)
    requires JavaNodeName(c, d1).1.resolver.value.serverIp.Some?
    ensures JavaNodeName(JavaNodeName(c, d1).1, d2) == JavaNodeName(c, d1)
  {
  }

  /** An empty global service name leaves an empty segment in Java's parent path, unlike Python's and Go's. */
  lemma JavaParentPathEmptyName(c: JavaServerConfig)
    requires c.globalService == Some("")
    ensures JavaParentPath(c) == "//" + c.version
    ensures ParentPath("", c.version) == "/" + c.version
  {
  }

  /** `new ServerNode(getNodeName())` gives back the resolved ip, port and weight. */
  lemma JavaNodeNameRoundTrip(c: JavaServerConfig, discovered: Option<string>)
    requires INT32_MIN <= c.port <= INT32_MAX && INT32_MIN <= c.weight <= INT32_MAX
    requires ':' !in JavaText(JavaNodeName(c, discovered).1.resolver.value.serverIp)
    ensures JavaParse(JavaNodeName(c, discovered).0) ==
            Ok(JavaNode(JavaText(JavaNodeName(c, discovered).1.resolver.value.serverIp), c.port, c.weight))
  {
    var ip := JavaText(JavaNodeName(c, discovered).1.resolver.value.serverIp);
    JavaParseThreeFields(ip, IntToString(c.port), IntToString(c.weight));
    JavaParseIntRoundTrip(c.port);
    JavaParseIntRoundTrip(c.weight);
  }
}

=== FILE: node.dfy ===
/**
 * A server node parsed from its registered name `ip:port[:weight]`, once per
 * implementation: Python `ServerNode`, Go `ServerNode` and Java `ServerNode`.
 */
module Node {
  import opened Wrappers
  import opened Text
  import opened Numbers

  /** The weight of a node whose name carries none. */
  const WEIGHT_DEFAULT: int := 1

  // ---------------------------------------------------------------- Python

  /** A Python attribute value as the parser leaves it: an `int` or a `str`. */
  datatype PyValue = Int(i: int) | Str(s: string)

  /**
   * A Python node: the three attributes the constructor sets, plus whatever
   * other attributes `node[name] = v` has added since.
   */
  datatype PyNode = PyNode(address: PyValue, port: PyValue, weight: PyValue, extra: map<string, PyValue>)

  datatype PyError = ValueError | AttributeError

  /** One field of a three-field name: an `int` when it is all digits, else the text itself. */
  function PyConvert(e: string): (v: PyValue)
    ensures v.Int? <==> IsDigits(e)
    ensures v.Str? ==> v.s == e
  {
    if IsDigits(e) then Int(DigitsValue(e)) else Str(e)
  }

  /** A rendered natural number converts back to that number. */
  lemma PyConvertRendering(n: nat)
    ensures PyConvert(IntToString(n)) == Int(n)
  {
    NatToStringValue(n);
  }

  /**
   * `ServerNode(node)`: two fields give a string address, `int(port)` and the
   * default weight; three fields give every field converted by `PyConvert`;
   * any other field count fails to unpack.
   */
  function PyParse(s: string): (r: Result<PyNode, PyError>)
    ensures r.Ok? ==> r.value.extra == map[]
  {
    var split := Split(s, ':');
    if |split| == 2 then
      match PyInt(split[1])
      case Some(p) => Ok(PyNode(Str(split[0]), Int(p), Int(WEIGHT_DEFAULT), map[]))
      case None => Err(ValueError)
    else if |split| == 3 then
      Ok(PyNode(PyConvert(split[0]), PyConvert(split[1]), PyConvert(split[2]), map[]))
    else Err(ValueError)
  }

  /** `"a:p"` gives address `a` kept as text, port `int(p)` and the default weight. */
  lemma PyParseTwoFields(a: string, p: string)
    requires ':' !in a && ':' !in p
    requires PyInt(p).Some?
    ensures PyParse(a + ":" + p) == Ok(PyNode(Str(a), Int(PyInt(p).value), Int(WEIGHT_DEFAULT), map[]))
  {
    SplitTwo(a, p, ':');
  }

  /** In the two-field form a port `int()` rejects raises `ValueError`. */
  lemma PyParseBadPort(a: string, p: string)
    requires ':' !in a && ':' !in p
    requires PyInt(p).None?
    ensures PyParse(a + ":" + p) == Err(ValueError)
  {
    SplitTwo(a, p, ':');
  }

  /**
   * Blanks between the port's sign and its digits are skipped, as Python 2's
   * `int()` does: `"h:- 5"` has port -5.
   */
  lemma PyParseSignGap(a: string, sign: char, gap: string, d: string)
    requires ':' !in a && (sign == '+' || sign == '-') && IsDigits(d)
    requires forall i :: 0 <= i < |gap| ==> IsSpace(gap[i])
    ensures PyParse(a + ":" + ([sign] + gap + d)) == Ok(PyNode(Str(a), Int(Signed(sign == '-', DigitsValue(d))), Int(WEIGHT_DEFAULT), map[]))
  {
    var p := [sign] + gap + d;
    assert ':' !in p by {
      forall i | 0 <= i < |p|
        ensures p[i] != ':'
      {
        if 0 < i <= |gap| {
          assert p[i] == gap[i - 1];
        } else if i > |gap| {
          assert p[i] == d[i - 1 - |gap|];
        }
      }
    }
    PyIntSignGap(sign, gap, d);
    PyParseTwoFields(a, p);
  }

  /** `"a:p:w"` converts every all-digit field, the address included, and keeps the rest as text. */
  lemma PyParseThreeFields(a: string, p: string, w: string)
    requires ':' !in a && ':' !in p && ':' !in w
    ensures PyParse(a + ":" + p + ":" + w) == Ok(PyNode(PyConvert(a), PyConvert(p), PyConvert(w), map[]))
  {
    SplitThree(a, p, w, ':');
  }

  /** A name parses only if it has one or two colons: one field or four and more fail to unpack. */
  lemma PyParseArity(s: string)
    ensures PyParse(s).Ok? ==> multiset(s)[':'] == 1 || multiset(s)[':'] == 2
  {
    SplitCount(s, ':');
  }

  /** `node[name]`: `getattr`, failing for an attribute never set. */
  function GetItem(n: PyNode, name: string): (r: Result<PyValue, PyError>)
    ensures r.Err? <==> name != "address" && name != "port" && name != "weight" && name !in n.extra
  {
    if name == "address" then Ok(n.address)
    else if name == "port" then Ok(n.port)
    else if name == "weight" then Ok(n.weight)
    else if name in n.extra then Ok(n.extra[name])
    else Err(AttributeError)
  }

  /** `node[name] = v`: `setattr`, which changes that attribute and no other. */
  function SetItem(n: PyNode, name: string, v: PyValue): (r: PyNode)
    ensures GetItem(r, name) == Ok(v)
    ensures forall other :: other != name ==> GetItem(r, other) == GetItem(n, other)
  {
    if name == "address" then n.(address := v)
    else if name == "port" then n.(port := v)
    else if name == "weight" then n.(weight := v)
    else n.(extra := n.extra[name := v])
  }

  // ---------------------------------------------------------------- Go

  /** Go's `Node`; its getters are the datatype's field selectors. */
  datatype GoNode = GoNode(address: string, port: int, weight: int)

  /** The index panic `split[1]` raises on a name without a colon. */
  datatype GoPanic = IndexOutOfRange

  /**
   * `ServerNode(node)`: address is the first field, port and weight are
   * `strconv.Atoi` of the second and third with the error dropped, fields
   * after the third are ignored, and two fields give the default weight.
   */
  function GoParse(s: string): (r: Result<GoNode, GoPanic>)
    ensures r.Ok? <==> ':' in s
    ensures r.Ok? ==> r.value.address == s[..IndexOf(s, ':')]
  {
    var split := Split(s, ':');
    if |split| < 2 then Err(IndexOutOfRange)
    else
      assert ':' in s by { SplitCount(s, ':'); }
      assert split == [s[..IndexOf(s, ':')]] + Split(s[IndexOf(s, ':') + 1..], ':');
      var port := GoAtoi(split[1]).value;
      if |split| >= 3 then Ok(GoNode(split[0], port, GoAtoi(split[2]).value))
      else Ok(GoNode(split[0], port, WEIGHT_DEFAULT))
  }

  /**
   * `"a:p"` gives address `a`, port `Atoi(p)` with its error dropped (0 on a
   * syntax error, the int64 bound on an overflow) and the default weight.
   */
  lemma GoParseTwoFields(a: string, p: string)
    requires ':' !in a && ':' !in p
    ensures GoParse(a + ":" + p) == Ok(GoNode(a, GoAtoi(p).value, WEIGHT_DEFAULT))
  {
    SplitTwo(a, p, ':');
  }

  /** With three or more fields the weight is `Atoi` of the third and the rest is ignored. */
  lemma GoParseManyFields(a: string, p: string, w: string, rest: string)
    requires ':' !in a && ':' !in p && ':' !in w
    requires rest == [] || rest[0] == ':'
    ensures GoParse(a + ":" + p + ":" + w + rest) == Ok(GoNode(a, GoAtoi(p).value, GoAtoi(w).value))
  {
    var s := a + ":" + p + ":" + w + rest;
    var tail := w + rest;
    assert s == a + [':'] + p + [':'] + tail;
    var tailParts := Split(tail, ':');
    assert tailParts[0] == w by {
      if rest == [] {
        assert tail == w;
      } else {
        assert tail == w + [':'] + rest[1..];
        SplitCons(w, rest[1..], ':');
      }
    }
    SplitFirstTwo(a, p, tail, ':');
    var split := Split(s, ':');
    assert split[2] == tailParts[0];
    assert GoParse(s).value == GoNode(split[0], GoAtoi(split[1]).value, GoAtoi(split[2]).value);
  }

  // ---------------------------------------------------------------- Java

  /** Drops the empty pieces at the end, as `String.split` does. */
  function DropTrailingEmpty(parts: seq<string>): (r: seq<string>)
    ensures |r| <= |parts| && r == parts[..|r|]
    ensures |r| > 0 ==> r[|r| - 1] != ""
    ensures forall i :: |r| <= i < |parts| ==> parts[i] == ""
  {
    if |parts| > 0 && parts[|parts| - 1] == "" then DropTrailingEmpty(parts[..|parts| - 1]) else parts
  }

  /**
   * Java's `s.split(sep)` for a one-character literal pattern: the string
   * itself when the separator is absent, otherwise every piece but the empty
   * ones at the end.
   */
  function JavaSplit(s: string, sep: char): (parts: seq<string>)
    ensures forall i :: 0 <= i < |parts| ==> sep !in parts[i]
    ensures sep !in s ==> parts == [s]
  {
    if sep !in s then [s] else DropTrailingEmpty(Split(s, sep))
  }

  /** Splitting a join gives the pieces back when the last piece is non-empty. */
  lemma JavaSplitJoin(parts: seq<string>, sep: char)
    requires |parts| >= 1
    requires forall i :: 0 <= i < |parts| ==> sep !in parts[i]
    requires |parts| == 1 || parts[|parts| - 1] != ""
    ensures JavaSplit(Join(parts, sep), sep) == parts
  {
    if |parts| > 1 {
      var s := Join(parts, sep);
      assert s[|parts[0]|] == sep;
      SplitJoin(parts, sep);
    }
  }

  /** Java's `ServerNode`; the three-argument constructor, getters and setters are the datatype's own. */
  datatype JavaNode = JavaNode(ip: string, port: int, weight: int)

  datatype JavaError = NumberFormat | IndexOutOfBounds

  /**
   * `new ServerNode(address)`: the weight is read first and only when there
   * are exactly three fields; then ip is field 0 and port is
   * `Integer.valueOf` of field 1.
   */
  function JavaParse(s: string): (r: Result<JavaNode, JavaError>)
  {
    var hostname := JavaSplit(s, ':');
    var weight := if |hostname| == 3 then JavaParseInt(hostname[2]) else Some(WEIGHT_DEFAULT);
    if weight.None? then Err(NumberFormat)
    else if |hostname| < 2 then Err(IndexOutOfBounds)
    else match JavaParseInt(hostname[1])
      case None => Err(NumberFormat)
      case Some(port) => Ok(JavaNode(hostname[0], port, weight.value))
  }

  /** `"ip:p"` gives ip, `Integer.valueOf(p)` and the default weight; a bad port throws. */
  lemma JavaParseTwoFields(ip: string, p: string)
    requires ':' !in ip && ':' !in p && p != ""
    ensures JavaParse(ip + ":" + p) ==
      if JavaParseInt(p).Some? then Ok(JavaNode(ip, JavaParseInt(p).value, WEIGHT_DEFAULT)) else Err(NumberFormat)
  {
    JavaSplitJoin([ip, p], ':');
  }

  /** `"ip:p:w"` reads the weight from the third field; a bad weight or port throws. */
  lemma JavaParseThreeFields(ip: string, p: string, w: string)
    requires ':' !in ip && ':' !in p && ':' !in w && w != ""
    ensures JavaParse(ip + ":" + p + ":" + w) ==
      if JavaParseInt(w).Some? && JavaParseInt(p).Some? then Ok(JavaNode(ip, JavaParseInt(p).value, JavaParseInt(w).value))
      else Err(NumberFormat)
  {
    assert Join([ip, p, w], ':') == ip + ":" + p + ":" + w by {
      assert Join([p, w], ':') == p + ":" + w;
      assert [ip, p, w][1..] == [p, w];
    }
    JavaSplitJoin([ip, p, w], ':');
  }

  /** Four or more fields fall back to the default weight: the third field is never read. */
  lemma JavaParseManyFields(parts: seq<string>)
    requires |parts| >= 4
    requires forall i :: 0 <= i < |parts| ==> ':' !in parts[i]
    requires parts[|parts| - 1] != ""
    ensures JavaParse(Join(parts, ':')) ==
      if JavaParseInt(parts[1]).Some? then Ok(JavaNode(parts[0], JavaParseInt(parts[1]).value, WEIGHT_DEFAULT))
      else Err(NumberFormat)
  {
    JavaSplitJoin(parts, ':');
  }

  /** A name without a colon has no field 1, so reading the port goes out of bounds. */
  lemma JavaParseOneField(s: string)
    requires ':' !in s
    ensures JavaParse(s) == Err(IndexOutOfBounds)
  {
  }
}

=== FILE: numbers.dfy ===
/**
 * The three integer parsers the node strings go through: Python's `int(str)`,
 * Go's `strconv.Atoi` and Java's `Integer.valueOf(String)`. They share one
 * grammar, an optional sign followed by decimal digits, and differ in what
 * surrounds it: whitespace, range and the way a failure is reported.
 */
module Numbers {
  import opened Wrappers
  import opened Text

  const INT32_MIN: int := -0x8000_0000
  const INT32_MAX: int := 0x7fff_ffff
  const INT64_MIN: int := -0x8000_0000_0000_0000
  const INT64_MAX: int := 0x7fff_ffff_ffff_ffff

  /** The value of an optional `+`/`-` followed by at least one ASCII digit; `None` for anything else. */
  function ParseSigned(s: string): (r: Option<int>)
  {
    if |s| > 0 && (s[0] == '+' || s[0] == '-') then
      if IsDigits(s[1..]) then
        var m: int := DigitsValue(s[1..]);
        Some(if s[0] == '-' then -m else m)
      else None
    else if IsDigits(s) then Some(DigitsValue(s))
    else None
  }

  /** Reading back the decimal rendering of any integer gives the integer. */
  lemma ParseSignedIntToString(x: int)
    ensures ParseSigned(IntToString(x)) == Some(x)
  {
    var s := IntToString(x);
    if x < 0 {
      assert s[1..] == NatToString(-x);
      NatToStringValue(-x);
    } else {
      assert IsDigit(s[0]);
      NatToStringValue(x);
    }
  }

  /** The six ASCII characters Python's `str.strip()` and `int()` treat as whitespace. */
  predicate IsSpace(c: char)
  {
    c == ' ' || 9 <= c as int <= 13
  }

  function StripLeft(s: string): (r: string)
    ensures |r| <= |s| && r == s[|s| - |r|..]
    ensures |r| > 0 ==> !IsSpace(r[0])
  {
    if |s| > 0 && IsSpace(s[0]) then StripLeft(s[1..]) else s
  }

  function StripRight(s: string): (r: string)
    ensures |r| <= |s| && r == s[..|r|]
    ensures |r| > 0 ==> !IsSpace(r[|r| - 1])
  {
    if |s| > 0 && IsSpace(s[|s| - 1]) then StripRight(s[..|s| - 1]) else s
  }

  /** Leading and trailing whitespace removed. */
  function Strip(s: string): string
  {
    StripRight(StripLeft(s))
  }

  /** A string with no whitespace at either end is its own stripped form. */
  lemma StripUnchanged(s: string)
    requires |s| > 0 ==> !IsSpace(s[0]) && !IsSpace(s[|s| - 1])
    ensures Strip(s) == s
  {
  }

  /**
   * Python 2's `int(s)`: whitespace is skipped around the number and also
   * between its sign and its digits (`int("- 5") == -5`); `None` stands for
   * the `ValueError` it raises.
   */
  function PyInt(s: string): (r: Option<int>)
    ensures ParseSigned(Strip(s)).Some? ==> r == ParseSigned(Strip(s))
    ensures r.Some? ==> exists i :: 0 <= i < |s| && IsDigit(s[i])
    ensures r.Some? ==>
              (IsDigits(Strip(s)) && r.value == DigitsValue(Strip(s))) ||
              exists sign, gap, d :: SignGapDigits(Strip(s), sign, gap, d) && r.value == Signed(sign == '-', DigitsValue(d))
  {
    var t := Strip(s);
    var r := SignedWithGap(t);
    if r.Some? then
      DigitInside(s, t, t[|t| - 1]);
      r
    else r
  }

  /**
   * The number part of Python 2's `int` on text already stripped: an
   * optional sign, any whitespace, then at least one digit.
   */
  function SignedWithGap(t: string): (r: Option<int>)
    ensures ParseSigned(t).Some? ==> r == ParseSigned(t)
    ensures r.Some? ==> |t| > 0 && IsDigit(t[|t| - 1])
    ensures r.Some? ==>
              (IsDigits(t) && r.value == DigitsValue(t)) ||
              exists sign, gap, d :: SignGapDigits(t, sign, gap, d) && r.value == Signed(sign == '-', DigitsValue(d))
  {
    if |t| > 0 && (t[0] == '+' || t[0] == '-') then
      var r := AfterSign(t[0] == '-', t[1..]);
      ParseSignedAfterSign(t);
      if r.Some? then
        assert t[1..][|t| - 2] == t[|t| - 1];
        SignThenGap(t, r.value);
        r
      else r
    else if IsDigits(t) then Some(DigitsValue(t))
    else None
  }

  /** After a sign the strict reader wants digits and nothing else. */
  lemma ParseSignedAfterSign(t: string)
    requires |t| > 0 && (t[0] == '+' || t[0] == '-')
    ensures ParseSigned(t) == if IsDigits(t[1..]) then Some(Signed(t[0] == '-', DigitsValue(t[1..]))) else None
  {
  }

  /** A sign in front of whitespace and digits makes the signed form. */
  lemma SignThenGap(t: string, v: int)
    requires |t| > 0 && (t[0] == '+' || t[0] == '-')
    requires exists gap, d :: GapThenDigits(t[1..], gap, d) && v == Signed(t[0] == '-', DigitsValue(d))
    ensures exists sign, gap, d :: SignGapDigits(t, sign, gap, d) && v == Signed(sign == '-', DigitsValue(d))
  {
    var gap, d :| GapThenDigits(t[1..], gap, d) && v == Signed(t[0] == '-', DigitsValue(d));
    assert t == [t[0]] + t[1..];
    assert SignGapDigits(t, t[0], gap, d);
  }

  /** Whitespace only (the empty text included). */
  predicate AllSpace(gap: string)
  {
    forall i :: 0 <= i < |gap| ==> IsSpace(gap[i])
  }

  /** `rest` is some whitespace followed by at least one digit. */
  predicate GapThenDigits(rest: string, gap: string, d: string)
  {
    AllSpace(gap) && IsDigits(d) && rest == gap + d
  }

  /** `t` is a sign, some whitespace, then at least one digit. */
  predicate SignGapDigits(t: string, sign: char, gap: string, d: string)
  {
    (sign == '+' || sign == '-') && AllSpace(gap) && IsDigits(d) && t == [sign] + gap + d
  }

  /** What follows a sign: any whitespace, then at least one digit. */
  function AfterSign(negative: bool, rest: string): (r: Option<int>)
    ensures IsDigits(rest) ==> r == Some(Signed(negative, DigitsValue(rest)))
    ensures r.Some? ==> |rest| > 0 && IsDigit(rest[|rest| - 1])
    ensures r.Some? ==> exists gap, d :: GapThenDigits(rest, gap, d) && r.value == Signed(negative, DigitsValue(d))
  {
    var d := StripLeft(rest);
    StripLeftFacts(rest);
    if IsDigits(d) then
      StripLeftSplits(rest);
      Some(Signed(negative, DigitsValue(d)))
    else None
  }

  /** A text whose left-stripped form is digits is the stripped whitespace followed by those digits. */
  lemma StripLeftSplits(rest: string)
    requires IsDigits(StripLeft(rest))
    ensures GapThenDigits(rest, rest[..|rest| - |StripLeft(rest)|], StripLeft(rest))
  {
    StripLeftDropsSpaces(rest);
    var d := StripLeft(rest);
    assert rest == rest[..|rest| - |d|] + d;
  }

  /** What `StripLeft` removes is whitespace. */
  lemma {:induction false} StripLeftDropsSpaces(s: string)
    ensures AllSpace(s[..|s| - |StripLeft(s)|])
    decreases |s|
  {
    if |s| > 0 && IsSpace(s[0]) {
      StripLeftDropsSpaces(s[1..]);
      var k := |s| - |StripLeft(s)|;
      assert s[1..][..k - 1] == s[1..k];
      forall i | 0 <= i < k
        ensures IsSpace(s[..k][i])
      {
        if i > 0 {
          assert s[..k][i] == s[1..][..k - 1][i - 1];
        }
      }
    }
  }

  /** A magnitude with its sign. */
  function Signed(negative: bool, m: nat): (r: int)
    ensures negative ==> r <= 0
    ensures !negative ==> r >= 0
    ensures r == m || r == -(m as int)
  {
    if negative then -(m as int) else m
  }

  /** Digits have no whitespace to strip, and stripping the left keeps the last character. */
  lemma StripLeftFacts(x: string)
    ensures IsDigits(x) ==> StripLeft(x) == x
    ensures |StripLeft(x)| > 0 ==> StripLeft(x)[|StripLeft(x)| - 1] == x[|x| - 1]
  {
    var l := StripLeft(x);
    if |l| > 0 {
      assert l[|l| - 1] == x[|x| - |l| + |l| - 1];
    }
  }

  /** A digit left in the stripped text was in the text. */
  lemma DigitInside(s: string, t: string, c: char)
    requires t == Strip(s) && c in t && IsDigit(c)
    ensures exists i :: 0 <= i < |s| && IsDigit(s[i])
  {
    var l := StripLeft(s);
    assert t == l[..|t|];
    var j :| 0 <= j < |t| && t[j] == c;
    var i := |s| - |l| + j;
    assert l[j] == s[i];
    assert 0 <= i < |s| && IsDigit(s[i]);
  }

  /** Whitespace in front of a text that starts with no whitespace is all `StripLeft` removes. */
  lemma {:induction false} StripLeftGap(gap: string, d: string)
    requires forall i :: 0 <= i < |gap| ==> IsSpace(gap[i])
    requires |d| > 0 && !IsSpace(d[0])
    ensures StripLeft(gap + d) == d
    decreases |gap|
  {
    if |gap| > 0 {
      assert (gap + d)[1..] == gap[1..] + d;
      StripLeftGap(gap[1..], d);
    }
  }

  /** A sign, any whitespace, then digits: Python 2 reads the signed number. */
  lemma PyIntSignGap(sign: char, gap: string, d: string)
    requires sign == '+' || sign == '-'
    requires forall i :: 0 <= i < |gap| ==> IsSpace(gap[i])
    requires IsDigits(d)
    ensures PyInt([sign] + gap + d) == Some(Signed(sign == '-', DigitsValue(d)))
  {
    var s := [sign] + gap + d;
    assert !IsSpace(d[0]) && !IsSpace(s[|s| - 1]);
    StripUnchanged(s);
    assert s[1..] == gap + d;
    StripLeftGap(gap, d);
    assert SignedWithGap(s) == Some(Signed(sign == '-', DigitsValue(d)));
  }

  /** Go's `Atoi` and Java's `valueOf` take no whitespace after the sign. */
  lemma SignGapRejected(sign: char, gap: string, d: string)
    requires sign == '+' || sign == '-'
    requires |gap| > 0 && IsSpace(gap[0])
    ensures ParseSigned([sign] + gap + d).None?
  {
    var s := [sign] + gap + d;
    assert s[1..][0] == gap[0];
    assert !IsDigits(s[1..]) && !IsDigits(s);
  }

  /** Surrounding whitespace, a sign, any whitespace, then digits: Python 2 reads the signed number. */
  lemma PyIntAcceptsSigned(s: string, sign: char, gap: string, d: string)
    requires SignGapDigits(Strip(s), sign, gap, d)
    ensures PyInt(s) == Some(Signed(sign == '-', DigitsValue(d)))
  {
    var t := Strip(s);
    assert t[1..] == gap + d;
    StripLeftGap(gap, d);
  }

  /**
   * The texts Python 2's `int` reads are exactly those whose stripped form
   * is digits, or a sign, whitespace and digits; every other text raises
   * `ValueError`.
   */
  lemma PyIntGrammar(s: string)
    ensures PyInt(s).Some? <==> IsDigits(Strip(s)) || exists sign, gap, d :: SignGapDigits(Strip(s), sign, gap, d)
  {
    var t := Strip(s);
    if IsDigits(t) {
      assert !(t[0] == '+' || t[0] == '-');
      assert ParseSigned(t) == Some(DigitsValue(t));
    } else if exists sign, gap, d :: SignGapDigits(t, sign, gap, d) {
      var sign, gap, d :| SignGapDigits(t, sign, gap, d);
      PyIntAcceptsSigned(s, sign, gap, d);
    }
  }

  /** `int("- 5") == -5`, where Go's `Atoi` and Java's `valueOf` reject the blank. */
  lemma PyIntBlankAfterSign()
    ensures PyInt("- 5") == Some(-5)
    ensures ParseSigned("- 5").None?
  {
    var d := "5";
    assert IsDigits(d) && d[..0] == "";
    assert DigitsValue(d) == 5;
    assert "- 5" == ['-'] + " " + d;
    PyIntSignGap('-', " ", d);
    SignGapRejected('-', " ", d);
  }

  /** `int(str(x)) == x` for every Python integer. */
  lemma PyIntRoundTrip(x: int)
    ensures PyInt(IntToString(x)) == Some(x)
  {
    var s := IntToString(x);
    assert !IsSpace(s[0]) && !IsSpace(s[|s| - 1]) by {
      assert s[0] == '-' || IsDigit(s[0]);
    }
    StripUnchanged(s);
    ParseSignedIntToString(x);
  }

  /** `strconv.Atoi`'s two results: the value and whether the error was nil. */
  datatype Atoi = Atoi(value: int, ok: bool)

  const UINT64_MAX: int := 0xffff_ffff_ffff_ffff

  /** A leading `-`. */
  predicate Negative(s: string)
  {
    |s| > 0 && s[0] == '-'
  }

  /** The text after a leading `+` or `-`, if any. */
  function Unsigned(s: string): (u: string)
    ensures |u| <= |s| && u == s[|s| - |u|..]
  {
    if |s| > 0 && (s[0] == '+' || s[0] == '-') then s[1..] else s
  }

  /** The end of the run of digits that starts at `i`. */
  function DigitRun(s: string, i: nat): (k: nat)
    requires i <= |s|
    ensures i <= k <= |s|
    ensures forall j :: i <= j < k ==> IsDigit(s[j])
    ensures k < |s| ==> !IsDigit(s[k])
    decreases |s| - i
  {
    if i < |s| && IsDigit(s[i]) then DigitRun(s, i + 1) else i
  }

  /** The digits a text starts with. */
  function LeadingDigits(s: string): (d: string)
    ensures |d| <= |s| && AllDigits(d) && d == s[..|d|]
  {
    s[..DigitRun(s, 0)]
  }

  /**
   * The digits after the optional sign already pass 2^64 - 1 before the
   * first character that is not a digit.
   */
  predicate OverflowsFirst(s: string)
  {
    DigitsValue(LeadingDigits(Unsigned(s))) > UINT64_MAX
  }

  /** `strconv.ParseUint(s, 10, 64)`: its value, or which of its two errors. */
  datatype UintScan = Value(n: nat) | SyntaxError | RangeError

  /**
   * The loop of `ParseUint` from position `i` with `n` read so far: a
   * character that is not a digit is a syntax error, and a value passing
   * 2^64 - 1 is a range error at once, before any later character is seen.
   */
  function ScanUint(s: string, i: nat, n: nat): (r: UintScan)
    requires i <= |s|
    decreases |s| - i
  {
    if i == |s| then Value(n)
    else if !IsDigit(s[i]) then SyntaxError
    else if n * 10 + DigitValue(s[i]) > UINT64_MAX then RangeError
    else ScanUint(s, i + 1, n * 10 + DigitValue(s[i]))
  }

  /** `ParseUint(s, 10, 64)`: the empty text is a syntax error, anything else is scanned. */
  function GoParseUint(s: string): (r: UintScan)
  {
    if |s| == 0 then SyntaxError else ScanUint(s, 0, 0)
  }

  /**
   * What the scan decides: a range error exactly when the leading digits
   * overflow, otherwise a syntax error unless the whole text is digits,
   * whose value is then returned.
   */
  lemma GoParseUintMeaning(s: string)
    ensures GoParseUint(s) ==
            if DigitsValue(LeadingDigits(s)) > UINT64_MAX then RangeError
            else if !IsDigits(s) then SyntaxError
            else Value(DigitsValue(s))
  {
    if |s| > 0 {
      assert s[..0] == "";
      ScanUintMeaning(s, 0);
    }
    if IsDigits(s) {
      assert LeadingDigits(s) == s;
    }
  }

  /** The scan from a digit prefix that has not overflowed, as `GoParseUintMeaning` states it. */
  lemma {:induction false} ScanUintMeaning(s: string, i: nat)
    requires i <= DigitRun(s, 0) && DigitsValue(s[..i]) <= UINT64_MAX
    ensures var k := DigitRun(s, 0);
            ScanUint(s, i, DigitsValue(s[..i])) ==
            if DigitsValue(s[..k]) > UINT64_MAX then RangeError
            else if k < |s| then SyntaxError
            else Value(DigitsValue(s))
    decreases |s| - i
  {
    var k := DigitRun(s, 0);
    if i == k {
      if k == |s| {
        assert s[..k] == s;
      }
    } else {
      var n' := DigitsValue(s[..i]) * 10 + DigitValue(s[i]);
      assert s[..i + 1][..i] == s[..i];
      assert n' == DigitsValue(s[..i + 1]);
      if n' > UINT64_MAX {
        DigitsValuePrefix(s, i + 1, k);
      } else {
        ScanUintMeaning(s, i + 1);
      }
    }
  }

  /** A longer run of leading digits is worth at least as much. */
  lemma {:induction false} DigitsValuePrefix(s: string, i: nat, j: nat)
    requires i <= j <= |s| && AllDigits(s[..j])
    ensures AllDigits(s[..i]) && DigitsValue(s[..i]) <= DigitsValue(s[..j])
    decreases j - i
  {
    assert forall m :: 0 <= m < i ==> s[..i][m] == s[..j][m];
    if i < j {
      assert s[..j][..j - 1] == s[..j - 1];
      assert forall m :: 0 <= m < j - 1 ==> s[..j - 1][m] == s[..j][m];
      DigitsValuePrefix(s, i, j - 1);
    }
  }

  /** The strict reader is the unsigned digits with the sign applied. */
  lemma ParseSignedUnsigned(s: string)
    ensures ParseSigned(s) == if IsDigits(Unsigned(s)) then Some(Signed(Negative(s), DigitsValue(Unsigned(s)))) else None
  {
  }

  /**
   * `strconv.Atoi(s)`: a 64-bit `ParseInt` without whitespace skipping. A
   * syntax error yields 0; a number past the int64 range yields the bound
   * on its side; and a run of digits that passes 2^64 - 1 before a bad
   * character also yields that bound, since the overflow is reported
   * before the bad character is reached. Every failure comes with an error.
   */
  function GoAtoi(s: string): (r: Atoi)
    ensures INT64_MIN <= r.value <= INT64_MAX
    ensures r.ok <==> ParseSigned(s).Some? && INT64_MIN <= ParseSigned(s).value <= INT64_MAX
    ensures r.ok ==> r.value == ParseSigned(s).value
    ensures ParseSigned(s).Some? && ParseSigned(s).value > INT64_MAX ==> r == Atoi(INT64_MAX, false)
    ensures ParseSigned(s).Some? && ParseSigned(s).value < INT64_MIN ==> r == Atoi(INT64_MIN, false)
    ensures ParseSigned(s).None? && OverflowsFirst(s) ==> r == Atoi(if Negative(s) then INT64_MIN else INT64_MAX, false)
    ensures ParseSigned(s).None? && !OverflowsFirst(s) ==> r == Atoi(0, false)
  {
    var u := Unsigned(s);
    GoParseUintMeaning(u);
    ParseSignedUnsigned(s);
    assert IsDigits(u) ==> LeadingDigits(u) == u;
    match GoParseUint(u)
    case SyntaxError => Atoi(0, false)
    case RangeError => Atoi(if Negative(s) then INT64_MIN else INT64_MAX, false)
    case Value(n) =>
      if !Negative(s) && n > INT64_MAX then Atoi(INT64_MAX, false)
      else if Negative(s) && n > -INT64_MIN then Atoi(INT64_MIN, false)
      else Atoi(Signed(Negative(s), n), true)
  }

  /** The leading digits of digits followed by a character that is not one. */
  lemma LeadingDigitsBeforeJunk(d: string, rest: string)
    requires AllDigits(d) && |rest| > 0 && !IsDigit(rest[0])
    ensures LeadingDigits(d + rest) == d
  {
    var s := d + rest;
    var k := DigitRun(s, 0);
    assert s[|d|] == rest[0];
    assert forall j :: 0 <= j < |d| ==> s[j] == d[j];
    assert s[..|d|] == d;
  }

  /**
   * Digits worth more than 2^64 - 1 followed by junk: `Atoi` reports the
   * overflow and its int64 bound, not a syntax error and 0.
   */
  lemma GoAtoiOverflowThenJunk(d: string, rest: string)
    requires IsDigits(d) && DigitsValue(d) > UINT64_MAX
    requires |rest| > 0 && !IsDigit(rest[0])
    ensures GoAtoi(d + rest) == Atoi(INT64_MAX, false)
    ensures GoAtoi("-" + d + rest) == Atoi(INT64_MIN, false)
  {
    LeadingDigitsBeforeJunk(d, rest);
    var s := d + rest;
    assert s[0] == d[0] && s[|d|] == rest[0];
    assert Unsigned(s) == s;
    var m := "-" + d + rest;
    assert m[1..] == s;
    assert m[1..][|d|] == rest[0];
  }

  /** `strconv.Atoi(strconv.Itoa(x))` gives back `x` without error. */
  lemma GoAtoiRoundTrip(x: int)
    requires INT64_MIN <= x <= INT64_MAX
    ensures GoAtoi(IntToString(x)) == Atoi(x, true)
  {
    ParseSignedIntToString(x);
  }

  /** Java's `Integer.valueOf(s)`: `None` stands for `NumberFormatException`. */
  function JavaParseInt(s: string): (r: Option<int>)
    ensures r.Some? ==> INT32_MIN <= r.value <= INT32_MAX
    ensures r.Some? <==> ParseSigned(s).Some? && INT32_MIN <= ParseSigned(s).value <= INT32_MAX
  {
    match ParseSigned(s)
    case Some(v) => if INT32_MIN <= v <= INT32_MAX then Some(v) else None
    case None => None
  }

  /** `Integer.valueOf(Integer.toString(x))` gives back `x`. */
  lemma JavaParseIntRoundTrip(x: int)
    requires INT32_MIN <= x <= INT32_MAX
    ensures JavaParseInt(IntToString(x)) == Some(x)
  {
    ParseSignedIntToString(x);
  }
}

=== FILE: pool.dfy ===
/**
 * The connection pools: Python `KeyedObjectPool` / `ObjectPool` and Go
 * `KeyedPool` / `Pool`. Each key owns a block: a FIFO of idle objects (the
 * `LinkedQueue` module shows Go's linked list is such a FIFO) and a count of
 * the objects the factory made for the key that are not known destroyed.
 *
 * Objects are identities; the factory is an oracle result, `Ok(conn)` or
 * `Err(message)`; closing an object is recorded in the `closed` set.
 */
module Pool {
  import opened Wrappers

  type Conn = nat

  /** What one call of the factory gave. */
  type Made = Result<Conn, string>

  /** A key's `{"queue", "count"}` / `PoolBlock`. */
  datatype Block = Block(idle: seq<Conn>, count: int)

  datatype PoolError =
    | Factory(message: string)   // the factory's error, propagated
    | Exhausted                  // `queue.Empty` / "Queue is empty."
    | Blocked                    // `get` with no timeout on an empty queue waits forever
    | NegativeTimeout            // `get` with a negative timeout raises `ValueError`
    | KeyError                   // a key the pool has never seen
    | NilDereference             // Go's `p.pb[key].Count` on a missing key

  /** A keyed pool: its bounds, the `get` timeout (`None` waits forever), the blocks and the closed objects. */
  datatype KeyedPool = KeyedPool(maxSize: int, maxActive: int, timeout: Option<int>,
                                 blocks: map<string, Block>, closed: set<Conn>)

  /**
   * The counter invariant: a count is never negative and neither it nor
   * the idle queue exceeds `maxSize`; with `maxSize <= 0` nothing is ever
   * made or kept.
   */
  predicate BlockInv(b: Block, maxSize: int)
  {
    0 <= b.count && (maxSize > 0 ==> b.count <= maxSize && |b.idle| <= maxSize) &&
    (maxSize <= 0 ==> b.count == 0 && b.idle == [])
  }

  predicate Inv(p: KeyedPool)
  {
    forall k :: k in p.blocks ==> BlockInv(p.blocks[k], p.maxSize)
  }

  /** Every key other than `key` has the block it had. */
  ghost predicate OthersKept(p: KeyedPool, p': KeyedPool, key: string)
  {
    forall k :: k != key ==> (k in p'.blocks <==> k in p.blocks) && (k in p.blocks ==> p'.blocks[k] == p.blocks[k])
  }

  /** An operation kept the pool's bounds and timeout. */
  predicate SameBounds(p: KeyedPool, p': KeyedPool)
  {
    p'.maxSize == p.maxSize && p'.maxActive == p.maxActive && p'.timeout == p.timeout
  }

  // ---------------------------------------------------------------- block steps shared by all pools

  /** A borrow calls the factory exactly when nothing is idle and the count is below `maxSize`. */
  predicate Creates(b: Block, maxSize: int)
  {
    |b.idle| == 0 && b.count < maxSize
  }

  /** `__check` / `check`: a key seen for the first time gets an empty block with count 0. */
  function Check(p: KeyedPool, key: string): (r: KeyedPool)
    ensures key in r.blocks && r.closed == p.closed && OthersKept(p, r, key)
    ensures key in p.blocks ==> r == p
    ensures key !in p.blocks ==> r.blocks[key] == Block([], 0)
  {
    if key in p.blocks then p else p.(blocks := p.blocks[key := Block([], 0)])
  }

  /**
   * The creation step of a borrow: when it `Creates`, the new object is
   * queued and the count goes up by one, or the factory's error is returned
   * with the block unchanged; otherwise the block is left alone.
   */
  function Fill(b: Block, maxSize: int, made: Made): (r: Result<Block, string>)
    requires BlockInv(b, maxSize)
    ensures r.Err? <==> Creates(b, maxSize) && made.Err?
    ensures r.Ok? ==> BlockInv(r.value, maxSize)
    ensures r.Ok? && Creates(b, maxSize) ==> r.value == Block([made.value], b.count + 1)
    ensures r.Ok? && !Creates(b, maxSize) ==> r.value == b
  {
    if Creates(b, maxSize) then
      match made
      case Ok(c) => Ok(Block([c], b.count + 1))
      case Err(e) => Err(e)
    else Ok(b)
  }

  /** A destroy's effect on the count: one less, never below zero. */
  function Drop(b: Block): (r: Block)
    ensures r.idle == b.idle
    ensures r.count == if b.count > 0 then b.count - 1 else b.count
  {
    b.(count := if b.count > 0 then b.count - 1 else b.count)
  }

  /**
   * The `putObj` step of a return whose queue is below `maxActive`: queue the
   * object when the queue is below `maxSize`, otherwise only close it (the
   * count is not lowered). `true` in the result means the object was closed.
   */
  function Put(b: Block, c: Conn, maxSize: int): (r: (Block, bool))
    requires BlockInv(b, maxSize)
    ensures BlockInv(r.0, maxSize)
    ensures !r.1 <==> |b.idle| < maxSize
    ensures !r.1 ==> r.0 == Block(b.idle + [c], b.count)
    ensures r.1 ==> r.0 == b
  {
    if |b.idle| < maxSize then (b.(idle := b.idle + [c]), false) else (b, true)
  }

  /** Every idle object of every block. */
  function AllIdle(blocks: map<string, Block>): set<Conn>
  {
    set k, c | k in blocks && c in blocks[k].idle :: c
  }

  /** Every block drained and its count set to 0. */
  function Drained(blocks: map<string, Block>): (r: map<string, Block>)
    ensures r.Keys == blocks.Keys
    ensures forall k :: k in r ==> r[k] == Block([], 0)
  {
    map k | k in blocks :: Block([], 0)
  }

  // ---------------------------------------------------------------- Python KeyedObjectPool

  /**
   * `KeyedObjectPool(func, **kwargs)`: `pool_max_size` 8, `pool_max_active_size`
   * 4 and `pool_wait_timeout` None when the option is absent; a given value,
   * 0 included, is kept.
   */
  function PyNewKeyedPool(maxSize: Option<int>, maxActive: Option<int>, timeout: Option<int>): (r: KeyedPool)
    ensures Inv(r) && r.blocks == map[] && r.closed == {}
    ensures r.maxSize == (if maxSize.Some? then maxSize.value else 8)
    ensures r.maxActive == (if maxActive.Some? then maxActive.value else 4)
    ensures r.timeout == timeout
  {
    KeyedPool(maxSize.GetOr(8), maxActive.GetOr(4), timeout, map[], {})
  }

  /**
   * `borrow_obj(key)`: check the key, run the creation step, then
   * `get(True, timeout)`: a negative timeout raises `ValueError`, an empty
   * queue raises `Empty` (or waits forever without a timeout), otherwise
   * the head of the queue is returned.
   */
  function PyBorrow(p: KeyedPool, key: string, made: Made): (r: (Result<Conn, PoolError>, KeyedPool))
    requires Inv(p)
    ensures SameBounds(p, r.1)
    ensures Inv(r.1) && key in r.1.blocks && r.1.closed == p.closed && OthersKept(p, r.1, key)
    ensures var b := Check(p, key).blocks[key]; var b' := r.1.blocks[key];
      && (Creates(b, p.maxSize) && made.Err? ==> r.0 == Err(Factory(made.error)) && b' == b)
      && (p.timeout.Some? && p.timeout.value < 0 && !(Creates(b, p.maxSize) && made.Err?) ==> r.0 == Err(NegativeTimeout))
      && (r.0.Ok? && Creates(b, p.maxSize) ==> r.0.value == made.value && b' == Block([], b.count + 1))
      && (r.0.Ok? && !Creates(b, p.maxSize) ==> |b.idle| > 0 && r.0.value == b.idle[0] && b' == Block(b.idle[1..], b.count))
      && (r.0.Ok? <==> (p.timeout.None? || p.timeout.value >= 0) && (|b.idle| > 0 || (Creates(b, p.maxSize) && made.Ok?)))
  {
    var p1 := Check(p, key);
    var b := p1.blocks[key];
    match Fill(b, p.maxSize, made)
    case Err(e) => (Err(Factory(e)), p1)
    case Ok(b1) =>
      var p2 := p1.(blocks := p1.blocks[key := b1]);
      if p.timeout.Some? && p.timeout.value < 0 then (Err(NegativeTimeout), p2)
      else if |b1.idle| == 0 then (Err(if p.timeout.None? then Blocked else Exhausted), p2)
      else (Ok(b1.idle[0]), p1.(blocks := p1.blocks[key := b1.(idle := b1.idle[1..])]))
  }

  /**
   * `destroy_obj(obj, key)`: `None` is ignored; otherwise the object is
   * closed, then the key is looked up (`KeyError` when unseen) and its count
   * lowered if positive.
   */
  function PyDestroy(p: KeyedPool, key: string, obj: Option<Conn>): (r: (Result<(), PoolError>, KeyedPool))
    requires Inv(p)
    ensures SameBounds(p, r.1)
    ensures Inv(r.1) && OthersKept(p, r.1, key) && (key in r.1.blocks <==> key in p.blocks)
    ensures obj.None? ==> r == (Ok(()), p)
    ensures obj.Some? ==> r.1.closed == p.closed + {obj.value}
    ensures obj.Some? ==> (r.0 == Err(KeyError) <==> key !in p.blocks)
    ensures obj.Some? && key in p.blocks ==> r.1.blocks[key] == Drop(p.blocks[key])
  {
    match obj
    case None => (Ok(()), p)
    case Some(c) =>
      var p1 := p.(closed := p.closed + {c});
      if key !in p.blocks then (Err(KeyError), p1)
      else (Ok(()), p1.(blocks := p.blocks[key := Drop(p.blocks[key])]))
  }

  /**
   * `return_obj(obj, key)`: `size(key)` raises `KeyError` for an unseen key;
   * a queue below `max_active_size` takes the object back (or closes it when
   * at `max_size`), otherwise the object is destroyed.
   */
  function PyReturn(p: KeyedPool, key: string, c: Conn): (r: (Result<(), PoolError>, KeyedPool))
    requires Inv(p)
    ensures SameBounds(p, r.1)
    ensures Inv(r.1) && OthersKept(p, r.1, key) && (key in r.1.blocks <==> key in p.blocks)
    ensures r.0 == Err(KeyError) <==> key !in p.blocks
    ensures key !in p.blocks ==> r.1 == p
    ensures key in p.blocks ==> var b := p.blocks[key]; var b' := r.1.blocks[key];
      && (|b.idle| < p.maxActive && |b.idle| < p.maxSize ==> b' == Block(b.idle + [c], b.count) && r.1.closed == p.closed)
      && (|b.idle| < p.maxActive && |b.idle| >= p.maxSize ==> b' == b && r.1.closed == p.closed + {c})
      && (|b.idle| >= p.maxActive ==> b' == Drop(b) && r.1.closed == p.closed + {c})
  {
    if key !in p.blocks then (Err(KeyError), p)
    else
      var b := p.blocks[key];
      if |b.idle| < p.maxActive then
        var (b', closes) := Put(b, c, p.maxSize);
        (Ok(()), p.(blocks := p.blocks[key := b'], closed := if closes then p.closed + {c} else p.closed))
      else PyDestroy(p, key, Some(c))
  }

  /**
   * Python `clear()` and Go `Clear()`: every idle object of every key is
   * closed and every count is set to 0, objects out on loan included.
   */
  function Clear(p: KeyedPool): (r: KeyedPool)
    requires Inv(p)
    ensures Inv(r) && r.blocks == Drained(p.blocks)
    ensures r.closed == p.closed + AllIdle(p.blocks)
    ensures r.maxSize == p.maxSize && r.maxActive == p.maxActive && r.timeout == p.timeout
  {
    p.(blocks := Drained(p.blocks), closed := p.closed + AllIdle(p.blocks))
  }

  // ---------------------------------------------------------------- Go KeyedPool

  const MAX_SIZE: int := 8
  const MAX_ACTIVE_SIZE: int := 4
  const WAIT_TIMEOUT: int := 10000

  /** `NewKeyedPool(f, maxSize, maxActiveSize, waitTimeout)`: every value `<= 0` is replaced by its default. */
  function GoNewKeyedPool(maxSize: int, maxActive: int, waitTimeout: int): (r: KeyedPool)
    ensures GoInv(r) && r.blocks == map[] && r.closed == {}
    ensures r.maxSize == (if maxSize > 0 then maxSize else MAX_SIZE)
    ensures r.maxActive == (if maxActive > 0 then maxActive else MAX_ACTIVE_SIZE)
    ensures r.timeout == Some(if waitTimeout > 0 then waitTimeout else WAIT_TIMEOUT)
  {
    KeyedPool(if maxSize <= 0 then MAX_SIZE else maxSize,
              if maxActive <= 0 then MAX_ACTIVE_SIZE else maxActive,
              Some(if waitTimeout <= 0 then WAIT_TIMEOUT else waitTimeout), map[], {})
  }

  /** What `NewKeyedPool` guarantees on top of `Inv`: positive bounds. */
  predicate GoInv(p: KeyedPool)
  {
    Inv(p) && p.maxSize > 0 && p.maxActive > 0
  }

  /** `Size(key)`: the idle count, 0 for a key never seen. */
  function GoSize(p: KeyedPool, key: string): (n: nat)
    ensures key !in p.blocks ==> n == 0
    ensures key in p.blocks ==> n == |p.blocks[key].idle|
  {
    if key in p.blocks then |p.blocks[key].idle| else 0
  }

  /**
   * `Borrow(key)`: check the key, run the creation step (a factory error is
   * returned as is), then take the head of the queue; an empty queue gives
   * "Queue is empty." once the wait has run out.
   */
  function GoBorrow(p: KeyedPool, key: string, made: Made): (r: (Result<Conn, PoolError>, KeyedPool))
    requires Inv(p)
    ensures SameBounds(p, r.1)
    ensures Inv(r.1) && key in r.1.blocks && r.1.closed == p.closed && OthersKept(p, r.1, key)
    ensures var b := Check(p, key).blocks[key]; var b' := r.1.blocks[key];
      && (Creates(b, p.maxSize) && made.Err? ==> r.0 == Err(Factory(made.error)) && b' == b)
      && (r.0.Ok? && Creates(b, p.maxSize) ==> r.0.value == made.value && b' == Block([], b.count + 1))
      && (r.0.Ok? && !Creates(b, p.maxSize) ==> |b.idle| > 0 && r.0.value == b.idle[0] && b' == Block(b.idle[1..], b.count))
      && (r.0 == Err(Exhausted) <==> |b.idle| == 0 && b.count >= p.maxSize)
  {
    var p1 := Check(p, key);
    var b := p1.blocks[key];
    match Fill(b, p.maxSize, made)
    case Err(e) => (Err(Factory(e)), p1)
    case Ok(b1) =>
      if |b1.idle| == 0 then (Err(Exhausted), p1.(blocks := p1.blocks[key := b1]))
      else (Ok(b1.idle[0]), p1.(blocks := p1.blocks[key := b1.(idle := b1.idle[1..])]))
  }

  /**
   * `Destroy(obj, key)`: nil is ignored; otherwise the object is closed and
   * the key's count lowered if positive, a missing key dereferencing nil.
   */
  function GoDestroy(p: KeyedPool, key: string, obj: Option<Conn>): (r: (Result<(), PoolError>, KeyedPool))
    requires Inv(p)
    ensures SameBounds(p, r.1)
    ensures Inv(r.1) && OthersKept(p, r.1, key) && (key in r.1.blocks <==> key in p.blocks)
    ensures obj.None? ==> r == (Ok(()), p)
    ensures obj.Some? ==> r.1.closed == p.closed + {obj.value}
    ensures obj.Some? ==> (r.0 == Err(NilDereference) <==> key !in p.blocks)
    ensures obj.Some? && key in p.blocks ==> r.1.blocks[key] == Drop(p.blocks[key])
  {
    match obj
    case None => (Ok(()), p)
    case Some(c) =>
      var p1 := p.(closed := p.closed + {c});
      if key !in p.blocks then (Err(NilDereference), p1)
      else (Ok(()), p1.(blocks := p.blocks[key := Drop(p.blocks[key])]))
  }

  /**
   * `Return(obj, key)`: below `maxActiveSize` (an unseen key has size 0)
   * `putObj` checks the key and queues the object, or closes it at
   * `maxSize`; otherwise the object is destroyed.
   */
  function GoReturn(p: KeyedPool, key: string, c: Conn): (r: (Result<(), PoolError>, KeyedPool))
    requires GoInv(p)
    ensures SameBounds(p, r.1)
    ensures GoInv(r.1) && key in r.1.blocks && OthersKept(p, r.1, key)
    ensures r.0.Ok?
    ensures var b := Check(p, key).blocks[key]; var b' := r.1.blocks[key];
      && (|b.idle| < p.maxActive && |b.idle| < p.maxSize ==> b' == Block(b.idle + [c], b.count) && r.1.closed == p.closed)
      && (|b.idle| < p.maxActive && |b.idle| >= p.maxSize ==> b' == b && r.1.closed == p.closed + {c})
      && (|b.idle| >= p.maxActive ==> b' == Drop(b) && r.1.closed == p.closed + {c})
  {
    if GoSize(p, key) < p.maxActive then
      var p1 := Check(p, key);
      var (b', closes) := Put(p1.blocks[key], c, p.maxSize);
      (Ok(()), p1.(blocks := p1.blocks[key := b'], closed := if closes then p.closed + {c} else p.closed))
    else GoDestroy(p, key, Some(c))
  }

  // ---------------------------------------------------------------- properties

  /**
   * `clear` forgets objects that are out on loan: borrow a fresh object,
   * clear, return it, and the key holds one idle object with count 0.
   */
  lemma ClearForgetsOutstanding(p: KeyedPool, key: string, c: Conn)
    requires Inv(p) && p.maxSize >= 1 && p.maxActive >= 1
    requires p.timeout.None? || p.timeout.value >= 0
    requires key !in p.blocks
    ensures var (r1, p1) := PyBorrow(p, key, Ok(c));
            var p2 := Clear(p1);
            var (r3, p3) := PyReturn(p2, key, c);
            r1 == Ok(c) && r3.Ok? && p3.blocks[key] == Block([c], 0) && |p3.blocks[key].idle| > p3.blocks[key].count
    ensures var (r1, p1) := GoBorrow(p, key, Ok(c));
            var p3 := GoReturn(Clear(p1), key, c).1;
            r1 == Ok(c) && p3.blocks[key] == Block([c], 0)
  {
  }

  /**
   * An object returned to an otherwise empty queue is the next one
   * borrowed, without a call to the factory and with the count unchanged.
   */
  lemma ReturnThenBorrow(p: KeyedPool, key: string, made: Made, made': Made)
    requires Inv(p) && p.maxSize >= 1 && p.maxActive >= 1
    requires PyBorrow(p, key, made).0.Ok?
    requires PyBorrow(p, key, made).1.blocks[key].idle == []
    ensures var (r1, p1) := PyBorrow(p, key, made);
            var p2 := PyReturn(p1, key, r1.value).1;
            var (r3, p3) := PyBorrow(p2, key, made');
            r3 == r1 && p3.blocks[key] == p1.blocks[key]
  {
  }

  // ---------------------------------------------------------------- single pools

  /** Python `ObjectPool` and Go `Pool`: one block, no key. */
  datatype SinglePool = SinglePool(maxSize: int, maxActive: int, timeout: Option<int>, block: Block, closed: set<Conn>)

  /** The keyed pool that holds the single pool's block under `key`. */
  function AsKeyed(s: SinglePool, key: string): KeyedPool
  {
    KeyedPool(s.maxSize, s.maxActive, s.timeout, map[key := s.block], s.closed)
  }

  /**
   * `ObjectPool(func, **kwargs)`: the keyed pool's defaults, with one empty
   * block of its own.
   */
  function PyNewPool(maxSize: Option<int>, maxActive: Option<int>, timeout: Option<int>): (r: SinglePool)
    ensures forall key :: AsKeyed(r, key) == Check(PyNewKeyedPool(maxSize, maxActive, timeout), key)
    ensures r.block.idle == [] && r.block.count == 0
  {
    SinglePool(maxSize.GetOr(8), maxActive.GetOr(4), timeout, Block([], 0), {})
  }

  /**
   * `NewPool(function, maxSize, maxActiveSize, waitTimeout)`: values <= 0
   * give way to the keyed pool's defaults, with one empty block of its own.
   */
  function GoNewPool(maxSize: int, maxActive: int, waitTimeout: int): (r: SinglePool)
    ensures forall key :: AsKeyed(r, key) == Check(GoNewKeyedPool(maxSize, maxActive, waitTimeout), key)
    ensures r.block.idle == [] && r.block.count == 0 && BlockInv(r.block, r.maxSize)
  {
    SinglePool(if maxSize <= 0 then MAX_SIZE else maxSize,
               if maxActive <= 0 then MAX_ACTIVE_SIZE else maxActive,
               Some(if waitTimeout <= 0 then WAIT_TIMEOUT else waitTimeout),
               Block([], 0), {})
  }

  /** Python `ObjectPool.borrow_obj()`: the creation step, then `get(True, timeout)`. */
  function PyPoolBorrow(s: SinglePool, made: Made): (r: (Result<Conn, PoolError>, SinglePool))
    requires BlockInv(s.block, s.maxSize)
    ensures BlockInv(r.1.block, r.1.maxSize)
  {
    match Fill(s.block, s.maxSize, made)
    case Err(e) => (Err(Factory(e)), s)
    case Ok(b1) =>
      if s.timeout.Some? && s.timeout.value < 0 then (Err(NegativeTimeout), s.(block := b1))
      else if |b1.idle| == 0 then (Err(if s.timeout.None? then Blocked else Exhausted), s.(block := b1))
      else (Ok(b1.idle[0]), s.(block := b1.(idle := b1.idle[1..])))
  }

  /** Go `Pool.Borrow()`: the creation step, then the head of the queue or "Queue is empty.". */
  function GoPoolBorrow(s: SinglePool, made: Made): (r: (Result<Conn, PoolError>, SinglePool))
    requires BlockInv(s.block, s.maxSize)
    ensures BlockInv(r.1.block, r.1.maxSize)
  {
    match Fill(s.block, s.maxSize, made)
    case Err(e) => (Err(Factory(e)), s)
    case Ok(b1) =>
      if |b1.idle| == 0 then (Err(Exhausted), s.(block := b1))
      else (Ok(b1.idle[0]), s.(block := b1.(idle := b1.idle[1..])))
  }

  /** `ObjectPool.destroy_obj(obj)` and `Pool.Destroy(obj)`: close a non-nil object and lower the count if positive. */
  function PoolDestroy(s: SinglePool, obj: Option<Conn>): (r: SinglePool)
    requires BlockInv(s.block, s.maxSize)
    ensures BlockInv(r.block, r.maxSize)
  {
    match obj
    case None => s
    case Some(c) => s.(block := Drop(s.block), closed := s.closed + {c})
  }

  /** `ObjectPool.return_obj(obj)` and `Pool.Return(obj)`: queue below the active bound (closing at `maxSize`), else destroy. */
  function PoolReturn(s: SinglePool, c: Conn): (r: SinglePool)
    requires BlockInv(s.block, s.maxSize)
    ensures BlockInv(r.block, r.maxSize)
  {
    if |s.block.idle| < s.maxActive then
      var (b', closes) := Put(s.block, c, s.maxSize);
      s.(block := b', closed := if closes then s.closed + {c} else s.closed)
    else PoolDestroy(s, Some(c))
  }

  /** `ObjectPool.clear()` and `Pool.Clear()`: the idle objects are closed and the count is set to 0. */
  function PoolClear(s: SinglePool): (r: SinglePool)
  {
    s.(block := Block([], 0), closed := s.closed + set c | c in s.block.idle)
  }

  /** The Python single borrow is the keyed borrow on a pool holding just that block. */
  lemma PyPoolBorrowAgrees(s: SinglePool, key: string, made: Made)
    requires BlockInv(s.block, s.maxSize)
    ensures var (r, s') := PyPoolBorrow(s, made); PyBorrow(AsKeyed(s, key), key, made) == (r, AsKeyed(s', key))
  {
    var k := AsKeyed(s, key);
    assert Check(k, key) == k;
    var (r, s') := PyPoolBorrow(s, made);
    assert k.blocks[key := s'.block] == map[key := s'.block];
  }

  /** The Go single borrow is the keyed borrow on a pool holding just that block. */
  lemma GoPoolBorrowAgrees(s: SinglePool, key: string, made: Made)
    requires BlockInv(s.block, s.maxSize)
    ensures var (r, s') := GoPoolBorrow(s, made); GoBorrow(AsKeyed(s, key), key, made) == (r, AsKeyed(s', key))
  {
    var k := AsKeyed(s, key);
    assert Check(k, key) == k;
    var (r, s') := GoPoolBorrow(s, made);
    assert k.blocks[key := s'.block] == map[key := s'.block];
  }

  /** Return, destroy and clear of a single pool are the keyed ones on a pool holding just that block. */
  lemma PoolOpsAgree(s: SinglePool, key: string, c: Conn, obj: Option<Conn>)
    requires BlockInv(s.block, s.maxSize)
    ensures PyReturn(AsKeyed(s, key), key, c) == (Ok(()), AsKeyed(PoolReturn(s, c), key))
    ensures PyDestroy(AsKeyed(s, key), key, obj) == (Ok(()), AsKeyed(PoolDestroy(s, obj), key))
    ensures Clear(AsKeyed(s, key)) == AsKeyed(PoolClear(s), key)
  {
    var k := AsKeyed(s, key);
    assert k.blocks[key := PoolReturn(s, c).block] == map[key := PoolReturn(s, c).block];
    assert k.blocks[key := PoolDestroy(s, obj).block] == map[key := PoolDestroy(s, obj).block];
    assert AllIdle(k.blocks) == set c | c in s.block.idle by {
      forall x | x in set c | c in s.block.idle
        ensures x in AllIdle(k.blocks)
      {
        assert key in k.blocks && x in k.blocks[key].idle;
      }
    }
    assert Drained(k.blocks) == map[key := Block([], 0)];
  }
}

=== FILE: provider.dfy ===
/**
 * The client-side providers: they watch the servers registered under a
 * parent path and rebuild the live node list and the load balancer from
 * the reported children (Python `AutoProvider`, Go `AutoProvider`, Java
 * `ServerProviderAuto`), or build them once from a configured host list
 * (`FixedProvider` in Python and Go, Java `ServerProviderFixed`).
 *
 * The coordination service reports children as a list of names (Python,
 * Go) or of full paths (Java). Python sets and Java `HashSet`s of nodes
 * hold node objects by identity, so they are lists here, in the order the
 * children are reported; every balancer shuffles its list anyway.
 */
module Provider {
  import opened Wrappers
  import opened Text
  import opened Numbers
  import opened Shuffle
  import opened Node
  import opened Balance
  import opened Pool
  import opened Config
  import opened Util

  /** A client pool that may be attached: when present it satisfies the pool invariant. */
  predicate PoolOk(pool: Option<KeyedPool>)
  {
    pool.Some? ==> Inv(pool.value)
  }

  /** The attached pool after `clear_pool()` / `ClearPool()`, or none. */
  function ClearAttached(pool: Option<KeyedPool>): (r: Option<KeyedPool>)
    requires PoolOk(pool)
    ensures PoolOk(r) && (r.Some? <==> pool.Some?)
    ensures pool.Some? ==> r.value.blocks == Drained(pool.value.blocks) && SameBounds(pool.value, r.value)
  {
    if pool.Some? then Some(Clear(pool.value)) else None
  }

  /**
   * `all_nodes[name] = node` / `allNodes[name] = node` for each reported
   * name in turn: entries are added or overwritten, never removed. Equal
   * names carry equal nodes, as parsing is deterministic.
   */
  function Record<N>(all: map<string, N>, names: seq<string>, nodes: seq<N>): (r: map<string, N>)
    requires |names| == |nodes|
    requires forall i, j :: 0 <= i < |names| && 0 <= j < |names| && names[i] == names[j] ==> nodes[i] == nodes[j]
    ensures r.Keys == all.Keys + (set n | n in names)
    ensures forall i :: 0 <= i < |names| ==> r[names[i]] == nodes[i]
    ensures forall n :: n in all && n !in names ==> r[n] == all[n]
    decreases |names|
  {
    if |names| == 0 then all
    else
      var r := Record(all[names[0] := nodes[0]], names[1..], nodes[1..]);
      assert forall i :: 1 <= i < |names| ==> names[i] == names[1..][i - 1] && nodes[i] == nodes[1..][i - 1];
      NamesHeadTail(names);
      r
  }

  /** The names of a non-empty list: its first name and those of its tail. */
  lemma NamesHeadTail(names: seq<string>)
    requires |names| > 0
    ensures (set n | n in names) == {names[0]} + (set n | n in names[1..])
  {
    assert names == [names[0]] + names[1..];
  }

  /** Results of one parser: equal names always carry equal nodes. */
  lemma ParsedConsistently<N, E>(parse: string -> Result<N, E>, names: seq<string>, nodes: seq<N>)
    requires |names| == |nodes| && forall i :: 0 <= i < |names| ==> parse(names[i]) == Ok(nodes[i])
    ensures forall i, j :: 0 <= i < |names| && 0 <= j < |names| && names[i] == names[j] ==> nodes[i] == nodes[j]
  {
  }

  // ---------------------------------------------------------------- Python AutoProvider

  /** Python's `AutoProvider`: its watched path, balancer, node records and attached pool. */
  datatype PyAutoProvider = PyAutoProvider(
    globalServiceName: string, version: string, balancer: PyBalancer,
    allNodes: map<string, PyNode>, liveNodes: seq<PyNode>, clientPool: Option<KeyedPool>)

  /** `AutoProvider(...)`: an empty balancer of the chosen kind, no nodes, no pool. */
  function PyNewAutoProvider(gsn: string, version: string, kind: Kind): (r: PyAutoProvider)
    ensures r.globalServiceName == gsn && r.version == version
    ensures r.balancer.kind == kind && r.balancer.nodes == [] && r.balancer.pos == 0
    ensures r.allNodes == map[] && r.liveNodes == [] && r.clientPool.None?
  {
    PyAutoProvider(gsn, version, PyBalancer(kind, [], 0), map[], [], None)
  }

  /** `__get_parent_path`: the path servers of the same name and version register under. */
  function PyProviderParentPath(p: PyAutoProvider): (r: string)
    ensures r == ParentPath(p.globalServiceName, p.version)
  {
    if p.globalServiceName != "" then "/" + p.globalServiceName + "/" + p.version
    else "/" + p.version
  }

  datatype PyWatchError = WatchNodeError(e: PyError) | WatchBalanceError(lbError: PyLbError)

  /**
   * `__watch_server_node(nodes)`: the live list is cleared and refilled
   * with one parsed node per reported name, each also recorded by name;
   * then the balancer gets the live list and an attached pool is cleared.
   * A name `ServerNode` rejects raises there, after the names before it
   * were taken in; a text weight makes `set_nodes` raise. Either way the
   * balancer and the pool stay as they were.
   */
  function PyWatch(p: PyAutoProvider, names: seq<string>, draws: Draws, k: nat): (r: (Result<(), PyWatchError>, PyAutoProvider))
    requires PoolOk(p.clientPool)
    ensures PoolOk(r.1.clientPool)
    ensures r.1.globalServiceName == p.globalServiceName && r.1.version == p.version
    ensures |r.1.liveNodes| <= |names|
    ensures forall i :: 0 <= i < |r.1.liveNodes| ==> PyParse(names[i]) == Ok(r.1.liveNodes[i])
    ensures r.1.allNodes.Keys == p.allNodes.Keys + (set n | n in names[..|r.1.liveNodes|])
    ensures forall i :: 0 <= i < |r.1.liveNodes| ==> r.1.allNodes[names[i]] == r.1.liveNodes[i]
    ensures r.0.Ok? <==> forall i :: 0 <= i < |names| ==> PyParse(names[i]).Ok? && PyParse(names[i]).value.weight.Int?
    ensures r.0.Ok? ==> |r.1.liveNodes| == |names| && r.1.balancer.pos == p.balancer.pos && r.1.balancer.kind == p.balancer.kind
    ensures r.0.Ok? ==> forall x :: multiset(r.1.balancer.nodes)[x] == multiset(r.1.liveNodes)[x] * Clamp(PyWeightOf(x))
    ensures r.0.Ok? && p.clientPool.Some? ==> r.1.clientPool.Some? && r.1.clientPool.value.blocks == Drained(p.clientPool.value.blocks)
    ensures r.0.Err? ==> r.1.balancer == p.balancer && r.1.clientPool == p.clientPool
  {
    var (err, p1) := PyTakeNames(p, names);
    if err.Some? then
      assert !PyParse(names[|p1.liveNodes|]).Ok?;
      (Err(WatchNodeError(err.value)), p1)
    else
      AllIntWeights(names, p1.liveNodes);
      match PySetNodes(p.balancer, p1.liveNodes, draws, k)
      case Err(e) => (Err(WatchBalanceError(e)), p1)
      case Ok(lb) => (Ok(()), p1.(balancer := lb, clientPool := ClearAttached(p.clientPool)))
  }

  /**
   * The first half of `__watch_server_node`: the live list refilled with
   * the names parsed up to the first one that fails, each recorded by name.
   */
  function PyTakeNames(p: PyAutoProvider, names: seq<string>): (r: (Option<PyError>, PyAutoProvider))
    ensures r.1 == p.(allNodes := r.1.allNodes, liveNodes := r.1.liveNodes)
    ensures |r.1.liveNodes| <= |names|
    ensures forall i :: 0 <= i < |r.1.liveNodes| ==> PyParse(names[i]) == Ok(r.1.liveNodes[i])
    ensures r.1.allNodes.Keys == p.allNodes.Keys + (set n | n in names[..|r.1.liveNodes|])
    ensures forall i :: 0 <= i < |r.1.liveNodes| ==> r.1.allNodes[names[i]] == r.1.liveNodes[i]
    ensures r.0.None? <==> |r.1.liveNodes| == |names|
    ensures r.0.Some? ==> PyParse(names[|r.1.liveNodes|]) == Err(r.0.value)
  {
    var (parsed, err) := MapUntilError(PyParse, names);
    var done := names[..|parsed|];
    ParsedConsistently(PyParse, done, parsed);
    (err, p.(allNodes := Record(p.allNodes, done, parsed), liveNodes := parsed))
  }

  /** Every name parses with an integer weight exactly when no parsed node has a text weight. */
  lemma AllIntWeights(names: seq<string>, nodes: seq<PyNode>)
    requires |nodes| == |names| && forall i :: 0 <= i < |names| ==> PyParse(names[i]) == Ok(nodes[i])
    ensures (forall i :: 0 <= i < |names| ==> PyParse(names[i]).Ok? && PyParse(names[i]).value.weight.Int?)
            <==> !(exists i :: 0 <= i < |nodes| && nodes[i].weight.Str?)
  {
  }

  /** `select()`: the balancer's pick, "Server not found!" when it holds no node. */
  function PySelect(p: PyAutoProvider, draw: nat): (r: Result<(PyNode, PyAutoProvider), LbError>)
    ensures r.Err? <==> |p.balancer.nodes| == 0
    ensures r.Ok? ==> r.value.0 in p.balancer.nodes && r.value.1.balancer.nodes == p.balancer.nodes
    ensures r.Ok? ==> r.value.1 == p.(balancer := r.value.1.balancer)
  {
    match PyGetNode(p.balancer, draw)
    case Err(e) => Err(e)
    case Ok((x, lb)) => Ok((x, p.(balancer := lb)))
  }

  /** An empty child list leaves no live node, and selection then fails with "Server not found!". */
  lemma PyWatchNoChildren(p: PyAutoProvider, draws: Draws, k: nat, draw: nat)
    requires PoolOk(p.clientPool)
    ensures var (res, q) := PyWatch(p, [], draws, k);
            res.Ok? && q.liveNodes == [] && q.balancer.nodes == [] && PySelect(q, draw) == Err(ServerNotFound)
  {
    var (res, q) := PyWatch(p, [], draws, k);
    assert forall x :: multiset(q.balancer.nodes)[x] == 0;
    assert multiset(q.balancer.nodes) == multiset{};
  }

  /** A balancer holding each live node weight-many times only ever selects a live node of positive weight. */
  lemma PySelectsLive(q: PyAutoProvider, draw: nat)
    requires forall x :: multiset(q.balancer.nodes)[x] == multiset(q.liveNodes)[x] * Clamp(PyWeightOf(x))
    requires PySelect(q, draw).Ok?
    ensures PySelect(q, draw).value.0 in q.liveNodes && PyWeightOf(PySelect(q, draw).value.0) > 0
  {
    var x := PySelect(q, draw).value.0;
    assert multiset(q.balancer.nodes)[x] > 0;
  }

  /** After a rebuild, every node selected was parsed from a reported name and has a positive weight. */
  lemma PyWatchSelectsReported(p: PyAutoProvider, names: seq<string>, draws: Draws, k: nat, draw: nat)
    requires PoolOk(p.clientPool)
    ensures var (res, q) := PyWatch(p, names, draws, k);
            res.Ok? && PySelect(q, draw).Ok? ==>
              var x := PySelect(q, draw).value.0;
              PyWeightOf(x) > 0 && exists i :: 0 <= i < |names| && PyParse(names[i]) == Ok(x)
  {
    var (res, q) := PyWatch(p, names, draws, k);
    if res.Ok? && PySelect(q, draw).Ok? {
      PySelectsLive(q, draw);
      var x := PySelect(q, draw).value.0;
      var i :| 0 <= i < |q.liveNodes| && q.liveNodes[i] == x;
      assert PyParse(names[i]) == Ok(x);
    }
  }

  /**
   * A server and a provider with the same service name and version meet:
   * the server's path is a child of the watched path, and reporting its
   * node name gives the provider exactly that server's node.
   */
  lemma PyDiscoversServer(c: PyServerConfig, p: PyAutoProvider, draws: Draws, k: nat)
    requires p.globalServiceName == c.globalServiceName && p.version == c.version
    requires PoolOk(p.clientPool)
    requires ':' !in PyServerIp(c) && c.port >= 0 && c.weight >= 0
    ensures PyPath(c) == PathOf(PyProviderParentPath(p), PyNodeName(c))
    ensures var (res, q) := PyWatch(p, [PyNodeName(c)], draws, k);
            res.Ok? && q.liveNodes == [PyNode(PyConvert(PyServerIp(c)), Int(c.port), Int(c.weight), map[])]
  {
    PyNodeNameRoundTrip(c);
  }

  // ---------------------------------------------------------------- Python FixedProvider

  datatype PyFixedProvider = PyFixedProvider(serverAddress: string, balancer: PyBalancer, liveNodes: seq<PyNode>)

  datatype PyFixedError = IllegalAddress | FixedNodeError(e: PyError) | FixedBalanceError(lbError: PyLbError)

  /**
   * `FixedProvider(server_address, ...)`: an address `check_hosts` rejects
   * raises; otherwise one node per comma-separated item, given once to a
   * new balancer. An item `ServerNode` rejects, or a text weight, raises.
   */
  function PyNewFixedProvider(address: string, kind: Kind, draws: Draws, k: nat): (r: Result<PyFixedProvider, PyFixedError>)
    ensures !CheckHosts(address) ==> r == Err(IllegalAddress)
    ensures CheckHosts(address) ==> r == PyFixedFromItems(address, kind, draws, k)
  {
    if !CheckHosts(address) then Err(IllegalAddress) else PyFixedFromItems(address, kind, draws, k)
  }

  /** Every item is a node name whose weight parses as a number. */
  predicate NumericItems(items: seq<string>)
  {
    forall i :: 0 <= i < |items| ==> PyParse(items[i]).Ok? && PyParse(items[i]).value.weight.Int?
  }

  /** Of parsed items, the numeric ones are those whose nodes carry no text weight. */
  lemma NumericItemsParsed(items: seq<string>, nodes: seq<PyNode>)
    requires MapResults(PyParse, items) == Ok(nodes)
    ensures NumericItems(items) <==> !exists i :: 0 <= i < |nodes| && nodes[i].weight.Str?
  {
    if !NumericItems(items) {
      var i :| 0 <= i < |items| && !(PyParse(items[i]).Ok? && PyParse(items[i]).value.weight.Int?);
      assert nodes[i].weight.Str?;
    }
  }

  /** The fixed provider built from the comma-separated items of an accepted address. */
  function PyFixedFromItems(address: string, kind: Kind, draws: Draws, k: nat): (r: Result<PyFixedProvider, PyFixedError>)
    ensures r.Ok? <==> NumericItems(Split(address, ','))
    ensures r.Ok? ==> r.value.serverAddress == address && |r.value.liveNodes| == |Split(address, ',')|
    ensures r.Ok? ==> forall i :: 0 <= i < |r.value.liveNodes| ==> PyParse(Split(address, ',')[i]) == Ok(r.value.liveNodes[i])
    ensures r.Ok? ==> r.value.balancer.kind == kind && r.value.balancer.pos == 0
    ensures r.Ok? ==> forall x :: multiset(r.value.balancer.nodes)[x] == multiset(r.value.liveNodes)[x] * Clamp(PyWeightOf(x))
    ensures r.Err? ==> r != Err(IllegalAddress)
  {
    var items := Split(address, ',');
    match MapResults(PyParse, items)
    case Err(e) => Err(FixedNodeError(e))
    case Ok(nodes) =>
      NumericItemsParsed(items, nodes);
      match PySetNodes(PyBalancer(kind, [], 0), nodes, draws, k)
      case Err(e) => Err(FixedBalanceError(e))
      case Ok(lb) => Ok(PyFixedProvider(address, lb, nodes))
  }

  /**
   * `check_hosts` lets "1,2,3,4:5" through as one host, but the provider
   * splits it at every comma and "1" is not a node name.
   */
  lemma PyFixedAcceptedButUnparsable(kind: Kind, draws: Draws, k: nat)
    ensures PyNewFixedProvider("1,2,3,4:5", kind, draws, k) == Err(FixedNodeError(ValueError))
  {
    var s := "1,2,3,4:5";
    assert |s| >= 2 && s[1] == ',' && s[0] != ',' && s[0] != ':';
    FirstItemUnparsable(s);
    AcceptsAnySeparator();
    FixedFailsOnItem(s, kind, draws, k);
  }

  /** An accepted address whose items do not all parse fails with the parse error. */
  lemma FixedFailsOnItem(address: string, kind: Kind, draws: Draws, k: nat)
    ensures var parsed := MapResults(PyParse, Split(address, ','));
            CheckHosts(address) && parsed.Err? ==> PyNewFixedProvider(address, kind, draws, k) == Err(FixedNodeError(parsed.error))
  {
  }

  /** A one-character first item is not a node name, so parsing the items fails. */
  lemma FirstItemUnparsable(s: string)
    requires |s| >= 2 && s[1] == ',' && s[0] != ',' && s[0] != ':'
    ensures MapResults(PyParse, Split(s, ',')) == Err(ValueError)
  {
    var a := s[..1];
    assert s == a + [','] + s[2..];
    assert ',' !in a && ':' !in a;
    SplitCons(a, s[2..], ',');
    assert Split(a, ':') == [a];
  }

  // ---------------------------------------------------------------- Go AutoProvider

  /** Go's `AutoProvider`. */
  datatype GoAutoProvider = GoAutoProvider(
    globalServiceName: string, version: string, balancer: GoBalancer,
    allNodes: map<string, GoNode>, liveNodes: seq<GoNode>, clientPool: Option<KeyedPool>)

  /** `NewAutoProvider`: an empty version takes the default; the balancer is chosen by its code. */
  function NewAutoProvider(gsn: string, loadBalanceType: int, version: string): (r: GoAutoProvider)
    ensures r.version == (if version == "" then VERSION_DEFAULT else version)
    ensures r.globalServiceName == gsn && r.balancer == GetLoadBalance(loadBalanceType)
    ensures r.allNodes == map[] && r.liveNodes == [] && r.clientPool.None?
  {
    GoAutoProvider(gsn, if version == "" then VERSION_DEFAULT else version,
                   GetLoadBalance(loadBalanceType), map[], [], None)
  }

  /** `NewDefaultAutoProvider`: random selection and the default version. */
  function NewDefaultAutoProvider(gsn: string): (r: GoAutoProvider)
    ensures r.balancer.GoRandom? && r.version == VERSION_DEFAULT
  {
    NewAutoProvider(gsn, RANDOM, "")
  }

  /**
   * `GetParentPath` of the Go auto provider and `getParentPath` of the Java
   * one, which are the same code: `/gsn/version`, or `/version` when the
   * service name is empty. It is the parent path the Python and Go servers
   * register under.
   */
  function ProviderParentPath(globalServiceName: string, version: string): (r: string)
    ensures r == ParentPath(globalServiceName, version)
  {
    "/" + (if globalServiceName != "" then globalServiceName + "/" else "") + version
  }

  /** Why a Go rebuild panics: a child without a colon, or no client pool to clear. */
  datatype GoProviderPanic = NodePanic(e: GoPanic) | NilClientPool

  /**
   * `SetNodes()` after `ChildrenW`: an error leaves everything as it was;
   * otherwise the live list is emptied and refilled with one node per
   * child, each recorded by name, the balancer gets the list and the pool
   * is cleared. `ServerNode` panics on a child without a colon, and
   * `ClearPool` on a provider that was never given a pool.
   */
  function GoAutoSetNodes(p: GoAutoProvider, children: Result<seq<string>, string>, draws: Draws, k: nat): (r: Result<GoAutoProvider, GoProviderPanic>)
    requires PoolOk(p.clientPool)
    ensures children.Err? ==> r == Ok(p)
    ensures children.Ok? ==> (r == Err(NodePanic(IndexOutOfRange)) <==> exists i :: 0 <= i < |children.value| && ':' !in children.value[i])
    ensures children.Ok? && (forall i :: 0 <= i < |children.value| ==> ':' in children.value[i]) ==> (r.Err? <==> p.clientPool.None?)
    ensures children.Ok? && r.Ok? ==> var q := r.value; var names := children.value;
      PoolOk(q.clientPool) && p.clientPool.Some? &&
      q.globalServiceName == p.globalServiceName && q.version == p.version &&
      |q.liveNodes| == |names| && (forall i :: 0 <= i < |names| ==> GoParse(names[i]) == Ok(q.liveNodes[i])) &&
      q.allNodes.Keys == p.allNodes.Keys + (set n | n in names) &&
      (forall i :: 0 <= i < |names| ==> q.allNodes[names[i]] == q.liveNodes[i]) &&
      (q.balancer.GoRoundRobin? <==> p.balancer.GoRoundRobin?) && (q.balancer.GoRoundRobin? ==> q.balancer.pos == 0) &&
      (forall x :: multiset(q.balancer.nodes)[x] == multiset(q.liveNodes)[x] * Clamp(x.weight)) &&
      q.clientPool.Some? && q.clientPool.value.blocks == Drained(p.clientPool.value.blocks)
  {
    match children
    case Err(_) => Ok(p)
    case Ok(names) =>
      match MapResults(GoParse, names)
      case Err(e) => Err(NodePanic(e))
      case Ok(nodes) =>
        if p.clientPool.None? then Err(NilClientPool)
        else
          ParsedConsistently(GoParse, names, nodes);
          Ok(p.(liveNodes := nodes, allNodes := Record(p.allNodes, names, nodes),
                balancer := GoSetNodes(p.balancer, nodes, draws, k), clientPool := ClearAttached(p.clientPool)))
  }

  /** `Select()`: the balancer's pick. */
  function GoSelect(p: GoAutoProvider, draw: nat): (r: Result<(GoNode, GoAutoProvider), LbError>)
    ensures r.Err? <==> |p.balancer.nodes| == 0
    ensures r.Ok? ==> r.value.0 in p.balancer.nodes && r.value.1 == p.(balancer := r.value.1.balancer)
  {
    match GoGetNode(p.balancer, draw)
    case Err(e) => Err(e)
    case Ok((x, lb)) => Ok((x, p.(balancer := lb)))
  }

  /**
   * A Go server and provider with the same service name and version meet:
   * the server's path is a child of the watched path, and a rebuild from
   * its node name holds exactly that server's node.
   */
  lemma GoDiscoversServer(c: GoServerConfig, p: GoAutoProvider, draws: Draws, k: nat)
    requires p.globalServiceName == c.globalServiceName && p.version == c.version
    requires PoolOk(p.clientPool) && p.clientPool.Some?
    requires ':' !in GoServerIp(c)
    requires INT64_MIN <= c.port <= INT64_MAX && INT64_MIN <= c.weight <= INT64_MAX
    ensures GoPath(c) == PathOf(ProviderParentPath(p.globalServiceName, p.version), GoNodeName(c))
    ensures var r := GoAutoSetNodes(p, Ok([GoNodeName(c)]), draws, k);
            r.Ok? && r.value.liveNodes == [GoNode(GoServerIp(c), c.port, c.weight)]
  {
    GoNodeNameRoundTrip(c);
    GoSetOneName(p, GoNodeName(c), draws, k);
  }

  /** A single child whose name parses leaves exactly its node live. */
  lemma GoSetOneName(p: GoAutoProvider, name: string, draws: Draws, k: nat)
    requires PoolOk(p.clientPool) && p.clientPool.Some? && GoParse(name).Ok?
    ensures var r := GoAutoSetNodes(p, Ok([name]), draws, k);
            r.Ok? && r.value.liveNodes == [GoParse(name).value]
  {
    var names := [name];
    assert forall i :: 0 <= i < |names| ==> ':' in names[i];
    var r := GoAutoSetNodes(p, Ok(names), draws, k);
    assert r.Ok?;
    var live := r.value.liveNodes;
    assert |live| == 1 && GoParse(names[0]) == Ok(live[0]);
  }

  // ---------------------------------------------------------------- Go FixedProvider

  datatype GoFixedProvider = GoFixedProvider(serverAddress: string, balancer: GoBalancer, liveNodes: seq<GoNode>)

  /** `NewFixedProvider`: the address is kept unchecked; no nodes yet. */
  function NewFixedProvider(address: string, loadBalanceType: int): (r: GoFixedProvider)
    ensures r.serverAddress == address && r.balancer == GetLoadBalance(loadBalanceType) && r.liveNodes == []
  {
    GoFixedProvider(address, GetLoadBalance(loadBalanceType), [])
  }

  /**
   * `SetNodes()`: one node per comma-separated item is appended to the live
   * list, which is never cleared, and the balancer gets the whole list.
   */
  function GoFixedSetNodes(p: GoFixedProvider, draws: Draws, k: nat): (r: Result<GoFixedProvider, GoProviderPanic>)
    ensures var items := Split(p.serverAddress, ',');
            r.Ok? <==> forall i :: 0 <= i < |items| ==> ':' in items[i]
    ensures r.Ok? ==> var items := Split(p.serverAddress, ',');
            |r.value.liveNodes| == |p.liveNodes| + |items| && r.value.liveNodes[..|p.liveNodes|] == p.liveNodes &&
            (forall i :: 0 <= i < |items| ==> GoParse(items[i]) == Ok(r.value.liveNodes[|p.liveNodes| + i]))
    ensures r.Ok? ==> r.value.serverAddress == p.serverAddress
    ensures r.Ok? ==> forall x :: multiset(r.value.balancer.nodes)[x] == multiset(r.value.liveNodes)[x] * Clamp(x.weight)
  {
    match MapResults(GoParse, Split(p.serverAddress, ','))
    case Err(e) => Err(NodePanic(e))
    case Ok(nodes) =>
      var live := p.liveNodes + nodes;
      Ok(p.(liveNodes := live, balancer := GoSetNodes(p.balancer, live, draws, k)))
  }

  /** Calling `SetNodes` twice lists every configured node twice. */
  lemma GoFixedSetNodesTwice(address: string, loadBalanceType: int, draws: Draws, k: nat, draws': Draws, k': nat)
    ensures var first := GoFixedSetNodes(NewFixedProvider(address, loadBalanceType), draws, k);
            first.Ok? ==>
              var twice := GoFixedSetNodes(first.value, draws', k');
              twice.Ok? && twice.value.liveNodes == first.value.liveNodes + first.value.liveNodes
  {
    var first := GoFixedSetNodes(NewFixedProvider(address, loadBalanceType), draws, k);
    if first.Ok? {
      var once := first.value;
      var twice := GoFixedSetNodes(once, draws', k').value;
      assert twice.liveNodes[|once.liveNodes|..] == once.liveNodes;
    }
  }

  /**
   * `Select()` of the fixed provider: the balancer's own pick, with the
   * balancer it leaves behind put back in the provider.
   */
  function GoFixedSelect(p: GoFixedProvider, draw: nat): (r: Result<(GoNode, GoFixedProvider), LbError>)
    ensures r.Err? <==> GoGetNode(p.balancer, draw).Err?
    ensures r.Ok? ==> GoGetNode(p.balancer, draw) == Ok((r.value.0, r.value.1.balancer)) && r.value.1 == p.(balancer := r.value.1.balancer)
  {
    match GoGetNode(p.balancer, draw)
    case Err(e) => Err(e)
    case Ok((x, lb)) => Ok((x, p.(balancer := lb)))
  }

  /**
   * The two Go providers select alike: over the same balancer and draw they
   * fail together, or pick the same node and leave the same balancer.
   */
  lemma GoSelectsAgree(a: GoAutoProvider, f: GoFixedProvider, draw: nat)
    requires a.balancer == f.balancer
    ensures GoSelect(a, draw).Err? <==> GoFixedSelect(f, draw).Err?
    ensures GoSelect(a, draw).Ok? ==>
              GoSelect(a, draw).value.0 == GoFixedSelect(f, draw).value.0 &&
              GoSelect(a, draw).value.1.balancer == GoFixedSelect(f, draw).value.1.balancer
  {
  }

  // ---------------------------------------------------------------- Java ServerProviderAuto

  /** Java's client pool is a commons-pool2 wrapper; all that is kept is how often it was cleared. */
  datatype JavaClientPool = JavaClientPool(clears: nat)

  /** The name-to-node `trace`, as pairs in insertion order with distinct names. */
  type Trace = seq<(string, JavaNode)>

  /** `ServerProviderAuto`: its watched path, balancer (null until set), container, trace and pool. */
  datatype JavaAutoProvider = JavaAutoProvider(
    globalServiceName: string, version: string, balancer: Option<JavaBalancer>,
    container: seq<JavaNode>, trace: Trace, clientPool: Option<JavaClientPool>)

  /** A fresh provider: empty service name, the default version, nothing else. */
  function NewJavaAutoProvider(): (r: JavaAutoProvider)
    ensures r.globalServiceName == "" && r.version == VERSION_DEFAULT
    ensures r.balancer.None? && r.container == [] && r.trace == [] && r.clientPool.None?
  {
    JavaAutoProvider("", VERSION_DEFAULT, None, [], [], None)
  }

  /** The no-argument `setLoadBalance()`: round-robin, only when no balancer is set. */
  function DefaultBalancer(lb: Option<JavaBalancer>): (r: Option<JavaBalancer>)
    ensures lb.Some? ==> r == lb
    ensures lb.None? ==> r == Some(JavaBalancer(RoundRobinKind, None))
  {
    if lb.None? then Some(JavaBalancer(RoundRobinKind, None)) else lb
  }

  /** The node a name is traced to, if any. */
  function TraceGet(trace: Trace, name: string): (r: Option<JavaNode>)
    ensures r.Some? <==> exists i :: 0 <= i < |trace| && trace[i].0 == name
  {
    if |trace| == 0 then None
    else if trace[0].0 == name then Some(trace[0].1)
    else
      assert forall i :: 1 <= i < |trace| ==> trace[i] == trace[1..][i - 1];
      TraceGet(trace[1..], name)
  }

  /** `trace.put(name, node)`: a traced name gets the new node in place, a new name goes at the end. */
  function TracePut(trace: Trace, name: string, node: JavaNode): (r: Trace)
    ensures |r| == |trace| || |r| == |trace| + 1
    ensures TraceGet(r, name) == Some(node)
    ensures forall n :: n != name ==> TraceGet(r, n) == TraceGet(trace, n)
  {
    if |trace| == 0 then [(name, node)]
    else if trace[0].0 == name then [(name, node)] + trace[1..]
    else [trace[0]] + TracePut(trace[1..], name, node)
  }

  /** `trace.put` for each pair in turn. */
  function TraceAll(trace: Trace, pairs: seq<(string, JavaNode)>): (r: Trace)
    ensures |r| >= |trace|
    ensures forall n :: TraceGet(trace, n).Some? ==> TraceGet(r, n).Some?
    ensures forall n :: (forall i :: 0 <= i < |pairs| ==> pairs[i].0 != n) ==> TraceGet(r, n) == TraceGet(trace, n)
    ensures forall i :: 0 <= i < |pairs| ==> TraceGet(r, pairs[i].0).Some?
    decreases |pairs|
  {
    if |pairs| == 0 then trace
    else
      var r := TraceAll(TracePut(trace, pairs[0].0, pairs[0].1), pairs[1..]);
      assert forall i :: 1 <= i < |pairs| ==> pairs[i] == pairs[1..][i - 1];
      r
  }

  /** The traced nodes, in trace order. */
  function TraceValues(trace: Trace): (r: seq<JavaNode>)
    ensures |r| == |trace| && forall i :: 0 <= i < |trace| ==> r[i] == trace[i].1
  {
    seq(|trace|, i requires 0 <= i < |trace| => trace[i].1)
  }

  datatype JavaProviderError = PathTooShort | BadAddress(e: JavaError) | BalancerNull

  /** `path.substring(getParentPath().length() + 1)`: out of bounds when the path is shorter. */
  function JavaChildAddress(parent: string, path: string): (r: Result<string, JavaProviderError>)
    ensures r.Ok? <==> |parent| < |path|
    ensures r.Ok? ==> |r.value| == |path| - |parent| - 1 && path[|parent| + 1..] == r.value
  {
    if |parent| + 1 <= |path| then Ok(path[|parent| + 1..]) else Err(PathTooShort)
  }

  /** A child's path gives back its name. */
  lemma JavaChildAddressOfPath(parent: string, name: string)
    ensures JavaChildAddress(parent, PathOf(parent, name)) == Ok(name)
  {
  }

  /** One reported child: its name and `new ServerNode(name)`. */
  function JavaChild(parent: string, path: string): (r: Result<(string, JavaNode), JavaProviderError>)
    ensures r.Ok? ==> JavaChildAddress(parent, path) == Ok(r.value.0) && JavaParse(r.value.0) == Ok(r.value.1)
    ensures JavaChildAddress(parent, path).Ok? && JavaParse(JavaChildAddress(parent, path).value).Err? ==>
            r == Err(BadAddress(JavaParse(JavaChildAddress(parent, path).value).error))
    ensures JavaChildAddress(parent, path).Err? ==> r == Err(PathTooShort)
  {
    match JavaChildAddress(parent, path)
    case Err(e) => Err(e)
    case Ok(a) =>
      match JavaParse(a)
      case Err(e) => Err(BadAddress(e))
      case Ok(n) => Ok((a, n))
  }

  /**
   * The listener's `rebuild()` over the cached children's paths: none (or
   * null) empties the container and leaves the balancer; otherwise each
   * child is parsed and traced in turn, and then the container becomes
   * the parsed nodes and the balancer is given them. A child that fails
   * throws, after the ones before it were traced; a null balancer throws
   * after the container was replaced.
   */
  function JavaRebuild(p: JavaAutoProvider, children: Option<seq<string>>, draws: Draws, k: nat): (r: (Result<(), JavaProviderError>, JavaAutoProvider))
    ensures r.1.globalServiceName == p.globalServiceName && r.1.version == p.version && r.1.clientPool == p.clientPool
    ensures children.None? || children.value == [] ==> r == (Ok(()), p.(container := []))
    ensures forall n :: TraceGet(p.trace, n).Some? ==> TraceGet(r.1.trace, n).Some?
    ensures children.Some? && children.value != [] && r.0.Ok? ==> var paths := children.value;
      p.balancer.Some? && |r.1.container| == |paths| &&
      (forall i :: 0 <= i < |paths| ==> JavaChild(ProviderParentPath(p.globalServiceName, p.version), paths[i]).Ok? &&
                                        JavaChild(ProviderParentPath(p.globalServiceName, p.version), paths[i]).value.1 == r.1.container[i] &&
                                        TraceGet(r.1.trace, JavaChild(ProviderParentPath(p.globalServiceName, p.version), paths[i]).value.0).Some?) &&
      r.1.balancer.Some? && r.1.balancer.value.kind == p.balancer.value.kind && r.1.balancer.value.nodes.Some? &&
      forall x :: multiset(r.1.balancer.value.nodes.value)[x] == multiset(r.1.container)[x] * Clamp(x.weight)
    ensures children.Some? && children.value != [] ==>
      (r.0.Ok? <==> p.balancer.Some? && forall i :: 0 <= i < |children.value| ==> JavaChild(ProviderParentPath(p.globalServiceName, p.version), children.value[i]).Ok?)
    ensures r.0.Err? ==> r.1.balancer == p.balancer
  {
    if children.None? || |children.value| == 0 then (Ok(()), p.(container := []))
    else
      var parent := ProviderParentPath(p.globalServiceName, p.version);
      var (err, trace, nodes) := JavaTakeChildren(p.trace, parent, children.value);
      if err.Some? then
        assert !JavaChild(parent, children.value[|nodes|]).Ok?;
        (Err(err.value), p.(trace := trace))
      else if p.balancer.None? then (Err(BalancerNull), p.(trace := trace, container := nodes))
      else (Ok(()), p.(trace := trace, container := nodes, balancer := Some(JavaSetNodes(p.balancer.value, nodes, draws, k))))
  }

  /**
   * The loop of `rebuild()`: each child path is parsed and traced in turn,
   * up to the first that fails; the nodes parsed so far, in order.
   */
  function JavaTakeChildren(trace: Trace, parent: string, paths: seq<string>): (r: (Option<JavaProviderError>, Trace, seq<JavaNode>))
    ensures forall n :: TraceGet(trace, n).Some? ==> TraceGet(r.1, n).Some?
    ensures |r.2| <= |paths|
    ensures forall i :: 0 <= i < |r.2| ==>
              JavaChild(parent, paths[i]).Ok? && JavaChild(parent, paths[i]).value.1 == r.2[i] &&
              TraceGet(r.1, JavaChild(parent, paths[i]).value.0).Some?
    ensures r.0.None? <==> |r.2| == |paths|
    ensures r.0.Some? ==> JavaChild(parent, paths[|r.2|]) == Err(r.0.value)
  {
    var (done, err) := MapUntilError((path: string) => JavaChild(parent, path), paths);
    (err, TraceAll(trace, done), seq(|done|, i requires 0 <= i < |done| => done[i].1))
  }

  /**
   * `childEvent`: whatever the event, once the client is connected the
   * children are rebuilt and, when that succeeds, an attached pool is
   * cleared. Without a connection nothing happens.
   */
  function JavaChildEvent(p: JavaAutoProvider, connected: bool, children: Option<seq<string>>, draws: Draws, k: nat): (r: (Result<(), JavaProviderError>, JavaAutoProvider))
    ensures !connected ==> r == (Ok(()), p)
    ensures connected ==> r.0 == JavaRebuild(p, children, draws, k).0
    ensures connected ==> r.1.(clientPool := p.clientPool) == JavaRebuild(p, children, draws, k).1
    ensures connected && r.0.Ok? && p.clientPool.Some? ==> r.1.clientPool == Some(JavaClientPool(p.clientPool.value.clears + 1))
    ensures r.0.Err? || p.clientPool.None? ==> r.1.clientPool == p.clientPool
  {
    if !connected then (Ok(()), p)
    else
      var (res, q) := JavaRebuild(p, children, draws, k);
      if res.Ok? && q.clientPool.Some? then (res, q.(clientPool := Some(JavaClientPool(q.clientPool.value.clears + 1))))
      else (res, q)
  }

  /**
   * `selector()`: an empty container is refilled from a non-empty trace
   * and the balancer reset from it; then the balancer picks, with the
   * static round-robin cursor `pos` passed in and out.
   */
  function JavaAutoSelector(p: JavaAutoProvider, pos: nat, draw: nat, draws: Draws, k: nat): (r: (Result<(JavaNode, nat), LbError>, JavaAutoProvider))
    ensures |p.container| == 0 && |p.trace| > 0 ==> r.1.container == TraceValues(p.trace)
    ensures |p.container| == 0 && |p.trace| > 0 && p.balancer.Some? ==>
            r.1.balancer.Some? && r.1.balancer.value.nodes.Some? &&
            forall x :: multiset(r.1.balancer.value.nodes.value)[x] == multiset(r.1.container)[x] * Clamp(x.weight)
    ensures !(|p.container| == 0 && |p.trace| > 0) ==> r.1 == p
    ensures r.1.trace == p.trace
    ensures p.balancer.None? ==> r.0 == Err(NullPointer)
    ensures r.0.Ok? ==> r.1.balancer.Some? && r.1.balancer.value.nodes.Some? && r.0.value.0 in r.1.balancer.value.nodes.value
  {
    var p1 :=
      if |p.container| == 0 && |p.trace| > 0 then
        var c := TraceValues(p.trace);
        p.(container := c, balancer := if p.balancer.Some? then Some(JavaSetNodes(p.balancer.value, c, draws, k)) else None)
      else p;
    if p1.balancer.None? then (Err(NullPointer), p1)
    else (JavaGetAddress(p1.balancer.value, pos, draw), p1)
  }

  /**
   * When the service loses every child, selection falls back on the
   * nodes ever seen: it succeeds as soon as one traced node has a positive
   * weight, and returns such a node.
   */
  lemma JavaSelectorFallsBackOnTrace(p: JavaAutoProvider, pos: nat, draw: nat, draws: Draws, k: nat)
    requires p.container == [] && p.balancer.Some?
    requires exists i :: 0 <= i < |p.trace| && p.trace[i].1.weight > 0
    ensures var (res, q) := JavaAutoSelector(p, pos, draw, draws, k);
            res.Ok? && res.value.0.weight > 0 && res.value.0 in TraceValues(p.trace)
  {
    var (res, q) := JavaAutoSelector(p, pos, draw, draws, k);
    var i :| 0 <= i < |p.trace| && p.trace[i].1.weight > 0;
    var values := TraceValues(p.trace);
    assert values[i] == p.trace[i].1;
    var nodes := q.balancer.value.nodes.value;
    WeightedMember(nodes, values, p.trace[i].1);
    WeightedMember(nodes, values, res.value.0);
  }

  /** A balancer list holding each container node weight-many times holds exactly its positive-weight nodes. */
  lemma WeightedMember(nodes: seq<JavaNode>, container: seq<JavaNode>, x: JavaNode)
    requires forall y :: multiset(nodes)[y] == multiset(container)[y] * Clamp(y.weight)
    ensures x in nodes <==> x in container && x.weight > 0
  {
    assert x in nodes <==> multiset(nodes)[x] > 0;
    assert x in container <==> multiset(container)[x] > 0;
  }

  /**
   * A Java server and provider with the same non-empty service name and
   * version meet: the provider reads the server's path back as its node
   * name and node.
   */
  lemma JavaDiscoversServer(c: JavaServerConfig, p: JavaAutoProvider, discovered: Option<string>)
    requires c.globalService == Some(p.globalServiceName) && p.globalServiceName != "" && c.version == p.version
    requires INT32_MIN <= c.port <= INT32_MAX && INT32_MIN <= c.weight <= INT32_MAX
    requires ':' !in JavaText(JavaNodeName(c, discovered).1.resolver.value.serverIp)
    ensures var name := JavaNodeName(c, discovered).0;
            var ip := JavaText(JavaNodeName(c, discovered).1.resolver.value.serverIp);
            JavaChild(ProviderParentPath(p.globalServiceName, p.version), JavaPath(c, discovered).0) == Ok((name, JavaNode(ip, c.port, c.weight)))
  {
    JavaNodeNameRoundTrip(c, discovered);
    JavaChildAddressOfPath(JavaParentPath(c), JavaNodeName(c, discovered).0);
  }

  /**
   * A server configured with an empty service name registers under
   * `//version`, while a provider with its default empty name watches
   * `/version`: they never meet.
   */
  lemma JavaEmptyServiceNameMismatch(c: JavaServerConfig, p: JavaAutoProvider)
    requires c.globalService == Some("") && p.globalServiceName == "" && c.version == p.version
    ensures JavaParentPath(c) != ProviderParentPath(p.globalServiceName, p.version)
  {
    JavaParentPathEmptyName(c);
    assert |JavaParentPath(c)| == |ProviderParentPath(p.globalServiceName, p.version)| + 1;
  }

  // ---------------------------------------------------------------- Java ServerProviderFixed

  datatype JavaFixedProvider = JavaFixedProvider(serverAddress: string, balancer: Option<JavaBalancer>, container: seq<JavaNode>)

  /**
   * `setContainer()`: one node per comma-separated item is added to the
   * container, which is never cleared, and the balancer gets the container.
   * An item that fails throws before anything changes.
   */
  function JavaSetContainer(p: JavaFixedProvider, draws: Draws, k: nat): (r: (Result<(), JavaProviderError>, JavaFixedProvider))
    ensures var items := JavaSplit(p.serverAddress, ',');
            (forall i :: 0 <= i < |items| ==> JavaParse(items[i]).Ok?) <==> r.0.Ok? || r.0 == Err(BalancerNull)
    ensures r.0.Err? && r.0 != Err(BalancerNull) ==> r.1 == p
    ensures r.0.Ok? <==> p.balancer.Some? && forall i :: 0 <= i < |JavaSplit(p.serverAddress, ',')| ==> JavaParse(JavaSplit(p.serverAddress, ',')[i]).Ok?
    ensures r.0.Ok? ==> var items := JavaSplit(p.serverAddress, ',');
            |r.1.container| == |p.container| + |items| && r.1.container[..|p.container|] == p.container &&
            (forall i :: 0 <= i < |items| ==> JavaParse(items[i]) == Ok(r.1.container[|p.container| + i])) &&
            r.1.balancer.Some? && r.1.balancer.value.nodes.Some? &&
            forall x :: multiset(r.1.balancer.value.nodes.value)[x] == multiset(r.1.container)[x] * Clamp(x.weight)
  {
    match MapResults(JavaParse, JavaSplit(p.serverAddress, ','))
    case Err(e) => (Err(BadAddress(e)), p)
    case Ok(nodes) =>
      var c := p.container + nodes;
      if p.balancer.None? then (Err(BalancerNull), p.(container := c))
      else (Ok(()), p.(container := c, balancer := Some(JavaSetNodes(p.balancer.value, c, draws, k))))
  }

  /** `afterPropertiesSet()`: the balancer is defaulted first, so building the container never meets a null one. */
  function JavaFixedAfterPropertiesSet(p: JavaFixedProvider, draws: Draws, k: nat): (r: (Result<(), JavaProviderError>, JavaFixedProvider))
    ensures r.0 != Err(BalancerNull)
    ensures p.balancer.None? && r.0.Ok? ==> r.1.balancer.Some? && r.1.balancer.value.kind == RoundRobinKind
    ensures r.0.Ok? <==> forall i :: 0 <= i < |JavaSplit(p.serverAddress, ',')| ==> JavaParse(JavaSplit(p.serverAddress, ',')[i]).Ok?
  {
    JavaSetContainer(p.(balancer := DefaultBalancer(p.balancer)), draws, k)
  }

  /** `selector()`: the balancer's pick, with the static cursor passed in and out. */
  function JavaFixedSelector(p: JavaFixedProvider, pos: nat, draw: nat): (r: Result<(JavaNode, nat), LbError>)
    ensures p.balancer.None? ==> r == Err(NullPointer)
    ensures r.Ok? ==> p.balancer.Some? && p.balancer.value.nodes.Some? && r.value.0 in p.balancer.value.nodes.value
  {
    if p.balancer.None? then Err(NullPointer) else JavaGetAddress(p.balancer.value, pos, draw)
  }
}

=== FILE: queue.dfy ===
/**
 * Go's singly linked FIFO `Queue` of `Element`s. Element pointers become
 * identifiers into a heap of cells that the queue carries with it; an
 * element taken out by `Get` stays in the heap and may be `Put` back.
 */
module LinkedQueue {
  import opened Wrappers

  type Id = nat

  /** An `Element`: its value and its `Next` pointer. */
  datatype Cell<V> = Cell(value: V, next: Option<Id>)

  /** A `Queue`: head, tail and length over the heap; `nextId` is above every allocated identifier. */
  datatype Queue<V> = Queue(heap: map<Id, Cell<V>>, head: Option<Id>, tail: Option<Id>, length: int, nextId: Id)

  /** The identifiers met by following `Next` from `start`, at most `n` of them. */
  function Walk<V>(heap: map<Id, Cell<V>>, start: Option<Id>, n: int): seq<Id>
    decreases if n > 0 then n else 0
  {
    if n <= 0 || start.None? || start.value !in heap then []
    else [start.value] + Walk(heap, heap[start.value].next, n - 1)
  }

  /** `ids` are distinct allocated cells, each linked to the next. */
  predicate Linked<V>(heap: map<Id, Cell<V>>, ids: seq<Id>)
  {
    (forall i :: 0 <= i < |ids| ==> ids[i] in heap) &&
    (forall i :: 0 <= i < |ids| - 1 ==> ids[i] in heap && heap[ids[i]].next == Some(ids[i + 1])) &&
    (forall i, j :: 0 <= i < j < |ids| ==> ids[i] != ids[j])
  }

  /** Following the links of a linked chain from its first cell visits exactly the chain. */
  lemma {:induction false} WalkLinked<V>(heap: map<Id, Cell<V>>, ids: seq<Id>)
    requires Linked(heap, ids) && |ids| > 0
    ensures Walk(heap, Some(ids[0]), |ids|) == ids
    decreases |ids|
  {
    if |ids| > 1 {
      var rest := ids[1..];
      assert Linked(heap, rest);
      WalkLinked(heap, rest);
      assert ids == [ids[0]] + rest;
    }
  }

  lemma WalkLinkedAny<V>(heap: map<Id, Cell<V>>, ids: seq<Id>)
    requires Linked(heap, ids)
    ensures |ids| > 0 ==> Walk(heap, Some(ids[0]), |ids|) == ids
  {
    if |ids| > 0 {
      WalkLinked(heap, ids);
    }
  }

  /** The queue's cells from head to tail. */
  function Ids<V>(q: Queue<V>): seq<Id>
  {
    Walk(q.heap, q.head, q.length)
  }

  /**
   * The queue invariant: `length` cells are linked from head to tail, the
   * tail's `Next` is nil, an empty queue has nil head and tail, and every
   * allocated identifier is below `nextId`.
   */
  predicate Valid<V>(q: Queue<V>)
  {
    var ids := Ids(q);
    Linked(q.heap, ids) && |ids| == q.length &&
    (|ids| == 0 ==> q.head.None? && q.tail.None?) &&
    (|ids| > 0 ==> q.head == Some(ids[0]) && q.tail == Some(ids[|ids| - 1]) && q.heap[ids[|ids| - 1]].next.None?) &&
    (forall id :: id in q.heap ==> id < q.nextId)
  }

  /** The values in the queue, head first. */
  function Contents<V>(q: Queue<V>): seq<V>
    requires Valid(q)
  {
    var ids := Ids(q);
    seq(|ids|, i requires 0 <= i < |ids| => q.heap[ids[i]].value)
  }

  /** `NewQueue()` / `Init()`: no elements, nil head and tail, length 0. */
  function NewQueue<V>(): (q: Queue<V>)
    ensures Valid(q) && Contents(q) == [] && q.length == 0
  {
    Queue(map[], None, None, 0, 0)
  }

  /**
   * `Put(e)`: the element's `Next` is cleared and it becomes the new tail,
   * linked from the old tail, or the only element of an empty queue. The
   * element must be allocated and not already in the queue.
   */
  function Put<V>(q: Queue<V>, e: Id): (r: Queue<V>)
    requires Valid(q) && e in q.heap && e !in Ids(q)
    ensures Valid(r)
    ensures Ids(r) == Ids(q) + [e]
    ensures Contents(r) == Contents(q) + [q.heap[e].value]
    ensures r.length == q.length + 1
  {
    var ids := Ids(q);
    var heap := q.heap[e := q.heap[e].(next := None)];
    if q.head.None? then
      var r := Queue(heap, Some(e), Some(e), 1, q.nextId);
      assert Linked(heap, [e]);
      WalkLinked(heap, [e]);
      r
    else
      var t := q.tail.value;
      var heap' := heap[t := heap[t].(next := Some(e))];
      var ids' := ids + [e];
      assert Linked(heap', ids') by {
        forall i | 0 <= i < |ids'| - 1
          ensures heap'[ids'[i]].next == Some(ids'[i + 1])
        {
          if i < |ids| - 1 {
            assert ids[i] != t && ids[i] != e;
          }
        }
      }
      WalkLinked(heap', ids');
      var r := Queue(heap', q.head, Some(e), q.length + 1, q.nextId);
      assert Ids(r) == ids';
      r
  }

  /** `PutValue(v)`: a freshly allocated element holding `v` is put at the tail. */
  function PutValue<V>(q: Queue<V>, v: V): (r: (Queue<V>, Id))
    requires Valid(q)
    ensures Valid(r.0) && r.1 !in q.heap
    ensures Contents(r.0) == Contents(q) + [v]
    ensures Ids(r.0) == Ids(q) + [r.1]
  {
    var e := q.nextId;
    var q1 := q.(heap := q.heap[e := Cell(v, None)], nextId := q.nextId + 1);
    assert forall i :: 0 <= i < |Ids(q)| ==> Ids(q)[i] in q.heap;
    LinkedAfterAlloc(q, e, Cell(v, None));
    (Put(q1, e), e)
  }

  /** Allocating an unused identifier leaves the existing chain and its values as they were. */
  lemma LinkedAfterAlloc<V>(q: Queue<V>, e: Id, c: Cell<V>)
    requires Valid(q) && e == q.nextId
    ensures var q1 := q.(heap := q.heap[e := c], nextId := q.nextId + 1);
            Valid(q1) && Ids(q1) == Ids(q) && e !in Ids(q1) && Contents(q1) == Contents(q)
  {
    var q1 := q.(heap := q.heap[e := c], nextId := q.nextId + 1);
    var ids := Ids(q);
    assert e !in q.heap;
    assert Linked(q1.heap, ids);
    if |ids| > 0 {
      WalkLinked(q1.heap, ids);
    }
  }

  /**
   * `Get()`: nil and no change on an empty queue; otherwise the head element,
   * with the head moved to its `Next`. Removing the last element leaves
   * nil tail and length 0.
   */
  function Get<V>(q: Queue<V>): (r: (Option<Id>, Queue<V>))
    requires Valid(q)
    ensures Valid(r.1)
    ensures q.length == 0 ==> r.0.None? && r.1 == q
    ensures q.length > 0 ==> r.0 == Some(Ids(q)[0]) && Ids(r.1) == Ids(q)[1..] && r.1.length == q.length - 1
    ensures q.length > 0 ==> Contents(q) == [q.heap[r.0.value].value] + Contents(r.1)
    ensures q.length == 1 ==> r.1.tail.None? && r.1.length == 0
    ensures r.1.heap == q.heap
  {
    match q.head
    case None => (None, q)
    case Some(h) =>
      var ids := Ids(q);
      var next := q.heap[h].next;
      var r := if next.None? then q.(head := None, tail := None, length := 0)
               else q.(head := next, length := q.length - 1);
      var rest := ids[1..];
      assert Linked(q.heap, rest);
      WalkLinkedAny(q.heap, rest);
      assert Ids(r) == rest;
      assert Contents(q) == [q.heap[h].value] + Contents(r);
      (Some(h), r)
  }

  /** `Length()`: the number of elements linked from head to tail. */
  function Length<V>(q: Queue<V>): (n: int)
    requires Valid(q)
    ensures n == |Contents(q)|
  {
    q.length
  }

  /** `PutValue` of each value in turn. */
  function PutValues<V>(q: Queue<V>, vs: seq<V>): (r: Queue<V>)
    requires Valid(q)
    ensures Valid(r) && Contents(r) == Contents(q) + vs
    decreases |vs|
  {
    if |vs| == 0 then q
    else
      var r := PutValues(PutValue(q, vs[0]).0, vs[1..]);
      assert Contents(q) + [vs[0]] + vs[1..] == Contents(q) + vs;
      r
  }

  /** The values `Get` hands out, one call after another, until it gives nil. */
  function Drain<V>(q: Queue<V>): (vs: seq<V>)
    requires Valid(q)
    decreases q.length
  {
    match Get(q)
    case (None, _) => []
    case (Some(id), q') => [q.heap[id].value] + Drain(q')
  }

  /** Draining a queue hands out its contents, head first, and nothing else. */
  lemma {:induction false} DrainContents<V>(q: Queue<V>)
    requires Valid(q)
    ensures Drain(q) == Contents(q)
    decreases q.length
  {
    var (a, q') := Get(q);
    if a.Some? {
      DrainContents(q');
    }
  }

  /** Values come out of `Get` in the order `PutValue` put them in, whatever the values. */
  lemma Fifo<V>(vs: seq<V>)
    ensures Drain(PutValues(NewQueue<V>(), vs)) == vs
  {
    var q := PutValues(NewQueue<V>(), vs);
    DrainContents(q);
  }
}

=== FILE: registrar.dfy ===
/**
 * The server-side registrars: on start and on every reconnection they make
 * sure the server's ephemeral node is present under its parent path
 * (Python `Register`, Go `Register`, Java `ServerRegisterImpl` and
 * `ServerRegisterListener`). When no ip is configured the local address is
 * discovered again first, and a node left under the previous address is
 * removed. A registration returns the server configuration and the store
 * after it; failures of single calls are logged and swallowed.
 */
module Registrar {
  import opened Wrappers
  import opened Text
  import opened Config
  import opened Store

  /** A store call whose failure is only logged: the store after it, or the one before. */
  function OrKeep(r: Result<Store, ZkError>, s: Store): (t: Store)
    ensures r.Ok? ==> t == r.value
    ensures r.Err? ==> t == s
  {
    if r.Ok? then r.value else s
  }

  /** "exists, else create": a node is made at `p` when it is missing and its parent is there. */
  function CreateIfAbsent(s: Store, p: string): (r: Store)
    ensures p in r.nodes <==> p in s.nodes || HasParent(s, p)
    ensures r.nodes.Keys == s.nodes.Keys || r.nodes.Keys == s.nodes.Keys + {p}
    ensures forall q :: q in s.nodes ==> r.nodes[q] == s.nodes[q]
  {
    if p in s.nodes then s else OrKeep(Create(s, p), s)
  }

  // ---------------------------------------------------------------- store steps

  /** Making a missing node twice is making it once. */
  lemma CreateIfAbsentIdempotent(s: Store, p: string)
    ensures CreateIfAbsent(CreateIfAbsent(s, p), p) == CreateIfAbsent(s, p)
  {
  }

  /**
   * The store half of a Go registration: when the path moved and the old
   * node exists, the node at `target` is deleted with the old node's
   * version, a failure being only logged; then the path is made when
   * missing.
   */
  function Reregister(s: Store, oldPath: string, path: string, target: string): (r: Store)
    ensures r.nodes.Keys <= s.nodes.Keys + {path}
    ensures forall q :: q in s.nodes && q != target ==> q in r.nodes && r.nodes[q] == s.nodes[q]
    ensures path == oldPath ==> s.nodes.Keys <= r.nodes.Keys
  {
    var s1 := if path != oldPath && oldPath in s.nodes
              then OrKeep(Delete(s, target, Some(s.nodes[oldPath])), s)
              else s;
    CreateIfAbsent(s1, path)
  }

  /** With the parent present and not the deleted node, the path is present afterwards. */
  lemma ReregisterUnderParent(s: Store, oldPath: string, path: string, target: string)
    requires ParentOf(path) in s.nodes && target != ParentOf(path)
    ensures path in Reregister(s, oldPath, path, target).nodes
  {
  }

  /**
   * Deleting the old node itself moves the registration to the new path,
   * provided the old node has no children (an ephemeral node never has).
   */
  lemma ReregisterMoves(s: Store, oldPath: string, path: string)
    requires oldPath in s.nodes && path != oldPath && !HasChildren(s, oldPath)
    requires HasParent(s, path) && ParentOf(path) != oldPath
    ensures var r := Reregister(s, oldPath, path, oldPath);
            oldPath !in r.nodes && path in r.nodes
  {
  }

  /** Deleting the new path instead leaves the old node in place next to the new one. */
  lemma ReregisterKeepsOld(s: Store, oldPath: string, path: string)
    requires oldPath in s.nodes && path != oldPath
    requires HasParent(s, path) && ParentOf(path) != path
    ensures var r := Reregister(s, oldPath, path, path);
            oldPath in r.nodes && path in r.nodes
  {
  }

  /** Once registered at a path, registering at it again changes nothing. */
  lemma ReregisterSettles(s: Store, oldPath: string, path: string, target: string, target': string)
    ensures var r := Reregister(s, oldPath, path, target);
            Reregister(r, path, path, target') == r
  {
    var s1 := if path != oldPath && oldPath in s.nodes
              then OrKeep(Delete(s, target, Some(s.nodes[oldPath])), s)
              else s;
    CreateIfAbsentIdempotent(s1, path);
  }

  /**
   * The store half of a Python registration. The delete and the create run
   * in one `try`, so a delete that raises ends the registration before the
   * create and leaves the store as it was. The delete carries no version,
   * so it fails only on an old node that has children.
   */
  function PyReregister(s: Store, oldPath: string, path: string): (r: Store)
    ensures r.nodes.Keys <= s.nodes.Keys + {path}
    ensures forall q :: q in s.nodes && q != oldPath ==> q in r.nodes && r.nodes[q] == s.nodes[q]
    ensures path == oldPath ==> s.nodes.Keys <= r.nodes.Keys
    ensures path != oldPath && oldPath in s.nodes && HasChildren(s, oldPath) ==> r == s
  {
    if path != oldPath && oldPath in s.nodes then
      match Delete(s, oldPath, None)
      case Ok(s1) => CreateIfAbsent(s1, path)
      case Err(_) => s
    else CreateIfAbsent(s, path)
  }

  /**
   * With the parent present, the path ends present unless a delete of an
   * old node with children stopped the registration first.
   */
  lemma PyReregisterUnderParent(s: Store, oldPath: string, path: string)
    requires ParentOf(path) in s.nodes && oldPath != ParentOf(path)
    ensures var r := PyReregister(s, oldPath, path);
            path in r.nodes <==> path in s.nodes || !(path != oldPath && oldPath in s.nodes && HasChildren(s, oldPath))
  {
  }

  /** A childless old node is deleted and the registration moves to the new path. */
  lemma PyReregisterMoves(s: Store, oldPath: string, path: string)
    requires oldPath in s.nodes && path != oldPath && !HasChildren(s, oldPath)
    requires HasParent(s, path) && ParentOf(path) != oldPath
    ensures var r := PyReregister(s, oldPath, path);
            oldPath !in r.nodes && path in r.nodes
  {
  }

  /** Once registered at a path, registering at it again changes nothing. */
  lemma PyReregisterSettles(s: Store, oldPath: string, path: string)
    requires !(path != oldPath && oldPath in s.nodes && HasChildren(s, oldPath))
    ensures var r := PyReregister(s, oldPath, path);
            PyReregister(r, path, path) == r
  {
    if path != oldPath && oldPath in s.nodes {
      CreateIfAbsentIdempotent(Delete(s, oldPath, None).value, path);
    } else {
      CreateIfAbsentIdempotent(s, path);
    }
  }

  /**
   * The store half of a Java registration: when the path moved and the old
   * node exists, it and everything below it are deleted; then the path is
   * made, with its parents, when missing.
   */
  function JavaReplace(s: Store, oldPath: string, path: string): (r: Store)
    ensures path in r.nodes
    ensures r.nodes.Keys <= s.nodes.Keys + Ancestors(path) + {path}
    ensures forall q :: q in s.nodes && !(path != oldPath && Below(q, oldPath)) ==> q in r.nodes && r.nodes[q] == s.nodes[q]
  {
    var s1 := if path != oldPath && oldPath in s.nodes then OrKeep(DeleteTree(s, oldPath), s) else s;
    if path in s1.nodes then s1 else OrKeep(CreateWithParents(s1, path), s1)
  }

  /** The old node goes when the new path is neither below it nor one of its descendants' ancestors. */
  lemma JavaReplaceMoves(s: Store, oldPath: string, path: string)
    requires oldPath in s.nodes && path != oldPath
    requires !Below(path, oldPath) && oldPath !in Ancestors(path)
    ensures oldPath !in JavaReplace(s, oldPath, path).nodes
  {
  }

  // ---------------------------------------------------------------- paths

  /** Different ips without colons give different node names. */
  lemma NodeNameIpInjective(a: string, b: string, port: int, weight: int)
    requires ':' !in a && ':' !in b && a != b
    ensures NodeName(a, port, weight) != NodeName(b, port, weight)
  {
    assert Split(NodeName(a, port, weight), ':')[0] == a;
    assert Split(NodeName(b, port, weight), ':')[0] == b;
  }

  /** A node name has no path separator when its ip has none. */
  lemma NodeNameNoSeparator(ip: string, port: int, weight: int)
    requires '/' !in ip
    ensures '/' !in NodeName(ip, port, weight)
  {
    var p, w := IntToString(port), IntToString(weight);
    assert NodeName(ip, port, weight) == ip + [':'] + p + [':'] + w;
  }

  /**
   * Two sibling node paths under one prefixed parent path: they differ, and
   * the parent of the second is the prefixed parent path, which is neither.
   */
  lemma SiblingPaths(root: string, parent: string, n1: string, n2: string)
    requires n1 != n2 && '/' !in n2
    ensures var oldPath, path := root + PathOf(parent, n1), root + PathOf(parent, n2);
            path != oldPath && ParentOf(path) == root + parent && ParentOf(path) != oldPath && ParentOf(path) != path
  {
    var oldPath, path := root + PathOf(parent, n1), root + PathOf(parent, n2);
    var k := |root| + |parent| + 1;
    assert oldPath[k..] == n1 && path[k..] == n2;
    assert path == (root + parent) + "/" + n2;
    ParentOfChild(root + parent, n2);
  }

  /** A node path under a prefixed parent path has that prefixed path as its parent. */
  lemma PrefixedChild(root: string, parent: string, name: string)
    requires '/' !in name
    ensures ParentOf(root + PathOf(parent, name)) == root + parent
  {
    assert root + PathOf(parent, name) == (root + parent) + "/" + name;
    ParentOfChild(root + parent, name);
  }

  /** Moving a node from address `a` to address `b`: the sibling paths of their node names. */
  lemma MovedPaths(root: string, parent: string, a: string, b: string, port: int, weight: int)
    requires ':' !in a && ':' !in b && '/' !in b && a != b
    ensures var oldPath := root + PathOf(parent, NodeName(a, port, weight));
            var path := root + PathOf(parent, NodeName(b, port, weight));
            path != oldPath && ParentOf(path) == root + parent && ParentOf(path) != oldPath && ParentOf(path) != path
  {
    NodeNameIpInjective(a, b, port, weight);
    NodeNameNoSeparator(b, port, weight);
    SiblingPaths(root, parent, NodeName(a, port, weight), NodeName(b, port, weight));
  }

  /** `MovedPaths` for paths kept directly under the parent path, with no root prefix. */
  lemma MovedPathsUnrooted(parent: string, a: string, b: string, port: int, weight: int)
    requires ':' !in a && ':' !in b && '/' !in b && a != b
    ensures var oldPath := PathOf(parent, NodeName(a, port, weight));
            var path := PathOf(parent, NodeName(b, port, weight));
            path != oldPath && ParentOf(path) == parent && ParentOf(path) != oldPath
  {
    MovedPaths("", parent, a, b, port, weight);
    assert "" + PathOf(parent, NodeName(a, port, weight)) == PathOf(parent, NodeName(a, port, weight));
    assert "" + PathOf(parent, NodeName(b, port, weight)) == PathOf(parent, NodeName(b, port, weight));
    assert "" + parent == parent;
  }

  /** A sibling's path is neither below a node path nor has it as an ancestor. */
  lemma SiblingNotBelow(parent: string, n1: string, n2: string)
    requires '/' !in n2 && n1 != n2
    ensures !Below(PathOf(parent, n2), PathOf(parent, n1))
    ensures PathOf(parent, n1) !in Ancestors(PathOf(parent, n2))
  {
    var p1, p2 := PathOf(parent, n1), PathOf(parent, n2);
    assert p1[|parent| + 1..] == n1 && p2[|parent| + 1..] == n2;
    if |p1| < |p2| {
      assert p2[|p1|] == n2[|n1|];
      assert p2[|p1|] != '/';
    }
  }

  // ---------------------------------------------------------------- Python

  /**
   * `_register()`: with an ip configured (even an empty one) the path is
   * taken as it is; otherwise the local ip is discovered again and, if that
   * moves the path, a node at the old path is deleted. The path is then
   * created when missing, without parents. The whole body is one `try`: a
   * call that raises ends the registration and leaves the store as it was
   * after the calls before it.
   */
  function PyRegister(c: PyServerConfig, s: Store, localIp: string): (r: (PyServerConfig, Store))
    ensures c.ip.Some? ==> r.0 == c && s.nodes.Keys <= r.1.nodes.Keys
    ensures c.ip.None? ==> r.0 == PySetLocalIp(c, localIp) && PyServerIp(r.0) == localIp
    ensures r.1.nodes.Keys <= s.nodes.Keys + {PyPath(r.0)}
    ensures forall q :: q in s.nodes && q != PyPath(c) ==> q in r.1.nodes && r.1.nodes[q] == s.nodes[q]
    ensures PyPath(r.0) != PyPath(c) && PyPath(c) in s.nodes && HasChildren(s, PyPath(c)) ==> r.1 == s
  {
    var c1 := if c.ip.Some? then c else PySetLocalIp(c, localIp);
    (c1, PyReregister(s, PyPath(c), PyPath(c1)))
  }

  /**
   * Registering again with the same discovery changes nothing, once the
   * first registration got past its delete: the old node had no children.
   */
  lemma PyRegisterIdempotent(c: PyServerConfig, s: Store, localIp: string)
    ensures !HasChildren(s, PyPath(c)) ==>
              var (c1, s1) := PyRegister(c, s, localIp);
              PyRegister(c1, s1, localIp) == (c1, s1)
  {
    var c1 := if c.ip.Some? then c else PySetLocalIp(c, localIp);
    if !HasChildren(s, PyPath(c)) {
      PyReregisterSettles(s, PyPath(c), PyPath(c1));
    }
  }

  /**
   * When the old node has children, its delete raises and the registration
   * stops with the store unchanged, so the server's new node is missing;
   * the next registration, finding the path unmoved, creates it.
   */
  lemma PyRegisterRetriesAfterFailedDelete(c: PyServerConfig, s: Store, localIp: string)
    requires c.ip.None? && c.localIp != localIp
    requires ':' !in c.localIp && ':' !in localIp && '/' !in localIp
    requires PyPath(c) in s.nodes && PyParentPath(c) in s.nodes && HasChildren(s, PyPath(c))
    ensures var (c1, s1) := PyRegister(c, s, localIp);
            s1 == s && (PyPath(c1) !in s.nodes ==> PyPath(c1) !in s1.nodes) &&
            PyPath(c1) in PyRegister(c1, s1, localIp).1.nodes
  {
    var c1 := PySetLocalIp(c, localIp);
    var parent := PyParentPath(c);
    MovedPathsUnrooted(parent, c.localIp, localIp, c.port, c.weight);
    assert PyPath(c) == PathOf(parent, NodeName(c.localIp, c.port, c.weight));
    assert PyPath(c1) == PathOf(parent, NodeName(localIp, c.port, c.weight));
    assert PyRegister(c1, s, localIp).0 == c1;
    PyReregisterUnderParent(s, PyPath(c1), PyPath(c1));
  }

  /**
   * When the local address changes, the node moves: the old path goes and,
   * as the parent path is present, the new one appears. The old node must
   * have no children for its delete to succeed; being ephemeral it never
   * has any, but the store does not record ephemerality, so this is stated.
   */
  lemma PyRegisterMovesPath(c: PyServerConfig, s: Store, localIp: string)
    requires c.ip.None? && c.localIp != localIp
    requires ':' !in c.localIp && ':' !in localIp && '/' !in localIp
    requires PyPath(c) in s.nodes && PyParentPath(c) in s.nodes
    ensures !HasChildren(s, PyPath(c)) ==>
              var (c1, s1) := PyRegister(c, s, localIp);
              PyPath(c) !in s1.nodes && PyPath(c1) in s1.nodes
  {
    var c1 := PySetLocalIp(c, localIp);
    var parent := PyParentPath(c);
    MovedPathsUnrooted(parent, c.localIp, localIp, c.port, c.weight);
    assert PyPath(c) == PathOf(parent, NodeName(c.localIp, c.port, c.weight));
    assert PyPath(c1) == PathOf(parent, NodeName(localIp, c.port, c.weight));
    if !HasChildren(s, PyPath(c)) {
      PyReregisterMoves(s, PyPath(c), PyPath(c1));
    }
  }

  /**
   * `register_and_listen()`: without a client nothing happens; otherwise
   * the parent path is ensured and the server registered, so its node is
   * then present whenever its address has no separator and no delete of an
   * old node with children stopped the registration.
   */
  function PyRegisterAndListen(c: PyServerConfig, s: Store, hasClient: bool, localIp: string): (r: (PyServerConfig, Store))
    ensures !hasClient ==> r == (c, s)
    ensures hasClient && '/' !in PyServerIp(r.0) && !HasChildren(s, PyPath(c)) ==> PyPath(r.0) in r.1.nodes
    ensures hasClient ==> forall q :: q in s.nodes && q != PyPath(c) ==> q in r.1.nodes
  {
    if !hasClient then (c, s)
    else
      var s1 := EnsurePath(s, PyParentPath(c));
      var r := PyRegister(c, s1, localIp);
      assert '/' !in PyServerIp(r.0) && !HasChildren(s, PyPath(c)) ==> PyPath(r.0) in r.1.nodes by {
        if '/' !in PyServerIp(r.0) && !HasChildren(s, PyPath(c)) {
          assert |PyPath(c)| > |PyParentPath(c)|;
          EnsurePathKeepsChildren(s, PyParentPath(c), PyPath(c));
          PyRegistersUnderEnsuredParent(c, s1, localIp);
        }
      }
      r
  }

  /**
   * Under a present parent path a registration leaves the server's node
   * present, unless the delete of an old node with children stopped it.
   */
  lemma PyRegistersUnderEnsuredParent(c: PyServerConfig, s: Store, localIp: string)
    requires PyParentPath(c) in s.nodes
    requires '/' !in PyServerIp(PyRegister(c, s, localIp).0)
    ensures !HasChildren(s, PyPath(c)) ==> PyPath(PyRegister(c, s, localIp).0) in PyRegister(c, s, localIp).1.nodes
  {
    var c1 := PyRegister(c, s, localIp).0;
    NodeNameNoSeparator(PyServerIp(c1), c.port, c.weight);
    PrefixedChild("", PyParentPath(c), PyNodeName(c1));
    assert "" + PyPath(c1) == PyPath(c1) && "" + PyParentPath(c) == PyParentPath(c);
    assert |PyPath(c)| > |PyParentPath(c)|;
    PyReregisterUnderParent(s, PyPath(c), PyPath(c1));
  }

  /** Kazoo's connection states. */
  datatype KazooState = Connected | Lost | Suspended

  /** `state_listener`: a connection re-registers; a loss or a suspension is only logged. */
  function PyStateListener(state: KazooState, c: PyServerConfig, s: Store, localIp: string): (r: (PyServerConfig, Store))
    ensures !state.Connected? ==> r == (c, s)
    ensures state.Connected? && c.ip.Some? && (PyPath(c) in s.nodes || HasParent(s, PyPath(c))) ==> PyPath(c) in r.1.nodes
    ensures r.1.nodes.Keys <= s.nodes.Keys + {PyPath(r.0)}
  {
    if state.Connected? then PyRegister(c, s, localIp) else (c, s)
  }

  // ---------------------------------------------------------------- Go

  /**
   * `registe()` as written: when a rediscovered local ip moves the path and
   * the old node exists, it deletes the NEW path with the old node's
   * version, so the old node is never removed.
   */
  function GoRegisterAsWritten(c: GoServerConfig, s: Store, root: string, localIp: string): (r: (GoServerConfig, Store))
    ensures r.0 == (if c.ip != "" then c else GoSetLocalIp(c, localIp))
    ensures r.1.nodes.Keys <= s.nodes.Keys + {root + GoPath(r.0)}
    ensures forall q :: q in s.nodes && q != root + GoPath(r.0) ==> q in r.1.nodes && r.1.nodes[q] == s.nodes[q]
  {
    var c1 := if c.ip != "" then c else GoSetLocalIp(c, localIp);
    (c1, Reregister(s, root + GoPath(c), root + GoPath(c1), root + GoPath(c1)))
  }

  /**
   * After the local address changes, the code as written leaves the old
   * node in place next to the new one, so clients keep seeing a server at
   * an address it no longer has.
   */
  lemma GoRegisterAsWrittenKeepsOldPath(c: GoServerConfig, s: Store, root: string, localIp: string)
    requires c.ip == "" && c.localIp != localIp
    requires ':' !in c.localIp && ':' !in localIp && '/' !in localIp
    ensures root + GoPath(c) in s.nodes && root + GoParentPath(c) in s.nodes ==>
              var (c1, s1) := GoRegisterAsWritten(c, s, root, localIp);
              root + GoPath(c) != root + GoPath(c1) && root + GoPath(c) in s1.nodes && root + GoPath(c1) in s1.nodes
  {
    var c1 := GoSetLocalIp(c, localIp);
    MovedPaths(root, GoParentPath(c), c.localIp, localIp, c.port, c.weight);
    if root + GoPath(c) in s.nodes && root + GoParentPath(c) in s.nodes {
      ReregisterKeepsOld(s, root + GoPath(c), root + GoPath(c1));
    }
  }

  /** `registe()` as intended: the old path, not the new one, is deleted with its own version. */
  function GoRegister(c: GoServerConfig, s: Store, root: string, localIp: string): (r: (GoServerConfig, Store))
    ensures r.0 == (if c.ip != "" then c else GoSetLocalIp(c, localIp))
    ensures c.ip != "" ==> s.nodes.Keys <= r.1.nodes.Keys
    ensures r.1.nodes.Keys <= s.nodes.Keys + {root + GoPath(r.0)}
    ensures forall q :: q in s.nodes && q != root + GoPath(c) ==> q in r.1.nodes && r.1.nodes[q] == s.nodes[q]
  {
    var c1 := if c.ip != "" then c else GoSetLocalIp(c, localIp);
    (c1, Reregister(s, root + GoPath(c), root + GoPath(c1), root + GoPath(c)))
  }

  /**
   * With the intended deletion a change of local address moves the node,
   * the old (ephemeral, so childless) node being deleted.
   */
  lemma GoRegisterMovesPath(c: GoServerConfig, s: Store, root: string, localIp: string)
    requires c.ip == "" && c.localIp != localIp
    requires ':' !in c.localIp && ':' !in localIp && '/' !in localIp
    ensures root + GoPath(c) in s.nodes && root + GoParentPath(c) in s.nodes && !HasChildren(s, root + GoPath(c)) ==>
              var (c1, s1) := GoRegister(c, s, root, localIp);
              root + GoPath(c) !in s1.nodes && root + GoPath(c1) in s1.nodes
  {
    var c1 := GoSetLocalIp(c, localIp);
    MovedPaths(root, GoParentPath(c), c.localIp, localIp, c.port, c.weight);
    if root + GoPath(c) in s.nodes && root + GoParentPath(c) in s.nodes && !HasChildren(s, root + GoPath(c)) {
      ReregisterMoves(s, root + GoPath(c), root + GoPath(c1));
    }
  }

  /** Registering again with the same discovery changes nothing. */
  lemma GoRegisterIdempotent(c: GoServerConfig, s: Store, root: string, localIp: string)
    ensures var (c1, s1) := GoRegister(c, s, root, localIp);
            GoRegister(c1, s1, root, localIp) == (c1, s1)
  {
    var c1 := if c.ip != "" then c else GoSetLocalIp(c, localIp);
    ReregisterSettles(s, root + GoPath(c), root + GoPath(c1), root + GoPath(c), root + GoPath(c1));
  }

  /**
   * `RegisteAndListen()`: without a client nothing happens; otherwise the
   * prefixed parent path is ensured and the server registered, so its node
   * is then present whenever its address has no separator.
   */
  function GoRegisterAndListen(c: GoServerConfig, s: Store, root: string, hasClient: bool, localIp: string): (r: (GoServerConfig, Store))
    ensures !hasClient ==> r == (c, s)
    ensures hasClient && '/' !in GoServerIp(r.0) ==> root + GoPath(r.0) in r.1.nodes
    ensures hasClient ==> forall q :: q in s.nodes && q != root + GoPath(c) ==> q in r.1.nodes
  {
    if !hasClient then (c, s)
    else
      var s1 := EnsurePath(s, root + GoParentPath(c));
      var r := GoRegister(c, s1, root, localIp);
      assert '/' !in GoServerIp(r.0) ==> root + GoPath(r.0) in r.1.nodes by {
        if '/' !in GoServerIp(r.0) {
          GoRegistersUnderEnsuredParent(c, s1, root, localIp);
        }
      }
      r
  }

  /** Under a present parent path a registration always leaves the server's node present. */
  lemma GoRegistersUnderEnsuredParent(c: GoServerConfig, s: Store, root: string, localIp: string)
    requires root + GoParentPath(c) in s.nodes
    requires '/' !in GoServerIp(GoRegister(c, s, root, localIp).0)
    ensures root + GoPath(GoRegister(c, s, root, localIp).0) in GoRegister(c, s, root, localIp).1.nodes
  {
    var c1 := GoRegister(c, s, root, localIp).0;
    NodeNameNoSeparator(GoServerIp(c1), c.port, c.weight);
    PrefixedChild(root, GoParentPath(c), GoNodeName(c1));
    assert |root + GoPath(c)| > |root + GoParentPath(c)|;
    ReregisterUnderParent(s, root + GoPath(c), root + GoPath(c1), root + GoPath(c));
  }

  /** The connection states the Go callback tells apart. */
  datatype GoState = StateConnected | StateDisconnected | StateExpired | StateConnecting | StateUnknown

  /** The event callback: a connection re-registers; every other state is only logged. */
  function GoOnEvent(state: GoState, c: GoServerConfig, s: Store, root: string, localIp: string): (r: (GoServerConfig, Store))
    ensures !state.StateConnected? ==> r == (c, s)
    ensures state.StateConnected? && c.ip != "" && (root + GoPath(c) in s.nodes || HasParent(s, root + GoPath(c))) ==> root + GoPath(c) in r.1.nodes
    ensures r.1.nodes.Keys <= s.nodes.Keys + {root + GoPath(r.0)}
  {
    if state.StateConnected? then GoRegister(c, s, root, localIp) else (c, s)
  }

  // ---------------------------------------------------------------- Java

  /**
   * The registration loop body shared by `ServerRegisterImpl.register` and
   * `ServerRegisterListener.stateChanged`: when connected, with no ip
   * configured the old path is taken, the resolver is reset when `reset`
   * and the path taken again; if it moved, the old node and everything
   * below it are deleted. The path is then created with its parents when
   * missing. Without a connection nothing happens.
   */
  function JavaRegisterWith(c: JavaServerConfig, s: Store, connected: bool, discovered: Option<string>, reset: bool): (r: (JavaServerConfig, Store))
    ensures !connected ==> r == (c, s)
    ensures connected ==> JavaPath(r.0, discovered).0 in r.1.nodes
    ensures connected ==> r.1.nodes.Keys <= s.nodes.Keys + Ancestors(JavaPath(r.0, discovered).0) + {JavaPath(r.0, discovered).0}
    ensures forall q :: q in s.nodes && !Below(q, JavaPath(c, discovered).0) ==> q in r.1.nodes && r.1.nodes[q] == s.nodes[q]
    ensures c.ip.Some? || !reset ==> s.nodes.Keys <= r.1.nodes.Keys
  {
    if !connected then (c, s)
    else
      var (oldPath, c1) := JavaPath(c, discovered);
      var c2 := if c.ip.None? && reset then c1.(resolver := Some(Resolver(None))) else c1;
      var (path, c3) := JavaPath(c2, discovered);
      assert JavaPath(c3, discovered).0 == path;
      (c3, JavaReplace(s, oldPath, path))
  }

  /** `ServerRegisterImpl.register`: the configuration's own resolver is always reset. */
  function JavaRegister(c: JavaServerConfig, s: Store, connected: bool, discovered: Option<string>): (r: (JavaServerConfig, Store))
    ensures !connected ==> r == (c, s)
    ensures connected ==> JavaPath(r.0, discovered).0 in r.1.nodes
    ensures forall q :: q in s.nodes && !Below(q, JavaPath(c, discovered).0) ==> q in r.1.nodes
    ensures c.ip.Some? ==> s.nodes.Keys <= r.1.nodes.Keys
  {
    JavaRegisterWith(c, s, connected, discovered, true)
  }

  /**
   * `ServerRegisterListener.stateChanged`: the resolver the listener took
   * at construction may be null, and then it is never reset.
   */
  function JavaListenerRegister(c: JavaServerConfig, s: Store, heldResolver: bool, connected: bool, discovered: Option<string>): (r: (JavaServerConfig, Store))
    ensures !connected ==> r == (c, s)
    ensures connected ==> JavaPath(r.0, discovered).0 in r.1.nodes
    ensures !heldResolver ==> s.nodes.Keys <= r.1.nodes.Keys
  {
    JavaRegisterWith(c, s, connected, discovered, heldResolver)
  }

  /** Curator's connection states. */
  datatype CuratorState = CONNECTED | SUSPENDED | RECONNECTED | LOST | READ_ONLY

  /** The listener `registerAndListen` installs: whatever the state, it registers again. */
  function JavaOnStateChanged(state: CuratorState, c: JavaServerConfig, s: Store, connected: bool, discovered: Option<string>): (r: (JavaServerConfig, Store))
    ensures connected ==> JavaPath(r.0, discovered).0 in r.1.nodes
    ensures !connected ==> r == (c, s)
  {
    JavaRegister(c, s, connected, discovered)
  }

  /** Registering again with the same discovery changes nothing. */
  lemma JavaRegisterIdempotent(c: JavaServerConfig, s: Store, connected: bool, discovered: Option<string>)
    ensures var (c1, s1) := JavaRegister(c, s, connected, discovered);
            JavaRegister(c1, s1, connected, discovered) == (c1, s1)
  {
    if connected {
      var (c1, s1) := JavaRegister(c, s, connected, discovered);
      JavaRegisteredResolved(c, s, discovered);
      JavaResolvedStable(c1, discovered);
      JavaRegisterSettled(c1, s1, discovered, JavaPath(c1, discovered).0);
    }
  }

  /** After registering, the resolver holds an address or the discovery, and without an ip exactly the discovery. */
  lemma JavaRegisteredResolved(c: JavaServerConfig, s: Store, discovered: Option<string>)
    ensures var c1 := JavaRegister(c, s, true, discovered).0;
            c1.ip == c.ip && Resolved(c1, discovered) && (c1.ip.None? ==> c1.resolver.value.serverIp == discovered)
  {
    var c1 := JavaPath(c, discovered).1;
    var c2 := if c.ip.None? then c1.(resolver := Some(Resolver(None))) else c1;
    assert JavaRegister(c, s, true, discovered).0 == JavaPath(c2, discovered).1;
  }

  /** The resolver is set, and holds an address or what the discovery gives. */
  predicate Resolved(c: JavaServerConfig, discovered: Option<string>)
  {
    c.resolver.Some? && (c.resolver.value.serverIp.Some? || c.resolver.value.serverIp == discovered)
  }

  /**
   * Resolving a resolved configuration again keeps it; when it holds the
   * discovery, so does resolving it after a reset.
   */
  lemma JavaResolvedStable(c: JavaServerConfig, discovered: Option<string>)
    requires Resolved(c, discovered)
    ensures JavaPath(c, discovered) == (JavaPath(c, discovered).0, c)
    ensures c.resolver.value.serverIp == discovered ==>
              JavaPath(c.(resolver := Some(Resolver(None))), discovered) == (JavaPath(c, discovered).0, c)
  {
  }

  /** A configuration whose path is present and survives the resolver reset registers as a no-op. */
  lemma JavaRegisterSettled(c: JavaServerConfig, s: Store, discovered: Option<string>, path: string)
    requires path in s.nodes && JavaPath(c, discovered) == (path, c)
    requires c.ip.None? ==> JavaPath(c.(resolver := Some(Resolver(None))), discovered) == (path, c)
    ensures JavaRegister(c, s, true, discovered) == (c, s)
  {
    JavaReplaceSettles(s, path);
  }

  /** Replacing a present path by itself changes nothing. */
  lemma JavaReplaceSettles(s: Store, path: string)
    requires path in s.nodes
    ensures JavaReplace(s, path, path) == s
  {
  }

  /**
   * When the held address differs from the one discovered now, the node
   * moves: the old path goes and the new one appears.
   */
  lemma JavaRegisterMovesPath(c: JavaServerConfig, s: Store, a: string, b: string)
    requires c.ip.None? && c.resolver == Some(Resolver(Some(a))) && a != b
    requires ':' !in a && ':' !in b && '/' !in b
    requires JavaPath(c, Some(b)).0 in s.nodes
    ensures var (c1, s1) := JavaRegister(c, s, true, Some(b));
            JavaPath(c, Some(b)).0 !in s1.nodes && JavaPath(c1, Some(b)).0 in s1.nodes
  {
    var parent := JavaParentPath(c);
    var n1, n2 := NodeName(a, c.port, c.weight), NodeName(b, c.port, c.weight);
    var (oldPath, c1) := JavaPath(c, Some(b));
    assert oldPath == PathOf(parent, n1) && c1 == c;
    var c2 := c1.(resolver := Some(Resolver(None)));
    var (path, c3) := JavaPath(c2, Some(b));
    assert path == PathOf(parent, n2);
    assert JavaRegister(c, s, true, Some(b)) == (c3, JavaReplace(s, oldPath, path));
    NodeNameIpInjective(a, b, c.port, c.weight);
    NodeNameNoSeparator(b, c.port, c.weight);
    SiblingNotBelow(parent, n1, n2);
    assert path != oldPath by {
      assert path[|parent| + 1..] == n2 && oldPath[|parent| + 1..] == n1;
    }
    JavaReplaceMoves(s, oldPath, path);
  }

  /**
   * A listener built before the configuration had a resolver never resets
   * it: after the address changes the old node is kept and re-registered,
   * and the new address is never published.
   */
  lemma JavaListenerKeepsStaleAddress(c: JavaServerConfig, s: Store, a: string, b: string)
    requires c.ip.None? && c.resolver == Some(Resolver(Some(a))) && a != b
    ensures var (c1, s1) := JavaListenerRegister(c, s, false, true, Some(b));
            c1 == c && s.nodes.Keys <= s1.nodes.Keys &&
            JavaPath(c1, Some(b)).0 == PathOf(JavaParentPath(c), NodeName(a, c.port, c.weight))
  {
  }
}

=== FILE: retry.dfy ===
/**
 * The client proxies that run a remote call against a pooled connection:
 * Python `ClientProxy.call`, Go `ClientProxy.Call` and the Java proxy's
 * `InvocationHandler`, plus the way each client finds the proxy for a
 * service.
 *
 * The remote side is an oracle indexed by attempt number: `made(i)` is what
 * the connection factory gives if attempt `i` has to create a connection,
 * `reply(i)` is what the remote method answers on attempt `i`. Whether the
 * service has the method is one flag, since every connection of a service
 * has the same class. Sleeps are only counted.
 */
module Retry {
  import opened Wrappers
  import opened Text
  import opened Node
  import opened Pool

  /** What happened to the connection of one attempt. */
  datatype End =
    | GaveBack     // returned to the pool
    | Destroyed    // destroyed / invalidated
    | Untouched    // nothing was borrowed, so nothing is given back

  /** One pass of the retry loop: the connection borrowed, if any, its fate and the error caught, if any. */
  datatype Attempt<E> = Attempt(conn: Option<Conn>, end: End, error: Option<E>)

  /** The number of passes `range(n)` / `for i := 0; i < n; i++` makes. */
  function RangeLength(n: int): (k: nat)
    ensures n > 0 ==> k == n
    ensures n <= 0 ==> k == 0
  {
    if n > 0 then n else 0
  }

  // ---------------------------------------------------------------- Python

  /** `Client(provider, retry=3, retry_interval=0.2)`: the interval in milliseconds. */
  const PY_RETRY: int := 3
  const PY_RETRY_INTERVAL_MS: int := 200

  datatype PyFault =
    | PoolFailed(cause: PoolError)   // `borrow_obj` raised
    | UnknownMethod                  // `WrpcException("Unknown method!")`
    | RemoteFailed(message: string)  // the remote method raised
    | SleepError                     // `time.sleep` of a negative interval: `IOError` (EINVAL)
    | NoneRaised                     // `raise None` after zero passes: `TypeError`

  datatype PyOutcome<V> = Returned(value: V) | Raised(fault: PyFault)

  /** The exception a call on a borrowed connection raises, if any. */
  function PyInvokeFault<V>(hasMethod: bool, reply: Result<V, string>): (f: Option<PyFault>)
    ensures f.None? <==> hasMethod && reply.Ok?
    ensures f.Some? ==> f.value.UnknownMethod? || f.value.RemoteFailed?
    ensures !hasMethod ==> f == Some(UnknownMethod)
  {
    if !hasMethod then Some(UnknownMethod)
    else if reply.Err? then Some(RemoteFailed(reply.error))
    else None
  }

  /**
   * One Python attempt is well formed: a failed borrow is neither returned
   * nor destroyed; a borrowed connection is returned exactly when the call
   * succeeded and destroyed otherwise.
   */
  predicate PyAttemptShape<V>(a: Attempt<PyFault>, hasMethod: bool, reply: Result<V, string>)
  {
    (a.conn.None? ==> a.end == Untouched && a.error.Some? && a.error.value.PoolFailed?) &&
    (a.conn.Some? ==> a.error == PyInvokeFault(hasMethod, reply) &&
                      a.end == (if a.error.None? then GaveBack else Destroyed))
  }

  /**
   * One pass of `ClientProxy.call`: borrow a connection, check the method,
   * call it; on success the connection goes back to the pool, on a fault
   * after the borrow it is destroyed, and a failed borrow touches nothing.
   */
  function PyPass<V>(p: KeyedPool, key: string, made: Made, hasMethod: bool, reply: Result<V, string>): (r: (Attempt<PyFault>, KeyedPool))
    requires Inv(p)
    ensures Inv(r.1) && SameBounds(p, r.1) && p.closed <= r.1.closed
    ensures PyAttemptShape(r.0, hasMethod, reply)
    ensures r.0.end == Destroyed ==> r.0.conn.Some? && r.0.conn.value in r.1.closed
    ensures r.0.end == GaveBack ==>
              r.0.conn.Some? && key in r.1.blocks && (r.0.conn.value in r.1.blocks[key].idle || r.0.conn.value in r.1.closed)
  {
    var (borrowed, p1) := PyBorrow(p, key, made);
    if borrowed.Err? then (Attempt(None, Untouched, Some(PoolFailed(borrowed.error))), p1)
    else
      var c := borrowed.value;
      var fault := PyInvokeFault(hasMethod, reply);
      if fault.None? then (Attempt(Some(c), GaveBack, None), PyReturn(p1, key, c).1)
      else (Attempt(Some(c), Destroyed, fault), PyDestroy(p1, key, Some(c)).1)
  }

  /**
   * `ClientProxy.call(fun, *args)`: up to `retry` passes of borrow, check the
   * method, call it; success returns the result and gives the connection
   * back, any exception is kept, destroys a borrowed connection and is
   * followed by a sleep. A blocked borrow is a failed one. After the last
   * pass the last exception is raised.
   */
  method PyCall<V>(p: KeyedPool, key: string, retry: int, interval: int,
                   made: nat -> Made, hasMethod: bool, reply: nat -> Result<V, string>)
    returns (r: PyOutcome<V>, p': KeyedPool, trace: seq<Attempt<PyFault>>, sleeps: nat)
    requires Inv(p)
    ensures Inv(p') && SameBounds(p, p') && p.closed <= p'.closed
    ensures |trace| <= RangeLength(retry)
    ensures forall j :: 0 <= j < |trace| - 1 ==> trace[j].error.Some?
    ensures forall j :: 0 <= j < |trace| ==> PyAttemptShape(trace[j], hasMethod, reply(j))
    ensures forall j :: 0 <= j < |trace| && trace[j].end == Destroyed ==> trace[j].conn.Some? && trace[j].conn.value in p'.closed
    ensures r.Returned? <==> |trace| > 0 && trace[|trace| - 1].error.None?
    ensures r.Returned? ==> reply(|trace| - 1) == Ok(r.value) && sleeps == |trace| - 1
    ensures r.Returned? ==>
              trace[|trace| - 1].conn.Some? && key in p'.blocks &&
              (trace[|trace| - 1].conn.value in p'.blocks[key].idle || trace[|trace| - 1].conn.value in p'.closed)
    ensures r == Raised(NoneRaised) <==> retry <= 0
    ensures r == Raised(SleepError) <==> interval < 0 && |trace| > 0 && trace[0].error.Some?
    ensures r == Raised(SleepError) ==> |trace| == 1 && sleeps == 0
    ensures r.Raised? && retry > 0 && r.fault != SleepError ==>
              |trace| == retry && sleeps == retry && trace[retry - 1].error == Some(r.fault)
  {
    p' := p;
    trace := [];
    sleeps := 0;
    var i := 0;
    while i < retry
      invariant 0 <= i <= RangeLength(retry) && |trace| == i && sleeps == i
      invariant Inv(p') && SameBounds(p, p') && p.closed <= p'.closed
      invariant forall j :: 0 <= j < i ==> trace[j].error.Some? && PyAttemptShape(trace[j], hasMethod, reply(j))
      invariant forall j :: 0 <= j < i && trace[j].end == Destroyed ==> trace[j].conn.Some? && trace[j].conn.value in p'.closed
      invariant interval < 0 ==> i == 0
    {
      var (attempt, p1) := PyPass(p', key, made(i), hasMethod, reply(i));
      p' := p1;
      trace := trace + [attempt];
      if attempt.error.None? {
        r := Returned(reply(i).value);
        return;
      }
      if interval < 0 {
        r := Raised(SleepError);
        return;
      }
      sleeps := sleeps + 1;
      i := i + 1;
    }
    r := if |trace| == 0 then Raised(NoneRaised) else Raised(trace[|trace| - 1].error.value);
  }

  /** A `skey`: a module object, known by its dotted `__name__`, or any other key. */
  datatype PyServiceKey = Module(name: string) | Key(key: string)

  /** A `fun`: a callable, known by its `__name__`, or a method name. */
  datatype PyFunction = Callable(name: string) | FunctionName(fun: string)

  /** The key `get_client` looks up: a module's last dotted component, anything else as given. */
  function PyClientKey(skey: PyServiceKey): (k: string)
    ensures skey.Module? ==> '.' !in k && EndsWith(skey.name, k)
    ensures skey.Key? ==> k == skey.key
  {
    match skey
    case Module(name) => LastPiece(name, '.')
    case Key(key) => key
  }

  /** The method name `call` asks the proxy for. */
  function PyFunctionName(fun: PyFunction): (name: string)
    ensures fun.Callable? ==> name == fun.name
    ensures fun.FunctionName? ==> name == fun.fun
  {
    match fun
    case Callable(name) => name
    case FunctionName(f) => f
  }

  /**
   * The proxy map `__add_client_proxy` builds from the service modules: each
   * module's last dotted component maps to the proxy of that name (a proxy
   * is known here by the pool key it uses); a later module of the same last
   * component wins.
   */
  function PyProxyMap(services: seq<string>): (m: map<string, string>)
    ensures forall k :: k in m ==> m[k] == k
    ensures forall k :: k in m <==> exists i :: 0 <= i < |services| && LastPiece(services[i], '.') == k
  {
    if |services| == 0 then map[]
    else
      var m := PyProxyMap(services[..|services| - 1]);
      var k := LastPiece(services[|services| - 1], '.');
      assert forall i :: 0 <= i < |services| - 1 ==> services[..|services| - 1][i] == services[i];
      m[k := k]
  }

  datatype PyLookupError = NoSuchAttribute

  /**
   * `call(skey, fun)`: find the proxy with `get_client`, then the method by
   * name; with no proxy for the key `getattr(None, name)` raises
   * `AttributeError`. The result is the pool key and method name the
   * proxy's `call` then runs with.
   */
  function PyResolve(proxies: map<string, string>, skey: PyServiceKey, fun: PyFunction): (r: Result<(string, string), PyLookupError>)
    ensures r.Err? <==> PyClientKey(skey) !in proxies
    ensures r.Ok? ==> r.value == (proxies[PyClientKey(skey)], PyFunctionName(fun))
  {
    var key := PyClientKey(skey);
    if key in proxies then Ok((proxies[key], PyFunctionName(fun))) else Err(NoSuchAttribute)
  }

  /**
   * A service module is found whether it is passed as the module or by its
   * short name, and the proxy found draws from the pool under that name.
   */
  lemma PyClientFindsService(services: seq<string>, i: nat, fun: PyFunction)
    requires i < |services|
    ensures var short := LastPiece(services[i], '.');
            PyResolve(PyProxyMap(services), Module(services[i]), fun) == Ok((short, PyFunctionName(fun))) &&
            PyResolve(PyProxyMap(services), Key(short), fun) == Ok((short, PyFunctionName(fun)))
  {
  }

  // ---------------------------------------------------------------- Go

  const RETRY: int := 3
  const RETRY_INTERVAL: int := 200

  /** A Go `ClientProxy`: service name, retry count and interval in milliseconds. */
  datatype GoProxy = GoProxy(serviceName: string, retry: int, retryInterval: int)

  /** `NewClientProxy`: a retry or interval `<= 0` is replaced by its default. */
  function NewClientProxy(serviceName: string, retry: int, retryInterval: int): (c: GoProxy)
    ensures c.serviceName == serviceName
    ensures c.retry >= 1 && c.retryInterval >= 1
    ensures retry > 0 ==> c.retry == retry
    ensures retry <= 0 ==> c.retry == RETRY
    ensures retryInterval > 0 ==> c.retryInterval == retryInterval
    ensures retryInterval <= 0 ==> c.retryInterval == RETRY_INTERVAL
  {
    GoProxy(serviceName, if retry <= 0 then RETRY else retry, if retryInterval <= 0 then RETRY_INTERVAL else retryInterval)
  }

  /** What a Go call gives back: a result and an error, either possibly nil. */
  datatype GoReply<V> = GoReply(value: Option<V>, err: Option<string>)

  /** The text of a pool error as Go's `Borrow` returns it. */
  function PoolErrorText(e: PoolError): (t: string)
    ensures e.Factory? ==> t == e.message
    ensures e.Exhausted? ==> t == "Queue is empty."
  {
    match e
    case Factory(m) => m
    case Exhausted => "Queue is empty."
    case Blocked => "Queue is blocked."
    case NegativeTimeout => "Negative timeout."
    case KeyError => "Unknown key."
    case NilDereference => "Nil pointer dereference."
  }

  function UnknownMethodError(methodName: string): string
  {
    "Unknown method '" + methodName + "'."
  }

  /**
   * `Call(method, args...)`: up to `retry` borrows; once an object is
   * borrowed, the method's reply (or the unknown-method error) is returned
   * after that single attempt and the object is returned to the pool. A
   * failed borrow is followed by a sleep and another borrow; after the last
   * one the borrow error is returned with a nil result, and zero passes
   * return nil and nil.
   */
  method GoCall<V>(p: KeyedPool, key: string, retry: int, methodName: string, hasMethod: bool,
                   made: nat -> Made, reply: nat -> GoReply<V>)
    returns (r: GoReply<V>, p': KeyedPool, trace: seq<Attempt<string>>, sleeps: nat)
    requires GoInv(p)
    ensures GoInv(p') && SameBounds(p, p')
    ensures |trace| <= RangeLength(retry)
    ensures forall j :: 0 <= j < |trace| - 1 ==> trace[j].conn.None?
    ensures forall j :: 0 <= j < |trace| ==> (trace[j].conn.Some? <==> trace[j].end == GaveBack)
    ensures forall j :: 0 <= j < |trace| && trace[j].conn.None? ==> trace[j].end == Untouched && trace[j].error.Some?
    ensures |trace| > 0 && trace[|trace| - 1].conn.Some? ==>
              sleeps == |trace| - 1 &&
              r == (if hasMethod then reply(|trace| - 1) else GoReply(None, Some(UnknownMethodError(methodName))))
    ensures |trace| > 0 && trace[|trace| - 1].conn.Some? ==> var c := trace[|trace| - 1].conn.value;
              key in p'.blocks && (c in p'.blocks[key].idle || c in p'.closed)
    ensures |trace| == 0 || trace[|trace| - 1].conn.None? ==>
              |trace| == RangeLength(retry) && sleeps == |trace| &&
              r == GoReply(None, if |trace| == 0 then None else trace[|trace| - 1].error)
  {
    p' := p;
    trace := [];
    sleeps := 0;
    r := GoReply(None, None);
    var i := 0;
    while i < retry
      invariant 0 <= i <= RangeLength(retry) && |trace| == i && sleeps == i
      invariant GoInv(p') && SameBounds(p, p')
      invariant forall j :: 0 <= j < i ==> trace[j].conn.None? && trace[j].end == Untouched && trace[j].error.Some?
      invariant r == GoReply(None, if i == 0 then None else trace[i - 1].error)
    {
      var (borrowed, p1) := GoBorrow(p', key, made(i));
      if borrowed.Ok? {
        r := if hasMethod then reply(i) else GoReply(None, Some(UnknownMethodError(methodName)));
        var (_, p2) := GoReturn(p1, key, borrowed.value);
        p' := p2;
        trace := trace + [Attempt(Some(borrowed.value), GaveBack, r.err)];
        return;
      }
      var (_, p2) := GoDestroy(p1, key, None);
      p' := p2;
      var err := PoolErrorText(borrowed.error);
      r := GoReply(None, Some(err));
      trace := trace + [Attempt(None, Untouched, Some(err))];
      sleeps := sleeps + 1;
      i := i + 1;
    }
  }

  /**
   * `ClientWrap.Close()`: an open transport is closed and its close error
   * returned; a closed one is left alone and nil is returned. The result is
   * whether the transport is open afterwards, and the error.
   */
  function GoCloseWrap(open: bool, closeErr: Option<string>): (r: (bool, Option<string>))
    ensures !r.0
    ensures !open ==> r.1.None?
    ensures open ==> r.1 == closeErr
  {
    if open then (false, closeErr) else (false, None)
  }

  // ---------------------------------------------------------------- Java

  /** The `ClientProxy` field defaults; the interval is in milliseconds, the idle time too. */
  const JAVA_MAX_TOTAL: int := 8
  const JAVA_MAX_ACTIVE: int := 4
  const JAVA_IDLE_TIME: int := 180000
  const JAVA_RETRY: int := 3
  const JAVA_RETRY_INTERVAL: int := 200

  datatype JavaFault =
    | Wrapped(cause: Option<string>)   // `new WrpcException(exception)`, null after zero passes
    | SleepIllegalArgument             // `Thread.sleep` of a negative interval

  datatype JavaOutcome<V> = Answered(value: V) | Thrown(fault: JavaFault)

  /**
   * One Java attempt is well formed: a failed borrow borrowed nothing and
   * its exception is kept; a borrowed client is returned when the call
   * succeeded and invalidated when it threw.
   */
  predicate JavaAttemptShape<V>(a: Attempt<string>, borrow: Result<Conn, string>, reply: Result<V, string>)
  {
    match borrow
    case Err(e) => a == Attempt(None, Untouched, Some(e))
    case Ok(c) =>
      if reply.Ok? then a == Attempt(Some(c), GaveBack, None)
      else a == Attempt(Some(c), Destroyed, Some(reply.error))
  }

  /**
   * The proxy's `invoke`: up to `retry` passes of `borrowObject` and
   * `method.invoke`; the first success is returned and its client given
   * back, every `Throwable` is kept, invalidates a borrowed client and is
   * followed by a sleep; after the last pass a `WrpcException` wrapping the
   * last one is thrown. The commons-pool pool is an oracle, `borrow(i)`.
   */
  method JavaInvoke<V>(retry: int, interval: int, borrow: nat -> Result<Conn, string>, reply: nat -> Result<V, string>)
    returns (r: JavaOutcome<V>, trace: seq<Attempt<string>>, sleeps: nat)
    ensures |trace| <= RangeLength(retry)
    ensures forall j :: 0 <= j < |trace| - 1 ==> trace[j].error.Some?
    ensures forall j :: 0 <= j < |trace| ==> JavaAttemptShape(trace[j], borrow(j), reply(j))
    ensures r.Answered? <==> |trace| > 0 && trace[|trace| - 1].error.None?
    ensures r.Answered? ==> reply(|trace| - 1) == Ok(r.value) && sleeps == |trace| - 1
    ensures r == Thrown(SleepIllegalArgument) <==> interval < 0 && |trace| > 0 && trace[0].error.Some?
    ensures r == Thrown(SleepIllegalArgument) ==> |trace| == 1 && sleeps == 0
    ensures r.Thrown? && r.fault.Wrapped? ==>
              |trace| == RangeLength(retry) && sleeps == |trace| &&
              r.fault.cause == (if |trace| == 0 then None else trace[|trace| - 1].error)
  {
    trace := [];
    sleeps := 0;
    var exception: Option<string> := None;
    var i := 0;
    while i < retry
      invariant 0 <= i <= RangeLength(retry) && |trace| == i && sleeps == i
      invariant forall j :: 0 <= j < i ==> trace[j].error.Some? && JavaAttemptShape(trace[j], borrow(j), reply(j))
      invariant exception == (if i == 0 then None else trace[i - 1].error)
      invariant interval < 0 ==> i == 0
    {
      var attempt: Attempt<string>;
      match borrow(i) {
        case Err(e) =>
          attempt := Attempt(None, Untouched, Some(e));
        case Ok(client) =>
          match reply(i) {
            case Ok(v) =>
              trace := trace + [Attempt(Some(client), GaveBack, None)];
              r := Answered(v);
              return;
            case Err(e) =>
              attempt := Attempt(Some(client), Destroyed, Some(e));
          }
      }
      exception := attempt.error;
      trace := trace + [attempt];
      if interval < 0 {
        r := Thrown(SleepIllegalArgument);
        return;
      }
      sleeps := sleeps + 1;
      i := i + 1;
    }
    r := Thrown(Wrapped(exception));
  }

  /**
   * The service name `loadClientProxy` derives from an interface name: the
   * last element of `split("\\.")`, which does not exist when the name is
   * nothing but dots.
   */
  function JavaServiceName(interfaceName: string): (r: Result<string, JavaError>)
    ensures r.Err? <==> JavaSplit(interfaceName, '.') == []
    ensures r.Err? ==> r.error == IndexOutOfBounds
    ensures r.Ok? ==> '.' !in r.value
  {
    var split := JavaSplit(interfaceName, '.');
    if |split| == 0 then Err(IndexOutOfBounds) else Ok(split[|split| - 1])
  }

  /** When the last dotted component is non-empty, Java's service name is Python's client key. */
  lemma JavaServiceNameIsLastPiece(name: string)
    requires LastPiece(name, '.') != ""
    ensures JavaServiceName(name) == Ok(LastPiece(name, '.'))
    ensures JavaServiceName(name) == Ok(PyClientKey(Module(name)))
  {
    var parts := Split(name, '.');
    if '.' in name {
      assert DropTrailingEmpty(parts) == parts;
    }
  }

  /**
   * `Class.getSimpleName()` of a class given by its binary name: the part
   * after the package and after the last `$` of a nested class.
   */
  function JavaSimpleName(binaryName: string): (s: string)
    ensures '.' !in s && '$' !in s
    ensures EndsWith(binaryName, s)
  {
    var afterPackage := LastPiece(binaryName, '.');
    var s := LastPiece(afterPackage, '$');
    assert binaryName[|binaryName| - |afterPackage|..][|afterPackage| - |s|..] == s;
    s
  }

  /**
   * `getClient(Class)`: the proxy registered under the class's simple name.
   * Given the generated service class it finds the service; given the
   * service's nested `Iface` it looks up "Iface".
   */
  function JavaGetClientByClass<P>(proxies: map<string, P>, binaryName: string): (r: Option<P>)
    ensures r.Some? <==> JavaSimpleName(binaryName) in proxies
    ensures r.Some? ==> r.value == proxies[JavaSimpleName(binaryName)]
  {
    var key := JavaSimpleName(binaryName);
    if key in proxies then Some(proxies[key]) else None
  }

  /**
   * The key `getClient(Class)` uses for a top-level service class is the
   * key `loadClientProxy` registered it under; for the service's `Iface`
   * it is "Iface", whatever the service.
   */
  lemma JavaClassKeys(name: string)
    requires '$' !in name && LastPiece(name, '.') != ""
    ensures JavaServiceName(name) == Ok(JavaSimpleName(name))
    ensures JavaSimpleName(name + "$Iface") == "Iface"
  {
    JavaServiceNameIsLastPiece(name);
    var last := LastPiece(name, '.');
    assert '$' !in last by {
      assert last == name[|name| - |last|..];
    }
    NestedSimpleName(name, last);
  }

  /** The simple name of `Outer$Iface` when `Outer`'s last dotted component has no `$`. */
  lemma NestedSimpleName(name: string, last: string)
    requires last == LastPiece(name, '.') && '$' !in last
    ensures JavaSimpleName(name + "$Iface") == "Iface"
  {
    LastPieceAppend(name, "$Iface", '.');
    AfterDollar(last);
  }

  lemma AfterDollar(last: string)
    requires '$' !in last
    ensures LastPiece(last + "$Iface", '$') == "Iface"
  {
    assert last + "$Iface" == last + ['$'] + "Iface";
    assert '$' !in "Iface" by {
      assert forall k :: 0 <= k < 5 ==> "Iface"[k] != '$';
    }
    LastPieceAfter(last, "Iface", '$');
  }
}

=== FILE: shuffle.dfy ===
/**
 * The in-place shuffle that follows every weight expansion: Go's `Shuffle`,
 * Python's `random.shuffle` and Java's `Collections.shuffle` all run the
 * same Fisher-Yates walk from the last position down.
 *
 * Randomness is an oracle: `draws(k)` is the k-th number the generator
 * hands out, and a draw `d` requested for a bound `n` stands for `d % n`.
 */
module Shuffle {

  /** The random source: the k-th draw of the generator. */
  type Draws = nat -> nat

  /** `Intn(n)` answered by draw `k`: the draw reduced below `n`. */
  function Pick(draws: Draws, k: nat, n: nat): (i: nat)
    requires n > 0
    ensures i < n
  {
    draws(k) % n
  }

  /** Exchange of two positions, as `s[i], s[j] = s[j], s[i]`. */
  function Swap<T>(s: seq<T>, i: nat, j: nat): (r: seq<T>)
    requires i < |s| && j < |s|
    ensures |r| == |s|
  {
    s[i := s[j]][j := s[i]]
  }

  /** A swap exchanges its two positions, keeps every other one and so every element with its multiplicity. */
  lemma SwapPermutes<T>(s: seq<T>, i: nat, j: nat)
    requires i < |s| && j < |s|
    ensures var r := Swap(s, i, j);
            r[i] == s[j] && r[j] == s[i] &&
            (forall k :: 0 <= k < |s| && k != i && k != j ==> r[k] == s[k]) &&
            multiset(r) == multiset(s)
  {
  }

  /**
   * The reference shuffle of the first `n` positions: swap position `n - 1`
   * with a position drawn from `[0, n)` by draw `k`, then shuffle the first
   * `n - 1` positions with the following draws.
   */
  function FisherYates<T>(s: seq<T>, draws: Draws, n: nat, k: nat): (r: seq<T>)
    requires n <= |s|
    ensures |r| == |s|
    decreases n
  {
    if n == 0 then s
    else FisherYates(Swap(s, n - 1, Pick(draws, k, n)), draws, n - 1, k + 1)
  }

  /** The shuffle only permutes, and it leaves the positions from `n` on where they were. */
  lemma {:induction false} FisherYatesPermutes<T>(s: seq<T>, draws: Draws, n: nat, k: nat)
    requires n <= |s|
    ensures multiset(FisherYates(s, draws, n, k)) == multiset(s)
    ensures FisherYates(s, draws, n, k)[n..] == s[n..]
    decreases n
  {
    if n > 0 {
      var t := Swap(s, n - 1, Pick(draws, k, n));
      SwapPermutes(s, n - 1, Pick(draws, k, n));
      FisherYatesPermutes(t, draws, n - 1, k + 1);
      assert t[n..] == s[n..];
      assert FisherYates(s, draws, n, k)[n..] == FisherYates(t, draws, n - 1, k + 1)[n - 1..][1..];
    }
  }

  /**
   * The last step of the walk swaps position 0 with itself, so a walk that
   * stops at one position, as Python's and Java's do, shuffles alike.
   */
  lemma FisherYatesLastStep<T>(s: seq<T>, draws: Draws, k: nat)
    requires |s| >= 1
    ensures FisherYates(s, draws, 1, k) == s
  {
    assert Swap(s, 0, 0) == s;
  }

  /** One step of the walk: the swap at `n - 1`, then the walk over the first `n - 1` positions. */
  lemma FisherYatesStep<T>(s: seq<T>, draws: Draws, n: nat, k: nat)
    requires 0 < n <= |s|
    ensures FisherYates(s, draws, n, k) == FisherYates(Swap(s, n - 1, Pick(draws, k, n)), draws, n - 1, k + 1)
  {
  }

  /**
   * Go's `Shuffle(slice)`: while the slice is non-empty, swap its last
   * element with one at `Intn(len)` and drop the last element. It consumes
   * exactly one draw per element, starting at draw `start`.
   */
  method GoShuffle<T>(slice: seq<T>, draws: Draws, start: nat) returns (r: seq<T>, used: nat)
    ensures r == FisherYates(slice, draws, |slice|, start)
    ensures used == |slice|
  {
    r := slice;
    var n: nat := |slice|;
    used := 0;
    while n > 0
      invariant n <= |slice| && |r| == |slice|
      invariant used == |slice| - n
      invariant FisherYates(r, draws, n, start + used) == FisherYates(slice, draws, |slice|, start)
    {
      var k := start + used;
      var randIndex := Pick(draws, k, n);
      FisherYatesStep(r, draws, n, k);
      r := Swap(r, n - 1, randIndex);
      n := n - 1;
      used := used + 1;
    }
    assert FisherYates(r, draws, 0, start + used) == r;
  }
}

=== FILE: store.dfy ===
/**
 * The coordination service as the registrars and providers see it: a tree
 * of absolute paths, each present path with its data version. The calls
 * the code makes (`exists`, `create`, `delete`, `ensure_path`) are pure
 * functions on it; sessions and watches are not modelled, so an ephemeral
 * node is an ordinary one.
 */
module Store {
  import opened Wrappers
  import opened Text

  /** The present paths and their versions. */
  datatype Store = Store(nodes: map<string, nat>)

  datatype ZkError = NoNode | NodeExists | BadVersion | NotEmpty

  /** The parent of a path: everything before its last separator; `""` stands for the root. */
  function ParentOf(p: string): (r: string)
  {
    var parts := Split(p, '/');
    Join(parts[..|parts| - 1], '/')
  }

  /** A child's parent is the path it was made under. */
  lemma ParentOfChild(parent: string, name: string)
    requires '/' !in name
    ensures ParentOf(parent + "/" + name) == parent
  {
    assert parent + "/" + name == parent + ['/'] + name;
    SplitSnoc(parent, name, '/');
    JoinSplit(parent, '/');
    var parts := Split(parent + "/" + name, '/');
    assert parts[..|parts| - 1] == Split(parent, '/');
  }

  /** A parent is never longer than its child. */
  lemma ParentNotLonger(p: string)
    ensures |ParentOf(p)| <= |p|
  {
    var parts := Split(p, '/');
    SplitMany(p, '/');
    if '/' in p {
      SplitInit(p, '/');
    } else {
      assert parts[..|parts| - 1] == [];
    }
  }

  /** A node can be made at `p` when its parent is the root or present. */
  predicate HasParent(s: Store, p: string)
  {
    var q := ParentOf(p);
    q == "" || q in s.nodes
  }

  /** The proper ancestors of `p` below the root: its prefixes that end just before a separator. */
  function Ancestors(p: string): (r: set<string>)
    ensures forall q :: q in r ==> |q| < |p| && q == p[..|q|]
  {
    set i | 0 < i < |p| && p[i] == '/' :: p[..i]
  }

  /** `create(path)`: fails when the path is present or its parent is missing; a new node has version 0. */
  function Create(s: Store, p: string): (r: Result<Store, ZkError>)
    ensures r.Ok? <==> p !in s.nodes && HasParent(s, p)
    ensures p in s.nodes ==> r == Err(NodeExists)
    ensures r.Ok? ==> r.value.nodes.Keys == s.nodes.Keys + {p} && r.value.nodes[p] == 0
    ensures r.Ok? ==> forall q :: q in s.nodes ==> r.value.nodes[q] == s.nodes[q]
  {
    if p in s.nodes then Err(NodeExists)
    else if !HasParent(s, p) then Err(NoNode)
    else Ok(Store(s.nodes[p := 0]))
  }

  /**
   * `ensure_path(path)` / `EnsurePath` / `creatingParentsIfNeeded`: the path
   * and every missing ancestor are made; present nodes keep their versions.
   */
  function EnsurePath(s: Store, p: string): (r: Store)
    ensures r.nodes.Keys == s.nodes.Keys + Ancestors(p) + {p}
    ensures forall q :: q in s.nodes ==> r.nodes[q] == s.nodes[q]
  {
    Store(map q | q in s.nodes.Keys + Ancestors(p) + {p} :: if q in s.nodes then s.nodes[q] else 0)
  }

  /** Curator's `create().creatingParentsIfNeeded()`: only a present path makes it fail. */
  function CreateWithParents(s: Store, p: string): (r: Result<Store, ZkError>)
    ensures r.Ok? <==> p !in s.nodes
    ensures r.Ok? ==> r.value.nodes.Keys == s.nodes.Keys + Ancestors(p) + {p}
    ensures r.Ok? ==> forall q :: q in s.nodes ==> r.value.nodes[q] == s.nodes[q]
  {
    if p in s.nodes then Err(NodeExists) else Ok(EnsurePath(s, p))
  }

  /** A present node whose parent is `p`. */
  predicate HasChildren(s: Store, p: string)
  {
    exists q :: q in s.nodes && ParentOf(q) == p
  }

  /**
   * `delete(path, version)`: a missing path fails first, then, when a
   * version is given, a different version, then a node that still has
   * children; otherwise only that path goes.
   */
  function Delete(s: Store, p: string, version: Option<nat>): (r: Result<Store, ZkError>)
    ensures r.Ok? <==> p in s.nodes && (version.None? || version.value == s.nodes[p]) && !HasChildren(s, p)
    ensures p !in s.nodes ==> r == Err(NoNode)
    ensures p in s.nodes && (version.None? || version.value == s.nodes[p]) && HasChildren(s, p) ==> r == Err(NotEmpty)
    ensures r.Ok? ==> r.value.nodes.Keys == s.nodes.Keys - {p}
    ensures r.Ok? ==> forall q :: q in r.value.nodes ==> r.value.nodes[q] == s.nodes[q]
  {
    if p !in s.nodes then Err(NoNode)
    else if version.Some? && version.value != s.nodes[p] then Err(BadVersion)
    else if HasChildren(s, p) then Err(NotEmpty)
    else Ok(Store(s.nodes - {p}))
  }

  /** `p` itself or a node below it. */
  predicate Below(q: string, p: string)
  {
    q == p || (|q| > |p| && q[..|p| + 1] == p + "/")
  }

  /** Curator's `delete().deletingChildrenIfNeeded()`: the node and everything below it go. */
  function DeleteTree(s: Store, p: string): (r: Result<Store, ZkError>)
    ensures r.Ok? <==> p in s.nodes
    ensures r.Ok? ==> r.value.nodes.Keys == set q | q in s.nodes && !Below(q, p)
    ensures r.Ok? ==> forall q :: q in r.value.nodes ==> r.value.nodes[q] == s.nodes[q]
  {
    if p !in s.nodes then Err(NoNode)
    else Ok(Store(map q | q in s.nodes && !Below(q, p) :: s.nodes[q]))
  }

  /** Ensuring a path a second time changes nothing. */
  lemma EnsurePathIdempotent(s: Store, p: string)
    ensures EnsurePath(EnsurePath(s, p), p) == EnsurePath(s, p)
  {
  }

  /**
   * Ensuring a path gives no children to a path longer than it: every node
   * it adds is that path or one of its ancestors.
   */
  lemma EnsurePathKeepsChildren(s: Store, p: string, x: string)
    requires |x| > |p|
    ensures HasChildren(EnsurePath(s, p), x) <==> HasChildren(s, x)
  {
    var r := EnsurePath(s, p);
    if HasChildren(r, x) {
      var q :| q in r.nodes && ParentOf(q) == x;
      ParentNotLonger(q);
      assert q in s.nodes;
    }
  }

  /** Once a parent path is ensured, a node can be made under it. */
  lemma EnsuredParentAdmitsChild(s: Store, parent: string, name: string)
    requires '/' !in name
    ensures HasParent(EnsurePath(s, parent), parent + "/" + name)
  {
    ParentOfChild(parent, name);
  }
}

=== FILE: text.dfy ===
/**
 * Strings as the three implementations see them: splitting on a one-character
 * separator, joining, ASCII digit runs and the decimal rendering of integers.
 */
module Text {

  /** Position of the first occurrence of `c` in `s`. */
  function IndexOf(s: string, c: char): (i: nat)
    requires c in s
    ensures i < |s| && s[i] == c
    ensures c !in s[..i]
  {
    if s[0] == c then 0 else 1 + IndexOf(s[1..], c)
  }

  /** The pieces separated by `sep`, joined back with `sep` between them. */
  function Join(parts: seq<string>, sep: char): string
  {
    if |parts| == 0 then []
    else if |parts| == 1 then parts[0]
    else parts[0] + [sep] + Join(parts[1..], sep)
  }

  /**
   * `s.split(sep)` in Python and `strings.Split(s, sep)` in Go for a
   * one-character separator: every piece is kept, empty ones included, so
   * the empty string gives one empty piece.
   */
  function Split(s: string, sep: char): (parts: seq<string>)
    ensures |parts| >= 1
    ensures forall i :: 0 <= i < |parts| ==> sep !in parts[i]
    decreases |s|
  {
    if sep !in s then [s]
    else
      var i := IndexOf(s, sep);
      [s[..i]] + Split(s[i + 1..], sep)
  }

  /** Joining the pieces with the separator gives the string back. */
  lemma {:induction false} JoinSplit(s: string, sep: char)
    ensures Join(Split(s, sep), sep) == s
    decreases |s|
  {
    if sep in s {
      var i := IndexOf(s, sep);
      var rest := Split(s[i + 1..], sep);
      JoinSplit(s[i + 1..], sep);
      assert ([s[..i]] + rest)[1..] == rest;
      assert s == s[..i] + [sep] + s[i + 1..];
    }
  }

  /** Splitting at a first occurrence: the piece before it, then the pieces of the rest. */
  lemma SplitCons(a: string, rest: string, sep: char)
    requires sep !in a
    ensures Split(a + [sep] + rest, sep) == [a] + Split(rest, sep)
  {
    var s := a + [sep] + rest;
    assert s[|a|] == sep;
    assert s[..|a|] == a;
    var i := IndexOf(s, sep);
    assert i == |a|;
    assert s[i + 1..] == rest;
  }

  /** Splitting undoes joining when no piece contains the separator. */
  lemma {:induction false} SplitJoin(parts: seq<string>, sep: char)
    requires |parts| >= 1
    requires forall i :: 0 <= i < |parts| ==> sep !in parts[i]
    ensures Split(Join(parts, sep), sep) == parts
    decreases |parts|
  {
    if |parts| > 1 {
      var rest := parts[1..];
      SplitCons(parts[0], Join(rest, sep), sep);
      SplitJoin(rest, sep);
      assert parts == [parts[0]] + rest;
    }
  }

  /** Joining one more piece appends the separator and that piece. */
  lemma {:induction false} JoinSnoc(parts: seq<string>, x: string, sep: char)
    requires |parts| >= 1
    ensures Join(parts + [x], sep) == Join(parts, sep) + [sep] + x
    decreases |parts|
  {
    if |parts| > 1 {
      assert (parts + [x])[1..] == parts[1..] + [x];
      JoinSnoc(parts[1..], x, sep);
    }
  }

  /** The pieces of a two-way join. */
  lemma SplitTwo(a: string, b: string, sep: char)
    requires sep !in a && sep !in b
    ensures Split(a + [sep] + b, sep) == [a, b]
  {
    SplitCons(a, b, sep);
  }

  /** The first two pieces of a string that starts with two separator-free fields. */
  lemma SplitFirstTwo(a: string, b: string, tail: string, sep: char)
    requires sep !in a && sep !in b
    ensures var parts := Split(a + [sep] + b + [sep] + tail, sep);
            |parts| == 2 + |Split(tail, sep)| && parts[0] == a && parts[1] == b &&
            parts[2..] == Split(tail, sep)
  {
    var s := a + [sep] + b + [sep] + tail;
    var bt := b + [sep] + tail;
    AppendRegroup(a, sep, b + [sep], tail);
    assert s == a + [sep] + bt;
    SplitCons(a, bt, sep);
    SplitCons(b, tail, sep);
    ConsCons(a, b, Split(tail, sep), Split(s, sep));
  }

  lemma ConsCons<T>(x: T, y: T, rest: seq<T>, xs: seq<T>)
    requires xs == [x] + ([y] + rest)
    ensures |xs| == 2 + |rest| && xs[0] == x && xs[1] == y && xs[2..] == rest
  {
    assert xs == [x, y] + rest;
  }

  /** The pieces of a three-way join. */
  lemma SplitThree(a: string, b: string, c: string, sep: char)
    requires sep !in a && sep !in b && sep !in c
    ensures Split(a + [sep] + b + [sep] + c, sep) == [a, b, c]
  {
    SplitTwo(a, b, sep);
    SplitSnoc(a + [sep] + b, c, sep);
    assert [a, b] + [c] == [a, b, c];
  }

  /** A string splits into two or more pieces exactly when it holds the separator. */
  lemma SplitMany(s: string, sep: char)
    ensures |Split(s, sep)| >= 2 <==> sep in s
  {
    if sep in s {
      var i := IndexOf(s, sep);
      assert |Split(s[i + 1..], sep)| >= 1;
    }
  }

  /**
   * All pieces but the last, joined back (Python's `sep.join(s.split(sep)[:-1])`):
   * followed by the separator and the last piece it gives the string back, and
   * its own last piece is the second-to-last piece of the string.
   */
  lemma SplitInit(s: string, sep: char)
    requires sep in s
    ensures var parts := Split(s, sep); var n := |parts|;
            n >= 2 &&
            Join(parts[..n - 1], sep) + [sep] + LastPiece(s, sep) == s &&
            LastPiece(Join(parts[..n - 1], sep), sep) == parts[n - 2]
  {
    var parts := Split(s, sep);
    SplitMany(s, sep);
    var n := |parts|;
    var init := parts[..n - 1];
    var last := parts[n - 1];
    assert LastPiece(s, sep) == last;
    assert parts == init + [last];
    JoinSnoc(init, last, sep);
    JoinSplit(s, sep);
    assert Join(init, sep) + [sep] + last == s;
    assert forall i :: 0 <= i < |init| ==> sep !in init[i];
    SplitJoin(init, sep);
    assert Split(Join(init, sep), sep) == init;
    assert init[|init| - 1] == parts[n - 2];
  }

  /** There is one more piece than there are separators. */
  lemma {:induction false} SplitCount(s: string, sep: char)
    ensures |Split(s, sep)| == multiset(s)[sep] + 1
    decreases |s|
  {
    if sep in s {
      var i := IndexOf(s, sep);
      assert s == s[..i] + [sep] + s[i + 1..];
      assert multiset(s) == multiset(s[..i]) + multiset{sep} + multiset(s[i + 1..]);
      assert multiset(s[..i])[sep] == 0;
      SplitCount(s[i + 1..], sep);
    } else {
      assert multiset(s)[sep] == 0;
    }
  }

  /** The last piece of `s` split on `sep`: Python's `s.split(sep)[-1]`. */
  function LastPiece(s: string, sep: char): (r: string)
    ensures sep !in r
    ensures |r| <= |s| && s[|s| - |r|..] == r
  {
    var parts := Split(s, sep);
    JoinSplit(s, sep);
    LastPieceIsSuffix(parts, sep);
    parts[|parts| - 1]
  }

  lemma {:induction false} LastPieceIsSuffix(parts: seq<string>, sep: char)
    requires |parts| >= 1
    ensures var j := Join(parts, sep); var l := parts[|parts| - 1];
            |l| <= |j| && j[|j| - |l|..] == l
    decreases |parts|
  {
    if |parts| > 1 {
      LastPieceIsSuffix(parts[1..], sep);
    }
  }

  /** Text without the separator appended to a string extends its last piece. */
  lemma LastPieceAppend(s: string, t: string, sep: char)
    requires sep !in t
    ensures LastPiece(s + t, sep) == LastPiece(s, sep) + t
  {
    var last := LastPiece(s, sep);
    if sep in s {
      SplitInit(s, sep);
      var parts := Split(s, sep);
      var init := Join(parts[..|parts| - 1], sep);
      AppendRegroup(init, sep, last, t);
      LastPieceAfter(init, last + t, sep);
    } else {
      assert sep !in s + t;
      assert Split(s + t, sep) == [s + t];
      assert Split(s, sep) == [s];
    }
  }

  lemma AppendRegroup(a: string, sep: char, b: string, t: string)
    ensures a + [sep] + b + t == a + [sep] + (b + t)
  {
  }

  /** Appending a separator and a separator-free `b` appends the one piece `b`. */
  lemma SplitSnoc(a: string, b: string, sep: char)
    requires sep !in b
    ensures Split(a + [sep] + b, sep) == Split(a, sep) + [b]
  {
    var ps := Split(a, sep);
    JoinSplit(a, sep);
    JoinSnoc(ps, b, sep);
    var qs := ps + [b];
    assert forall i :: 0 <= i < |qs| ==> sep !in qs[i];
    SplitJoin(qs, sep);
  }

  /** The last piece of `a`, a separator and `b` is `b` when `b` has no separator. */
  lemma LastPieceAfter(a: string, b: string, sep: char)
    requires sep !in b
    ensures LastPiece(a + [sep] + b, sep) == b
  {
    SplitSnoc(a, b, sep);
  }

  /** `s` ends with `suffix`: Python's `str.endswith`. */
  predicate EndsWith(s: string, suffix: string)
  {
    |suffix| <= |s| && s[|s| - |suffix|..] == suffix
  }

  predicate IsDigit(c: char)
  {
    '0' <= c <= '9'
  }

  /** Every character is an ASCII digit (the empty string included). */
  predicate AllDigits(s: string)
  {
    forall i :: 0 <= i < |s| ==> IsDigit(s[i])
  }

  /** Python's `str.isdigit()` over ASCII: non-empty and all digits. */
  predicate IsDigits(s: string)
  {
    |s| > 0 && AllDigits(s)
  }

  function DigitChar(d: nat): (c: char)
    requires d < 10
    ensures IsDigit(c)
  {
    ('0' as int + d) as char
  }

  function DigitValue(c: char): (d: nat)
    requires IsDigit(c)
    ensures d < 10
  {
    c as int - '0' as int
  }

  /** The number a run of decimal digits denotes (0 for the empty run). */
  function DigitsValue(s: string): nat
    requires AllDigits(s)
  {
    if |s| == 0 then 0 else DigitsValue(s[..|s| - 1]) * 10 + DigitValue(s[|s| - 1])
  }

  /** Decimal rendering of a natural number, without leading zeros. */
  function NatToString(n: nat): (s: string)
    ensures IsDigits(s)
    decreases n
  {
    if n < 10 then [DigitChar(n)] else NatToString(n / 10) + [DigitChar(n % 10)]
  }

  /** Reading back a rendered number gives the number. */
  lemma {:induction false} NatToStringValue(n: nat)
    ensures DigitsValue(NatToString(n)) == n
    decreases n
  {
    var s := NatToString(n);
    if n >= 10 {
      NatToStringValue(n / 10);
      assert s[..|s| - 1] == NatToString(n / 10);
      assert DigitValue(DigitChar(n % 10)) == n % 10;
    } else {
      assert DigitValue(DigitChar(n)) == n;
    }
  }

  /**
   * Decimal rendering of an integer: Python's `str(int)`, Go's `strconv.Itoa`
   * and Java's `Integer.toString` all agree on this form.
   */
  function IntToString(x: int): (s: string)
    ensures |s| > 0
    ensures ':' !in s && '.' !in s && ',' !in s && '/' !in s
  {
    var s := if x < 0 then "-" + NatToString(-x) else NatToString(x);
    assert forall i :: 0 <= i < |s| ==> s[i] == '-' || IsDigit(s[i]);
    s
  }
}

=== FILE: util.dfy ===
/**
 * The string helpers of Python's `wrpc.common.util`: `check_hosts`, which
 * validates a fixed provider's host list with a regular expression, and
 * `get_clazz_string`, which pulls a class name out of `str(clazz)`.
 *
 * `check_hosts` is given twice: as the language of its pattern, written out
 * piece by piece with explicit split positions, and as a recognizer that
 * computes the positions where each piece can end. They accept the same
 * strings.
 */
module Util {
  import opened Wrappers
  import opened Text

  // ---------------------------------------------------------------- the pattern's language

  /** `s[i..j]` is a run of ASCII digits, at least `lo` long and at most `hi` (`hi < 0`: unbounded). */
  ghost predicate DigitRun(s: string, i: int, j: int, lo: nat, hi: int)
  {
    0 <= i <= j <= |s| && lo <= j - i && (hi < 0 || j - i <= hi) &&
    forall k :: i <= k < j ==> IsDigit(s[k])
  }

  /** `.\d{1,3}`: one character other than a newline, then one to three digits. */
  ghost predicate Group(s: string, i: int, j: int)
  {
    0 <= i < |s| && s[i] != '\n' && DigitRun(s, i + 1, j, 1, 3)
  }

  /** `(.\d{1,3}){n}` spans `s[i..j]`. */
  ghost predicate Groups(s: string, i: int, j: int, n: nat)
    decreases n
  {
    if n == 0 then i == j
    else exists m :: Group(s, i, m) && Groups(s, m, j, n - 1)
  }

  /** `\d{1,3}(.\d{1,3}){3}`. */
  ghost predicate Ip(s: string, i: int, j: int)
  {
    exists m :: DigitRun(s, i, m, 1, 3) && Groups(s, m, j, 3)
  }

  /** `:\d+`. */
  ghost predicate Port(s: string, i: int, j: int)
  {
    0 <= i < |s| && s[i] == ':' && DigitRun(s, i + 1, j, 1, -1)
  }

  /** `(:\d+){1,2}`. */
  ghost predicate Ports(s: string, i: int, j: int)
  {
    Port(s, i, j) || exists m :: Port(s, i, m) && Port(s, m, j)
  }

  /** One host: an address and one or two ports. */
  ghost predicate Item(s: string, i: int, j: int)
  {
    exists m :: Ip(s, i, m) && Ports(s, m, j)
  }

  /** `P(,P)*` spans `s[i..j]`, for the piece `P` that spans `s[a..b]` when `piece(a, b)`. */
  ghost predicate CommaList(piece: (int, int) -> bool, s: string, i: int, j: int)
    decreases if j > i then j - i else 0
  {
    piece(i, j) || exists m :: i < m < j && 0 <= m < |s| && piece(i, m) && s[m] == ',' && CommaList(piece, s, m + 1, j)
  }

  /** An item followed by any number of `,item`. */
  ghost predicate Items(s: string, i: int, j: int)
  {
    CommaList((a, b) => Item(s, a, b), s, i, j)
  }

  /**
   * `re.match` of the anchored pattern: the whole string is a host list, or
   * everything but a final newline is (`$` also matches just before it).
   */
  ghost predicate HostsPattern(s: string)
  {
    Items(s, 0, |s|) || (|s| > 0 && s[|s| - 1] == '\n' && Items(s, 0, |s| - 1))
  }

  // ---------------------------------------------------------------- the recognizer

  /** The length of the run of ASCII digits that starts at `i`. */
  function RunLength(s: string, i: nat): (n: nat)
    requires i <= |s|
    ensures i + n <= |s|
    ensures forall k :: i <= k < i + n ==> IsDigit(s[k])
    ensures i + n == |s| || !IsDigit(s[i + n])
    decreases |s| - i
  {
    if i < |s| && IsDigit(s[i]) then 1 + RunLength(s, i + 1) else 0
  }

  /** Where `\d{lo,hi}` can end when it starts at `i`. */
  function DigitEnds(s: string, i: nat, lo: nat, hi: int): (r: set<nat>)
    requires i <= |s|
    ensures forall j :: j in r ==> i < j <= |s| || (lo == 0 && j == i)
  {
    var run := RunLength(s, i);
    var cap := if 0 <= hi < run then hi else run;
    Span(i + lo, i + cap)
  }

  /** The positions from `lo` to `hi`, both included. */
  function Span(lo: nat, hi: nat): (r: set<nat>)
    ensures forall j :: j in r <==> lo <= j <= hi
    decreases if hi >= lo then hi - lo + 1 else 0
  {
    if hi < lo then {} else {lo} + Span(lo + 1, hi)
  }

  /** Where `.\d{1,3}` can end when it starts at `i`. */
  function GroupFrom(s: string, i: nat): (r: set<nat>)
  {
    if i < |s| && s[i] != '\n' then DigitEnds(s, i + 1, 1, 3) else {}
  }

  /** Where `:\d+` can end when it starts at `i`. */
  function PortFrom(s: string, i: nat): (r: set<nat>)
  {
    if i < |s| && s[i] == ':' then DigitEnds(s, i + 1, 1, -1) else {}
  }

  /** Where `.\d{1,3}` can end, starting from any of `starts`. */
  function GroupEnds(s: string, starts: set<nat>): (r: set<nat>)
    ensures forall j :: j in r ==> j <= |s|
  {
    set i, j | i in starts && j in GroupFrom(s, i) :: j
  }

  /** Where `(.\d{1,3}){n}` can end, starting from any of `starts`. */
  function GroupsEnds(s: string, starts: set<nat>, n: nat): (r: set<nat>)
    requires forall i :: i in starts ==> i <= |s|
    ensures forall j :: j in r ==> j <= |s|
    decreases n
  {
    if n == 0 then starts else GroupsEnds(s, GroupEnds(s, starts), n - 1)
  }

  /** Where an address can end when it starts at `i`. */
  function IpEnds(s: string, i: nat): (r: set<nat>)
    requires i <= |s|
    ensures forall j :: j in r ==> i < j <= |s|
  {
    var first := DigitEnds(s, i, 1, 3);
    var r := GroupsEnds(s, first, 3);
    assert forall j :: j in r ==> i < j by {
      GroupsEndsAfter(s, first, 3, i);
    }
    r
  }

  /** Where `:\d+` can end, starting from any of `starts`. */
  function PortEnds(s: string, starts: set<nat>): (r: set<nat>)
    ensures forall j :: j in r ==> exists i :: i in starts && i < j <= |s|
  {
    set i, j | i in starts && j in PortFrom(s, i) :: j
  }

  /** Where a host can end when it starts at `i`. */
  function ItemEnds(s: string, i: nat): (r: set<nat>)
    requires i <= |s|
    ensures forall j :: j in r ==> i < j <= |s|
  {
    var afterIp := IpEnds(s, i);
    var once := PortEnds(s, afterIp);
    once + PortEnds(s, once)
  }

  /**
   * `s[i..e]` is a comma-separated list of pieces, where the pieces that
   * start at `k` can end at `ends(k)`: some piece from `i` ends at `e`, or
   * at a comma that starts the rest.
   */
  function CommaListFrom(ends: nat -> set<nat>, s: string, i: nat, e: nat): bool
    requires i <= e <= |s|
    decreases e - i
  {
    exists m | m in ends(i) && i < m <= e :: m == e || (s[m] == ',' && CommaListFrom(ends, s, m + 1, e))
  }

  /** `s[i..e]` is a comma-separated list of hosts. */
  function HostsFrom(s: string, i: nat, e: nat): bool
    requires i <= e <= |s|
  {
    CommaListFrom((k: nat) => if k <= |s| then ItemEnds(s, k) else {}, s, i, e)
  }

  /** `check_hosts(hosts)`: whether `re.match` of the host-list pattern succeeds. */
  function CheckHosts(s: string): (ok: bool)
    ensures ok <==> HostsPattern(s)
  {
    HostsFromMatches(s, 0, |s|);
    HostsFromMatches(s, 0, if |s| > 0 then |s| - 1 else 0);
    HostsFrom(s, 0, |s|) || (|s| > 0 && s[|s| - 1] == '\n' && HostsFrom(s, 0, |s| - 1))
  }

  // ---------------------------------------------------------------- the recognizer accepts the pattern's language

  lemma DigitEndsMatch(s: string, i: nat, lo: nat, hi: int, j: int)
    requires i <= |s|
    ensures j in DigitEnds(s, i, lo, hi) <==> DigitRun(s, i, j, lo, hi)
  {
    var run := RunLength(s, i);
  }

  lemma GroupFromMatch(s: string, i: nat, j: int)
    ensures j in GroupFrom(s, i) <==> Group(s, i, j)
  {
    if i < |s| {
      DigitEndsMatch(s, i + 1, 1, 3, j);
    }
  }

  lemma PortFromMatch(s: string, i: nat, j: int)
    ensures j in PortFrom(s, i) <==> Port(s, i, j)
  {
    if i < |s| {
      DigitEndsMatch(s, i + 1, 1, -1, j);
    }
  }

  lemma GroupEndsMatch(s: string, starts: set<nat>, j: int)
    ensures j in GroupEnds(s, starts) <==> exists i :: i in starts && Group(s, i, j)
  {
    if j in GroupEnds(s, starts) {
      var i :| i in starts && j in GroupFrom(s, i);
      GroupFromMatch(s, i, j);
    }
    if i :| i in starts && Group(s, i, j) {
      GroupFromMatch(s, i, j);
    }
  }

  lemma {:induction false} GroupsEndsMatch(s: string, starts: set<nat>, n: nat, j: int)
    requires forall i :: i in starts ==> i <= |s|
    ensures j in GroupsEnds(s, starts, n) <==> exists i :: i in starts && Groups(s, i, j, n)
    decreases n
  {
    if n > 0 {
      var next := GroupEnds(s, starts);
      GroupsEndsMatch(s, next, n - 1, j);
      if j in GroupsEnds(s, starts, n) {
        var m :| m in next && Groups(s, m, j, n - 1);
        GroupEndsMatch(s, starts, m);
        var i :| i in starts && Group(s, i, m);
        assert Groups(s, i, j, n);
      }
      if i :| i in starts && Groups(s, i, j, n) {
        var m :| Group(s, i, m) && Groups(s, m, j, n - 1);
        GroupEndsMatch(s, starts, m);
        assert m in next;
      }
    }
  }

  lemma {:induction false} GroupsEndsAfter(s: string, starts: set<nat>, n: nat, i: nat)
    requires forall k :: k in starts ==> i < k <= |s|
    ensures forall j :: j in GroupsEnds(s, starts, n) ==> i < j
    decreases n
  {
    if n > 0 {
      var next := GroupEnds(s, starts);
      forall j | j in next
        ensures i < j
      {
        var k :| k in starts && j in GroupFrom(s, k);
      }
      GroupsEndsAfter(s, next, n - 1, i);
    }
  }

  lemma IpEndsMatch(s: string, i: nat, j: int)
    requires i <= |s|
    ensures j in IpEnds(s, i) <==> Ip(s, i, j)
  {
    var first := DigitEnds(s, i, 1, 3);
    GroupsEndsMatch(s, first, 3, j);
    if j in IpEnds(s, i) {
      var m :| m in first && Groups(s, m, j, 3);
      DigitEndsMatch(s, i, 1, 3, m);
    }
    if Ip(s, i, j) {
      var m :| DigitRun(s, i, m, 1, 3) && Groups(s, m, j, 3);
      DigitEndsMatch(s, i, 1, 3, m);
    }
  }

  lemma PortEndsMatch(s: string, starts: set<nat>, j: int)
    ensures j in PortEnds(s, starts) <==> exists i :: i in starts && Port(s, i, j)
  {
    if j in PortEnds(s, starts) {
      var i :| i in starts && j in PortFrom(s, i);
      PortFromMatch(s, i, j);
    }
    if i :| i in starts && Port(s, i, j) {
      PortFromMatch(s, i, j);
    }
  }

  lemma ItemEndsMatch(s: string, i: nat, j: int)
    requires i <= |s|
    ensures j in ItemEnds(s, i) <==> Item(s, i, j)
  {
    var afterIp := IpEnds(s, i);
    var once := PortEnds(s, afterIp);
    PortEndsMatch(s, afterIp, j);
    PortEndsMatch(s, once, j);
    if j in ItemEnds(s, i) {
      if j in once {
        var m :| m in afterIp && Port(s, m, j);
        IpEndsMatch(s, i, m);
        assert Ports(s, m, j);
      } else {
        var n :| n in once && Port(s, n, j);
        PortEndsMatch(s, afterIp, n);
        var m :| m in afterIp && Port(s, m, n);
        IpEndsMatch(s, i, m);
        assert Ports(s, m, j);
      }
    }
    if Item(s, i, j) {
      var m :| Ip(s, i, m) && Ports(s, m, j);
      IpEndsMatch(s, i, m);
      if !Port(s, m, j) {
        var n :| Port(s, m, n) && Port(s, n, j);
        PortEndsMatch(s, afterIp, n);
      }
    }
  }

  lemma HostsFromMatches(s: string, i: nat, e: nat)
    requires i <= e <= |s|
    ensures HostsFrom(s, i, e) <==> Items(s, i, e)
  {
    var ends := (k: nat) => if k <= |s| then ItemEnds(s, k) else {};
    var piece := (a, b) => Item(s, a, b);
    forall a: nat, b: int | a < b <= e
      ensures b in ends(a) <==> piece(a, b)
    {
      ItemEndsMatch(s, a, b);
    }
    forall a: int, b: int | piece(a, b)
      ensures 0 <= a < b
    {
      var m :| Ip(s, a, m) && Ports(s, m, b);
      var n :| DigitRun(s, a, n, 1, 3) && Groups(s, n, m, 3);
      if !Port(s, m, b) {
        var k :| Port(s, m, k) && Port(s, k, b);
      }
    }
    CommaListFromMatches(ends, piece, s, i, e);
  }

  lemma CommaListFromMatches(ends: nat -> set<nat>, piece: (int, int) -> bool, s: string, i: nat, e: nat)
    requires i <= e <= |s|
    requires forall a: nat, b: int :: a < b <= e ==> (b in ends(a) <==> piece(a, b))
    requires forall a: int, b: int :: piece(a, b) ==> 0 <= a < b
    ensures CommaListFrom(ends, s, i, e) <==> CommaList(piece, s, i, e)
  {
    if CommaListFrom(ends, s, i, e) {
      CommaListFromSound(ends, piece, s, i, e);
    }
    if CommaList(piece, s, i, e) {
      CommaListFromComplete(ends, piece, s, i, e);
    }
  }

  lemma {:induction false} CommaListFromSound(ends: nat -> set<nat>, piece: (int, int) -> bool, s: string, i: nat, e: nat)
    requires i <= e <= |s|
    requires forall a: nat, b: int :: a < b <= e ==> (b in ends(a) <==> piece(a, b))
    requires CommaListFrom(ends, s, i, e)
    ensures CommaList(piece, s, i, e)
    decreases e - i
  {
    var m :| m in ends(i) && i < m <= e && (m == e || (s[m] == ',' && CommaListFrom(ends, s, m + 1, e)));
    if m != e {
      CommaListFromSound(ends, piece, s, m + 1, e);
    }
  }

  lemma {:induction false} CommaListFromComplete(ends: nat -> set<nat>, piece: (int, int) -> bool, s: string, i: nat, e: nat)
    requires i <= e <= |s|
    requires forall a: nat, b: int :: a < b <= e ==> (b in ends(a) <==> piece(a, b))
    requires forall a: int, b: int :: piece(a, b) ==> 0 <= a < b
    requires CommaList(piece, s, i, e)
    ensures CommaListFrom(ends, s, i, e)
    decreases e - i
  {
    if !piece(i, e) {
      var m :| i < m < e && 0 <= m < |s| && piece(i, m) && s[m] == ',' && CommaList(piece, s, m + 1, e);
      CommaListFromComplete(ends, piece, s, m + 1, e);
    }
  }

  // ---------------------------------------------------------------- what the pattern accepts

  /** Every host list ends with a port: a colon and at least one digit. */
  lemma ListEndsWithPort(s: string, i: int, e: int)
    requires Items(s, i, e)
    ensures exists k :: i < k && Port(s, k, e)
  {
    CommaListLast((a, b) => Item(s, a, b), s, i, e);
    var a :| i <= a && Item(s, a, e);
    ItemEndsWithPort(s, a, e);
  }

  /** A comma list ends with a whole piece. */
  lemma {:induction false} CommaListLast(piece: (int, int) -> bool, s: string, i: int, e: int)
    requires CommaList(piece, s, i, e)
    ensures exists a :: i <= a && piece(a, e)
    decreases if e > i then e - i else 0
  {
    if !piece(i, e) {
      var m :| i < m < e && 0 <= m < |s| && piece(i, m) && s[m] == ',' && CommaList(piece, s, m + 1, e);
      CommaListLast(piece, s, m + 1, e);
    }
  }

  lemma ItemEndsWithPort(s: string, i: int, e: int)
    requires Item(s, i, e)
    ensures exists k :: i < k && Port(s, k, e)
  {
    var m :| Ip(s, i, m) && Ports(s, m, e);
    var n :| DigitRun(s, i, n, 1, 3) && Groups(s, n, m, 3);
    GroupsAfter(s, n, m, 3);
    if !Port(s, m, e) {
      var k :| Port(s, m, k) && Port(s, k, e);
    }
  }

  lemma {:induction false} GroupsAfter(s: string, i: int, j: int, n: nat)
    requires Groups(s, i, j, n)
    ensures i <= j
    decreases n
  {
    if n > 0 {
      var m :| Group(s, i, m) && Groups(s, m, j, n - 1);
      GroupsAfter(s, m, j, n - 1);
    }
  }

  /** A host list ends in a digit, or in a digit and the one newline `$` lets through. */
  lemma PatternEndsInDigit(s: string)
    requires HostsPattern(s)
    ensures |s| > 0
    ensures IsDigit(s[|s| - 1]) || (|s| >= 2 && s[|s| - 1] == '\n' && IsDigit(s[|s| - 2]))
  {
    if Items(s, 0, |s|) {
      ListEndsWithPort(s, 0, |s|);
    } else {
      ListEndsWithPort(s, 0, |s| - 1);
    }
  }

  /** Four digit groups, the last three each led by one character, make an address. */
  lemma IpOfGroups(s: string, i: int, a: int, b: int, c: int, j: int)
    requires DigitRun(s, i, a, 1, 3) && Group(s, a, b) && Group(s, b, c) && Group(s, c, j)
    ensures Ip(s, i, j)
  {
    assert Groups(s, j, j, 0);
    assert Groups(s, c, j, 1);
    assert Groups(s, b, j, 2);
    assert Groups(s, a, j, 3);
  }

  /** An address followed by one port is a host. */
  lemma ItemOfPort(s: string, i: int, m: int, j: int)
    requires Ip(s, i, m) && Port(s, m, j)
    ensures Item(s, i, j)
  {
    assert Ports(s, m, j);
  }

  /** An address followed by a port and a weight is a host. */
  lemma ItemOfPortAndWeight(s: string, i: int, m: int, n: int, j: int)
    requires Ip(s, i, m) && Port(s, m, n) && Port(s, n, j)
    ensures Item(s, i, j)
  {
    assert Ports(s, m, j);
  }

  /** A string that is one whole host is a host list. */
  lemma OneItemAccepted(s: string)
    requires Item(s, 0, |s|)
    ensures CheckHosts(s)
  {
    assert Items(s, 0, |s|);
  }

  /** A single host, an address and a port. */
  lemma AcceptsOneHost()
    ensures CheckHosts("127.0.0.1:2181")
  {
    var s := "127.0.0.1:2181";
    assert DigitRun(s, 0, 3, 1, 3);
    assert Group(s, 3, 5) && Group(s, 5, 7) && Group(s, 7, 9);
    IpOfGroups(s, 0, 3, 5, 7, 9);
    assert Port(s, 9, 14);
    ItemOfPort(s, 0, 9, 14);
    OneItemAccepted(s);
  }

  /** A host with a port and a weight. */
  lemma AcceptsPortAndWeight()
    ensures CheckHosts("127.0.0.1:8603:2")
  {
    var s := "127.0.0.1:8603:2";
    assert DigitRun(s, 0, 3, 1, 3);
    assert Group(s, 3, 5) && Group(s, 5, 7) && Group(s, 7, 9);
    IpOfGroups(s, 0, 3, 5, 7, 9);
    assert Port(s, 9, 14) && Port(s, 14, 16);
    ItemOfPortAndWeight(s, 0, 9, 14, 16);
    OneItemAccepted(s);
  }

  /** The unescaped `.` takes any character but a newline: commas included, so "1,2,3,4:5" is one host. */
  lemma AcceptsAnySeparator()
    ensures CheckHosts("1,2,3,4:5")
  {
    var s := "1,2,3,4:5";
    assert DigitRun(s, 0, 1, 1, 3);
    assert Group(s, 1, 3) && Group(s, 3, 5) && Group(s, 5, 7);
    IpOfGroups(s, 0, 1, 3, 5, 7);
    assert Port(s, 7, 9);
    ItemOfPort(s, 0, 7, 9);
    OneItemAccepted(s);
  }

  /** The empty string and a trailing comma are rejected. */
  lemma RejectsEmptyAndTrailingComma()
    ensures !CheckHosts("")
    ensures !CheckHosts("127.0.0.1:2181,")
  {
    if CheckHosts("") {
      PatternEndsInDigit("");
    }
    var s := "127.0.0.1:2181,";
    if CheckHosts(s) {
      PatternEndsInDigit(s);
    }
  }

  /** A host without a port is rejected: there is no colon to start one. */
  lemma RejectsMissingPort()
    ensures !CheckHosts("127.0.0.1")
  {
    var s := "127.0.0.1";
    if CheckHosts(s) {
      if Items(s, 0, |s|) {
        ListEndsWithPort(s, 0, |s|);
      } else {
        ListEndsWithPort(s, 0, |s| - 1);
      }
    }
  }

  /** A host takes one or two ports, never three. */
  lemma RejectsThreePorts()
    ensures !CheckHosts("1.2.3.4:1:2:3")
  {
    var s := "1.2.3.4:1:2:3";
    assert !HostsPattern(s) by {
      if Items(s, 0, |s|) {
        CommaFreeList((a, b) => Item(s, a, b), s, 0, |s|);
        ThreePortsNotItem();
      }
    }
  }

  /** Without a comma, a list is a single piece. */
  lemma CommaFreeList(piece: (int, int) -> bool, s: string, i: int, j: int)
    requires forall m :: 0 <= m < |s| ==> s[m] != ','
    requires CommaList(piece, s, i, j)
    ensures piece(i, j)
  {
  }

  lemma ThreePortsNotItem()
    ensures !Item("1.2.3.4:1:2:3", 0, 13)
  {
    var s := "1.2.3.4:1:2:3";
    if Item(s, 0, |s|) {
      var m :| Ip(s, 0, m) && Ports(s, m, |s|);
      OneDigitGroupsIp(s, m);
      ThreePortsNotPorts();
    }
  }

  lemma ThreePortsNotPorts()
    ensures !Ports("1.2.3.4:1:2:3", 7, 13)
  {
    var s := "1.2.3.4:1:2:3";
    assert !IsDigit(s[9]) && !IsDigit(s[11]);
    assert !Port(s, 7, 13);
  }

  lemma OneDigitGroupsIp(s: string, m: int)
    requires s == "1.2.3.4:1:2:3" && Ip(s, 0, m)
    ensures m == 7
  {
    assert |s| == 13 && !IsDigit(s[1]) && !IsDigit(s[3]) && !IsDigit(s[5]) && !IsDigit(s[7]);
    SingleDigitIp(s, m);
  }

  /** An address whose digit runs are all cut short after one digit spans exactly seven characters. */
  lemma SingleDigitIp(s: string, m: int)
    requires |s| > 7 && !IsDigit(s[1]) && !IsDigit(s[3]) && !IsDigit(s[5]) && !IsDigit(s[7])
    requires Ip(s, 0, m)
    ensures m == 7
  {
    var a :| DigitRun(s, 0, a, 1, 3) && Groups(s, a, m, 3);
    ShortRun(s, 0, a);
    var b :| Group(s, a, b) && Groups(s, b, m, 2);
    ShortRun(s, a + 1, b);
    var c :| Group(s, b, c) && Groups(s, c, m, 1);
    ShortRun(s, b + 1, c);
    var d :| Group(s, c, d) && Groups(s, d, m, 0);
    ShortRun(s, c + 1, d);
  }

  /** A digit run that meets a non-digit right after its first character has length one. */
  lemma ShortRun(s: string, i: int, j: int)
    requires DigitRun(s, i, j, 1, 3) && i + 1 < |s| && !IsDigit(s[i + 1])
    ensures j == i + 1
  {
  }

  // ---------------------------------------------------------------- get_clazz_string

  /**
   * The lazy `.+?` that starts at `i` stops at `j`: `s[j]` is the first quote
   * after `i`, and no character it consumes, `s[i..j]`, is a newline.
   */
  ghost predicate Closes(s: string, i: int, j: int)
  {
    0 <= i < j < |s| && s[j] == '\'' &&
    (forall k :: i < k < j ==> s[k] != '\'') &&
    (forall k :: i <= k < j ==> s[k] != '\n')
  }

  /** `(?<=').+?(?=')` matches `s[i..j]`: a quote before `i` and the lazy match closing at `j`. */
  ghost predicate QuotedAt(s: string, i: int, j: int)
  {
    1 <= i && i - 1 < |s| && s[i - 1] == '\'' && Closes(s, i, j)
  }

  /** Where the lazy match from `i` closes, if it does. */
  function CloseQuote(s: string, i: nat): (r: Option<nat>)
    ensures r.Some? ==> Closes(s, i, r.value)
    ensures forall j :: Closes(s, i, j) ==> r == Some(j)
  {
    if i >= |s| || s[i] == '\n' then None else CloseFrom(s, i, i + 1)
  }

  function CloseFrom(s: string, i: nat, k: nat): (r: Option<nat>)
    requires i < k <= |s|
    requires forall m :: i <= m < k ==> s[m] != '\n' && (m > i ==> s[m] != '\'')
    ensures r.Some? ==> Closes(s, i, r.value)
    ensures forall j :: Closes(s, i, j) ==> r == Some(j)
    decreases |s| - k
  {
    if k == |s| then None
    else if s[k] == '\'' then Some(k)
    else if s[k] == '\n' then None
    else CloseFrom(s, i, k + 1)
  }

  /** `re.search`: the leftmost start, at or after `i`, from which the pattern matches. */
  function SearchQuoted(s: string, i: nat): (r: Option<(nat, nat)>)
    requires i >= 1
    ensures r.Some? ==> i <= r.value.0 && QuotedAt(s, r.value.0, r.value.1)
    ensures r.Some? ==> forall a, b :: i <= a && QuotedAt(s, a, b) ==> r.value.0 <= a
    ensures r.None? ==> forall a, b :: i <= a ==> !QuotedAt(s, a, b)
    decreases if i <= |s| then |s| - i + 1 else 0
  {
    if i > |s| then None
    else
      var close := CloseQuote(s, i);
      if s[i - 1] == '\'' && close.Some? then Some((i, close.value))
      else SearchQuoted(s, i + 1)
  }

  /**
   * `get_clazz_string` on the text `str(clazz)`: the text between the first
   * quote pair the pattern finds, or the text itself.
   */
  function GetClazzString(text: string): (r: string)
    ensures '\'' !in text ==> r == text
    ensures forall i, j :: QuotedAt(text, i, j) && (forall a, b :: QuotedAt(text, a, b) ==> i <= a) ==> r == text[i..j]
    ensures (forall i, j :: !QuotedAt(text, i, j)) ==> r == text
  {
    if '\'' in text then
      match SearchQuoted(text, 1)
      case Some((i, j)) => text[i..j]
      case None => text
    else text
  }

  /** The name inside `<class '...'>` comes out, dots and all. */
  lemma ClazzStringOfClass()
    ensures GetClazzString("<class 'a.b.C'>") == "a.b.C"
  {
    var s := "<class 'a.b.C'>";
    assert QuotedAt(s, 8, 13);
    assert forall k :: 0 <= k < 7 ==> s[k] != '\'';
    assert forall a, b :: QuotedAt(s, a, b) ==> 8 <= a;
  }
}

=== FILE: wrappers.dfy ===
/** Failure-carrying values shared by every module of the model. */
module Wrappers {

  /** A value that may be absent: Python's None, Go's nil, Java's null. */
  datatype Option<+T> = None | Some(value: T) {
    function GetOr(default: T): T {
      match this
      case Some(v) => v
      case None => default
    }
  }

  /** Either a value or the error the source raises, returns or throws. */
  datatype Result<+T, +E> = Ok(value: T) | Err(error: E)

  /** `f` applied to each element in order, stopping at the first error. */
  function MapResults<A, B, E>(f: A -> Result<B, E>, xs: seq<A>): (r: Result<seq<B>, E>)
    ensures r.Ok? <==> forall i :: 0 <= i < |xs| ==> f(xs[i]).Ok?
    ensures r.Ok? ==> |r.value| == |xs| && forall i :: 0 <= i < |xs| ==> f(xs[i]) == Ok(r.value[i])
    ensures r.Err? ==> exists i :: 0 <= i < |xs| && f(xs[i]) == Err(r.error) &&
                                   forall k :: 0 <= k < i ==> f(xs[k]).Ok?
  {
    if |xs| == 0 then Ok([])
    else match f(xs[0])
      case Err(e) => Err(e)
      case Ok(y) =>
        match MapResults(f, xs[1..])
        case Err(e) =>
          MapResultsErrStep(f, xs, e);
          Err(e)
        case Ok(ys) =>
          MapResultsOkStep(f, xs, y, ys);
          Ok([y] + ys)
  }

  /** A successful head in front of a successful tail gives a successful whole. */
  lemma MapResultsOkStep<A, B, E>(f: A -> Result<B, E>, xs: seq<A>, y: B, ys: seq<B>)
    requires |xs| > 0 && f(xs[0]) == Ok(y)
    requires |ys| == |xs| - 1 && forall i :: 0 <= i < |ys| ==> f(xs[1..][i]) == Ok(ys[i])
    ensures forall i :: 0 <= i < |xs| ==> f(xs[i]) == Ok(([y] + ys)[i])
  {
    forall i | 1 <= i < |xs|
      ensures f(xs[i]) == Ok(([y] + ys)[i])
    {
      assert xs[i] == xs[1..][i - 1];
    }
  }

  /** The first error of the tail, behind a successful head, is the first error of the whole. */
  lemma MapResultsErrStep<A, B, E>(f: A -> Result<B, E>, xs: seq<A>, e: E)
    requires |xs| > 0 && f(xs[0]).Ok?
    requires exists i :: 0 <= i < |xs| - 1 && f(xs[1..][i]) == Err(e) && forall k :: 0 <= k < i ==> f(xs[1..][k]).Ok?
    ensures exists i :: 0 <= i < |xs| && f(xs[i]) == Err(e) && forall k :: 0 <= k < i ==> f(xs[k]).Ok?
  {
    var i :| 0 <= i < |xs| - 1 && f(xs[1..][i]) == Err(e) && forall k :: 0 <= k < i ==> f(xs[1..][k]).Ok?;
    assert f(xs[i + 1]) == Err(e);
    forall k | 0 < k < i + 1
      ensures f(xs[k]).Ok?
    {
      assert xs[k] == xs[1..][k - 1];
    }
  }

  /**
   * `f` applied to each element in order until the first error: the values
   * made before it, and the error if there was one.
   */
  function MapUntilError<A, B, E>(f: A -> Result<B, E>, xs: seq<A>): (r: (seq<B>, Option<E>))
    ensures |r.0| <= |xs|
    ensures forall i :: 0 <= i < |r.0| ==> f(xs[i]) == Ok(r.0[i])
    ensures r.1.None? <==> |r.0| == |xs|
    ensures r.1.Some? ==> f(xs[|r.0|]) == Err(r.1.value)
  {
    if |xs| == 0 then ([], None)
    else match f(xs[0])
      case Err(e) => ([], Some(e))
      case Ok(y) =>
        var (ys, e) := MapUntilError(f, xs[1..]);
        assert forall i :: 1 <= i < |xs| ==> xs[i] == xs[1..][i - 1];
        ([y] + ys, e)
  }

  /** Stopping at the first error, `MapResults` fails exactly when `MapUntilError` meets one. */
  lemma {:induction false} MapResultsUntilError<A, B, E>(f: A -> Result<B, E>, xs: seq<A>)
    ensures var (ys, e) := MapUntilError(f, xs);
            MapResults(f, xs) == if e.None? then Ok(ys) else Err(e.value)
  {
    if |xs| > 0 && f(xs[0]).Ok? {
      MapResultsUntilError(f, xs[1..]);
    }
  }
}
